=== FILE: README.md ===
# ICSI meeting transcript ingestion, modelled in Dafny

This project models the ingestion side of a chatbot over the ICSI Meeting
Recorder corpus. It covers the following parts of the program:

- **Identifiers.** Meeting identifiers such as `Bmr001` split into a location,
  a two-letter meeting-type code and a number. Speaker identifiers such as
  `me011` split into gender, native-English flag and number. The table of the
  eight meeting types has the `"Unknown meeting type"` fallback.
- **`clean_text`.** The fifteen stages, then `strip`, that turn a serialized
  `Segment` element into readable text. The stages are entity decoding, the
  ten tag-rewriting `re.sub` calls, the `O_K` collapsing, the three-letter
  and two-letter acronym collapsing, and the whitespace-run `re.sub`.
- **`is_empty_or_noise` and `extract_preamble_info`.**
- **`parse_mrt_file`.** One transcript file, already parsed into its element
  tree, becomes one document. The document has one `[speaker]: text` line per
  kept utterance and the meeting's metadata.
- **`load_transcripts`.** It selects the `*.mrt` files of a directory other
  than `preambles.mrt`, parses them in sorted order, and aggregates utterance
  counts, speakers and meeting-type counts.
- **The upload path.** `FileProcessor` validates the file type and size, and
  its `process_file` accepts only `.mrt` files and tags the document with
  the uploaded file name. `FileCache` holds documents by content hash and
  remembers the hash of each uploaded file name.

Modules follow the program:

| module | what it holds |
|---|---|
| `Wrappers` | `Option`, `Result`, `Outcome` |
| `Text` | the Python `str` operations used: `strip`, `lower`, `split`, slicing |
| `Dict` | an insertion-ordered dictionary, as Python's `dict` is |
| `Paths` | `pathlib`'s `name`, `suffix` and `stem` |
| `Identifiers` | identifier parsing and the meeting-type table |
| `Rewrite` | each `re.sub` stage as a left-to-right scan with the stage's matcher |
| `Markup` | `clean_text` |
| `CleanTextExamples` | what `clean_text` does to each kind of markup |
| `Noise` | `is_empty_or_noise` |
| `Transcript` | `extract_preamble_info` and `parse_mrt_file` |
| `Corpus` | `load_transcripts` |
| `FileProcessor` | `validate_file_type`, `validate_file_size` and `process_file` |
| `FileCache` | the upload cache |

## How `re.sub` is modelled

A stage of `clean_text` scans its input from left to right. At each index it
asks the stage's matcher for a match. On a match, it emits the replacement
and continues after the matched text. Otherwise it copies one character.

Each matcher is the result of Python's backtracking search for that
pattern at that index. A greedy character-class repetition takes the
longest run. Where giving characters back could change the outcome, the
matcher states what the search settles on. None of the fourteen `re.sub`
patterns matches the empty string, so this scan is exactly `re.sub`'s iteration.

## Notes on the code's behaviour

The model follows the code. These behaviours follow from it and are
proved:

- **`clean_text` is not idempotent.** It decodes entities once, so
  `&amp;amp;` becomes `&amp;` and a second pass gives `&`
  (`CleanTextExamples.CleanTextNotIdempotent`). It is idempotent on text that
  has no `&`, `<` or `_` and is already normalized
  (`Markup.CleanTextKeepsProse`).
- **`<Uncertain>@@</Uncertain>` becomes `(@@?)`, not `(unintelligible)`.**
  The plain uncertain stage runs first and consumes it
  (`CleanTextExamples.UncertainAtAt`).
- **`<Uncertain> maybe </Uncertain>` becomes `(maybe ?)`.** The greedy
  `[^<]+` keeps the trailing space inside the group
  (`CleanTextExamples.MaybeIsUncertain`).
- **`A_B_C_D` becomes `A_BCD`.** At the first position the three-letter
  pattern fails, because `\b` does not hold before `_`. Two positions later
  it matches `B_C_D` (`CleanTextExamples.FourPartAcronym`).
- **`[laugh] [breath]` is not noise.** The bracket pattern admits only
  one pair of brackets (`Noise.LaughThenBreathIsNotNoise`).
- **Notes whose stripped text is empty do not appear in the metadata**
  (`Transcript.MetadataNotes`).
- **A zero duration is not recorded**, because the code tests its
  truthiness (`Transcript.MetadataDuration`).
- **The `"unknown"` default of the meeting-type count never applies.** The
  metadata always has a `meeting_type` key, so a file with a short name is
  counted under `None` (`Corpus.LoadTranscriptsTotals`).

## Model

| member | source | states |
|---|---|---|
| Identifiers.ParseMeetingId | src/ingestion.py:76-91 | An identifier of at least six characters splits into a one-letter location, a two-letter type code and the rest, which concatenate back to the identifier; a shorter one gives three absent parts |
| Identifiers.ParseSpeakerId | src/ingestion.py:94-110 | The raw identifier is always kept; with at least five characters, gender comes from the first letter, the native flag is whether the second is `e`, and the number is everything after the first two characters; otherwise the three fields are absent |
| Identifiers.GenderOf | src/ingestion.py:106-107 | The gender is one of male, female, unknown, computer |
| Identifiers.GenderUnknown | src/ingestion.py:106-107 | The gender is `unknown` exactly when the code is not `m`, `f` or `x` (so `u` and every unrecognised code) |
| Identifiers.MeetingTypeTable | src/ingestion.py:41-50 | Exactly the eight codes db, ed, mr, ns, ro, sr, tr, uw have a description, and every description is non-empty |
| Identifiers.MeetingTypeDescribed | src/ingestion.py:41-50 | No description in the table is empty or equal to the fallback text, so the fallback identifies unknown codes |
| Identifiers.MeetingTypeDescription | src/ingestion.py:239-240 | A known code gets its table description; the description is `"Unknown meeting type"` exactly when the code is absent or unknown; it is never empty |
| Identifiers.MeetingIdExamples | tests/test_ingestion.py:21-39 | `Bmr001` gives (B, mr, 001), `Bed005` and `Bro017` give ed and ro, `Bmr` gives nothing and is described as unknown |
| Identifiers.SpeakerIdExamples | tests/test_ingestion.py:45-61 | `me011` is a male native speaker 011, `fn002` female and non-native, `ue001` unknown, `me01` has only its raw identifier |
| Rewrite.EntityAt | src/ingestion.py:125 | An entity match starts at an `&` and stays inside the text |
| Rewrite.DescribedTag | src/ingestion.py:128-132 | A described-sound match starts with `<` and the tag name, and ends inside the text |
| Rewrite.DescriptionAttribute | src/ingestion.py:128 | The `\s+Description="…"\s*/>` part of the pattern matches a non-empty stretch inside the text |
| Rewrite.DescriptionValue | src/ingestion.py:128 | The quoted description and closing `/>` match a non-empty stretch inside the text |
| Rewrite.WrappedBody | src/ingestion.py:138-154 | The `\s*([^<]+)\s*</Name>` part matches a non-empty stretch inside the text |
| Rewrite.OpenTagBody | src/ingestion.py:149-154 | A `<Name[^>]*>`-opened match starts with `<Name` and stays inside the text; what it matches in full is stated by `Rewrite.OpenTagHit` |
| Rewrite.UnintelligibleAt | src/ingestion.py:145-146 | An unintelligible match starts with `<Uncertain` and stays inside the text; what it matches in full is stated by `Rewrite.UnintelligibleHit` |
| Rewrite.AnyTagAt | src/ingestion.py:161 | `<[^>]+>` matches at an index exactly when there is a `<` there, at least one non-`>` character after it and then a `>` |
| Rewrite.Acronym3At | src/ingestion.py:167-168 | A three-letter acronym match stays inside the text |
| Rewrite.Acronym2At | src/ingestion.py:170-171 | A two-letter acronym match stays inside the text |
| Rewrite.PauseAt | src/ingestion.py:135 | A pause match starts with `<Pause` |
| Rewrite.EmphasisAt | src/ingestion.py:138-139 | An emphasis match starts with `<Emphasis>` |
| Rewrite.UncertainAt | src/ingestion.py:142-143 | An uncertain match starts with `<Uncertain>` |
| Rewrite.OkTokenAt | src/ingestion.py:164 | An `O_K` match starts with `O_K` |
| Rewrite.SpaceRunAt | src/ingestion.py:174 | A whitespace-run match stays inside the text |
| Rewrite.MatchAt | src/ingestion.py:125-174 | Every stage's matches are non-empty, stay inside the text, and start at the stage's trigger character where it has one (`&`, `<` or `O`) |
| Rewrite.MatcherAdvances | src/ingestion.py:125-174 | No stage's pattern matches the empty string, so the scan always advances |
| Rewrite.ScanCopies | src/ingestion.py:125-174 | A stage with no match from an index onwards copies the rest of its input unchanged |
| Rewrite.CopyUpTo | src/ingestion.py:125-174 | Up to the first match, a stage copies its input |
| Rewrite.SingleHit | src/ingestion.py:125-174 | A stage with exactly one match replaces that stretch and copies the rest |
| Rewrite.SingleHitIn | src/ingestion.py:125-161 | A tag or entity stage whose trigger character occurs only at one match replaces that match and copies the rest |
| Rewrite.CopiesIfOnlyMisses | src/ingestion.py:125-161 | A stage copies text where no occurrence of its trigger character starts a match |
| Rewrite.NoTriggerNoChange | src/ingestion.py:125-164 | Without its trigger character, a stage returns its input unchanged |
| Rewrite.NoUnderscoreNoChange | src/ingestion.py:164-171 | Without `_`, the `O_K` and acronym stages return their input unchanged |
| Rewrite.NoSpaceNoChange | src/ingestion.py:174 | Without whitespace, the whitespace stage returns its input unchanged |
| Rewrite.SpaceRunShape | src/ingestion.py:174 | After the whitespace stage, no two whitespace characters are adjacent and only plain spaces remain; the output is empty only for empty input and starts with whitespace exactly when the input does |
| Rewrite.SpaceRunKeepsNormalized | src/ingestion.py:174 | Text already made of single plain spaces passes the whitespace stage unchanged |
| Rewrite.Acronym3Collapses | src/ingestion.py:167-168 | In text with no other `_`, `x_y_z` (word characters, `x` not `_`) followed by a non-word character or the end becomes `xyz`, the rest unchanged |
| Rewrite.Acronym2Collapses | src/ingestion.py:170-171 | In text with no other `_`, `x_y` (word characters, `x` not `_`) followed by a non-word character or the end becomes `xy`, the rest unchanged |
| Rewrite.OkTokenCollapses | src/ingestion.py:164 | In text with no other `_`, an `O_K` with no word character on either side becomes `OK`, the rest unchanged |
| Rewrite.DescribedTagMiss | src/ingestion.py:128-132 | A `<` not followed by the tag name's first letter does not start a described-sound match |
| Rewrite.DescriptionHit | src/ingestion.py:128 | ` Description="d"/>` with a non-empty `d` free of quotes matches, capturing `d` |
| Rewrite.VocalSoundHit | src/ingestion.py:128-129 | `<VocalSound Description="d"/>`, for a non-empty `d` without `"`, matches in full and is replaced by `[d]` |
| Rewrite.WrappedBodyHit | src/ingestion.py:138-143 | Leading whitespace, a word run free of `<` and the closing tag match, capturing the run with any trailing whitespace |
| Rewrite.UncertainHit | src/ingestion.py:142-143 | `<Uncertain>` around leading spaces and `w` matches in full and is replaced by `(w?)` |
| Rewrite.EmphasisHit | src/ingestion.py:138-139 | `<Emphasis>` around leading spaces and `w` matches in full and is replaced by `w` |
| Rewrite.DescribedTagHit | src/ingestion.py:128-132 | `<Name Description="d"/>`, with a non-empty `d` free of quotes, matches in full and captures `d` |
| Rewrite.CommentHit | src/ingestion.py:157-158 | `<Comment Description="d"/>`, for a non-empty `d` without `"`, matches in full and is replaced by nothing |
| Rewrite.OpenTagHit | src/ingestion.py:149-154 | `<Name x>` with attributes free of `>`, then leading whitespace, words free of `<` starting with a non-space, and `</Name>`, matches in full and captures the words |
| Rewrite.OpenTagMiss | src/ingestion.py:149-154 | A `<` not followed by the tag name's first letter does not start a `<Name[^>]*>` match |
| Rewrite.ForeignHit | src/ingestion.py:149-150 | `<Foreign x>` around leading whitespace and words matches in full and is replaced by the words |
| Rewrite.PronounceHit | src/ingestion.py:153-154 | `<Pronounce x>` around leading whitespace and words matches in full and is replaced by the words |
| Rewrite.UnintelligibleHit | src/ingestion.py:145-146 | `<Uncertain x>`, optional whitespace, `@@`, optional whitespace and `</Uncertain>` match in full and are replaced by `(unintelligible)` |
| Rewrite.AnyTagHit | src/ingestion.py:161 | `<x>`, for a non-empty `x` without `>`, matches in full and is removed |
| Rewrite.SpaceRunKeepsNonSpace | src/ingestion.py:174 | The whitespace stage keeps every non-whitespace character, in order, and adds none |
| Rewrite.SpaceRunCollapses | src/ingestion.py:174 | A whole run of whitespace, up to a non-space or the end, becomes exactly one plain space |
| Rewrite.SpaceRunBetweenWords | src/ingestion.py:174 | Between two stretches without whitespace, a whitespace run becomes one plain space and nothing else changes |
| Markup.NormalizeSpace | src/ingestion.py:173-175 | The result has no whitespace at either end, never two whitespace characters in a row, only plain spaces, so no line break; its non-whitespace characters are exactly those of the input, in order |
| Markup.NormalizeSpaceKeeps | src/ingestion.py:173-175 | Text that is already normalized is unchanged |
| Markup.NormalizeSpaceBetweenWords | src/ingestion.py:173-175 | Two words separated by any whitespace run come out one plain space apart |
| Markup.CleanText | src/ingestion.py:113-177 | Empty input gives `""`; every result is stripped, has single plain spaces only, and has no line break; whitespace normalization drops no other character of the rewritten text |
| Markup.RewriteTagsPlain | src/ingestion.py:127-161 | Text without `<` passes all tag stages unchanged |
| Markup.RewriteAcronymsPlain | src/ingestion.py:163-171 | Text without `_` passes the underscore stages unchanged |
| Markup.CleanTextPlain | src/ingestion.py:113-177 | Text without `&`, `<` and `_` is only whitespace-normalized |
| Markup.CleanTextKeepsProse | src/ingestion.py:113-177 | Normalized text without `&`, `<` and `_` is a fixed point of `clean_text` |
| CleanTextExamples.CleanTextDecodesAmpersand | src/ingestion.py:125 | An `&amp;` in otherwise plain text becomes `&` |
| CleanTextExamples.AmpersandDecodes | src/ingestion.py:125 | Decoding turns a single `&amp;` into `&` and copies the rest |
| CleanTextExamples.TomAndJerry | tests/test_ingestion.py:72-74 | `Tom &amp; Jerry` cleans to `Tom & Jerry` |
| CleanTextExamples.CleanTextNotIdempotent | src/ingestion.py:125 | `&amp;amp;` cleans to `&amp;`, which cleans to `&`: one pass is not a fixed point |
| CleanTextExamples.AmpersandAlone | src/ingestion.py:125 | `&amp;` cleans to `&` |
| CleanTextExamples.VocalSoundBecomesBracketed | src/ingestion.py:128-161 | A vocal-sound tag in text without other markup becomes `[description]` after all tag stages |
| CleanTextExamples.CleanTextVocalSound | src/ingestion.py:113-177 | `clean_text` turns a vocal-sound tag into `[description]` |
| CleanTextExamples.LaughIsBracketed | tests/test_ingestion.py:76-79 | `<VocalSound Description="laugh"/>` cleans to `[laugh]` |
| CleanTextExamples.PauseBecomesEllipsis | src/ingestion.py:135-161 | `<Pause/>` in text without other markup becomes `...` after all tag stages |
| CleanTextExamples.CleanTextPause | src/ingestion.py:113-177 | `clean_text` turns `<Pause/>` into `...` |
| CleanTextExamples.HelloPauseWorld | tests/test_ingestion.py:81-85 | `Hello <Pause/> world` cleans to `Hello ... world` |
| CleanTextExamples.EmphasisKeepsWords | src/ingestion.py:138-161 | An emphasis tag is replaced by its words after all tag stages |
| CleanTextExamples.CleanTextEmphasis | src/ingestion.py:113-177 | `clean_text` keeps the emphasized words, stripped |
| CleanTextExamples.CleanTextEmphasisAlone | src/ingestion.py:113-177 | An emphasis tag alone cleans to its words without the surrounding spaces |
| CleanTextExamples.ImportantIsEmphasized | tests/test_ingestion.py:87-91 | `<Emphasis> important </Emphasis>` cleans to `important` |
| CleanTextExamples.UncertainBecomesQuestion | src/ingestion.py:142-161 | An uncertain tag becomes `(words?)` after all tag stages |
| CleanTextExamples.CleanTextUncertain | src/ingestion.py:113-177 | `clean_text` turns an uncertain tag into `(words?)` |
| CleanTextExamples.MaybeIsUncertain | tests/test_ingestion.py:93-97 | `<Uncertain> maybe </Uncertain>` cleans to `(maybe ?)`, the trailing space staying inside the group |
| CleanTextExamples.UncertainAtAt | src/ingestion.py:142-146 | `<Uncertain>@@</Uncertain>` cleans to `(@@?)`: the plain uncertain stage runs first |
| CleanTextExamples.CleanTextCollapsesOk | src/ingestion.py:163-164 | A standalone `O_K` cleans to `OK` |
| CleanTextExamples.OkLetsStart | tests/test_ingestion.py:99-103 | `O_K, let's start` cleans to `OK, let's start` |
| CleanTextExamples.CleanTextCollapsesAcronym3 | src/ingestion.py:166-168 | A standalone `x_y_z` cleans to `xyz` |
| CleanTextExamples.AcronymDevice | tests/test_ingestion.py:105-109 | `the P_D_A device` cleans to `the PDA device` |
| CleanTextExamples.FourPartAcronym | src/ingestion.py:166-171 | `A_B_C_D` cleans to `A_BCD` |
| CleanTextExamples.CleanTextDecodesOnly | src/ingestion.py:113-177 | Text that decoding alone normalizes is the result |
| CleanTextExamples.CleanTextTagsOnly | src/ingestion.py:113-177 | Text that the tag stages alone normalize is the result |
| CleanTextExamples.CleanTextAcronymsOnly | src/ingestion.py:113-177 | Text that the underscore stages alone normalize is the result |
| CleanTextExamples.CommentStage | src/ingestion.py:157-158 | The comment stage deletes a comment tag and copies the text around it |
| CleanTextExamples.CommentVanishes | src/ingestion.py:128-161 | A comment tag in text without other markup vanishes after all tag stages, leaving the text on either side joined |
| CleanTextExamples.CleanTextComment | src/ingestion.py:113-177 | `clean_text` of prose with one comment tag is the whitespace-normalized prose without it |
| CleanTextExamples.CleanTextCommentBetweenWords | src/ingestion.py:113-177 | A comment between two words, with whitespace on one side or both, leaves the words one plain space apart |
| CleanTextExamples.CoughIsDropped | src/ingestion.py:157-158 | `hello <Comment Description="cough"/> world` cleans to `hello world` |
| Noise.IsEmptyOrNoise | src/ingestion.py:180-194 | Empty text is noise; text is noise exactly when, stripped, it is shorter than two characters or is one pair of brackets around a non-empty text without `]` |
| Noise.BracketMatchWithoutLineBreak | src/ingestion.py:191 | On text not ending in a line break, the anchored bracket pattern accepts exactly one bracket pair around a non-empty text without `]` |
| Noise.ShortIsNoise | src/ingestion.py:186-188 | Text shorter than two characters is noise |
| Noise.BracketedIsNoise | src/ingestion.py:190-192 | A bracketed description, with optional whitespace around it, is noise |
| Noise.StripAround | src/ingestion.py:186 | Stripping removes exactly the whitespace margins |
| Noise.WordsAreNotNoise | src/ingestion.py:180-194 | Stripped text of two or more characters not starting with `[` is kept |
| Noise.TwoSoundsAreNotNoise | src/ingestion.py:191 | Two bracketed descriptions in a row are kept |
| Noise.EmptyPairIsNotNoise | src/ingestion.py:191 | `[]` is kept |
| Noise.LaughIsNoise | tests/test_ingestion.py:129-131 | `[laugh]` is noise |
| Noise.BreathIsNoise | tests/test_ingestion.py:129-132 | `[breath]` with spaces around it is noise |
| Noise.SentencesAreNotNoise | tests/test_ingestion.py:134-137 | Two real sentences are kept |
| Noise.LaughThenBreathIsNotNoise | src/ingestion.py:191 | `[laugh] [breath]` is kept |
| Text.StripSpec | src/ingestion.py:186 | `strip` returns a slice of its input with only whitespace cut on either side and none left at its ends |
| Text.StripUnchanged | src/ingestion.py:175 | Text without whitespace at its ends is its own strip |
| Text.StripNormalized | src/ingestion.py:175 | Stripping text of single plain spaces leaves text of single plain spaces with no margin |
| Text.StripStrips | src/ingestion.py:205 | `strip` returns a slice of its input between whitespace-only margins, with no whitespace at its ends |
| Text.StripKeepsNonSpace | src/ingestion.py:175 | `strip` removes whitespace and nothing else |
| Text.Lower | src/file_processor.py:30 | Lower-casing keeps the length and maps each character |
| Text.Prefix | src/ingestion.py:314 | `notes[:n]` keeps the first `min(n, len)` characters |
| Text.SplitJoin | src/ingestion.py:290 | Joining lines without line breaks by `\n` and splitting again gives back the lines |
| Paths.Name | src/ingestion.py:234 | The file name never holds a `/` |
| Paths.TrimSpec | src/ingestion.py:234 | What `pathlib` drops from the end of a path is only `/` and `.` characters, and what it keeps ends neither in a separator nor in a `.` component |
| Paths.NameSpec | src/ingestion.py:234 | The name is never `.`; it is the end of the kept path and follows a `/` unless it is all of it |
| Paths.NameTrailingSeparator | src/file_processor.py:30 | A trailing `/` does not change the name |
| Paths.NameTrailingDot | src/file_processor.py:30 | A trailing `/.` does not change the name |
| Paths.NameAfterDirectory | src/ingestion.py:234 | The name of `dir/n`, for a component `n` that does not end in `.`, is `n` |
| Paths.Suffix | src/file_processor.py:30 | The suffix is empty or a dot followed by at least one character and no further dot |
| Paths.StemSuffix | src/ingestion.py:234 | Stem and suffix together make the file name |
| Paths.SuffixAfterNonEmptyStem | src/file_processor.py:30 | A name with a suffix has a non-empty stem, so `.mrt` alone has no suffix |
| Paths.SuffixUpperCase | tests/test_file_processor.py:133-136 | The suffix of `test.MRT` is `.MRT` |
| Paths.SuffixInDirectory | src/ingestion.py:234 | `dir/Bmr001.mrt` has suffix `.mrt` and stem `Bmr001` |
| Paths.SuffixNone | tests/test_file_processor.py:156-159 | `noextension` has an empty suffix |
| Paths.SuffixHiddenFile | src/file_processor.py:30 | `.mrt` has no suffix and is its own stem |
| Paths.SuffixLastDot | src/file_processor.py:30 | Only the last dot starts the suffix |
| Paths.SameName | src/file_processor.py:30 | Paths with the same name have the same suffix and stem |
| Paths.SuffixTrailingSeparator | src/file_processor.py:30 | `x.mrt/` and `x.mrt/.` have suffix `.mrt` |
| Transcript.CollectParticipants | src/ingestion.py:208-214 | Only participants with a non-empty name are recorded |
| Transcript.CollectParticipantsHas | src/ingestion.py:208-214 | A name is recorded exactly when some participant carries it |
| Transcript.CollectParticipantsLast | src/ingestion.py:208-214 | A name maps to the channel of the last participant carrying it |
| Transcript.CollectParticipantsMeaning | src/ingestion.py:208-214 | Every non-empty name is recorded exactly when some participant carries it, with the channel of the last one that does |
| Transcript.ExtractPreambleInfo | src/ingestion.py:197-216 | Notes are present exactly when the notes text is non-empty; without a participants element the participants dict is empty |
| Transcript.ExtractPreambleInfoMeaning | src/ingestion.py:197-216 | The notes are a slice of the notes text with only whitespace cut from its ends; a non-empty name is recorded exactly when some participant carries it, and then with the channel of the last one that does; no empty name is recorded |
| Transcript.Survivors | src/ingestion.py:257-271 | Only segments that are not digit tasks, have text and are not noise survive |
| Transcript.SurvivorsMembers | src/ingestion.py:257-271 | A segment survives exactly when it is in the transcript and passes the filter |
| Transcript.SurvivorsAppend | src/ingestion.py:257-279 | The filter works segment by segment, in order |
| Transcript.DigitTaskDropped | src/ingestion.py:259-261 | A digit-task segment contributes nothing |
| Transcript.CollectUtterancesSpec | src/ingestion.py:257-279 | The loop succeeds exactly when every surviving segment's times parse, and then yields one utterance per survivor, in order |
| Transcript.UtteranceTimes | src/ingestion.py:275-276 | An utterance has a start or end time exactly when the attribute is a non-empty number, and then has that number |
| Transcript.FormatLineOneLine | src/ingestion.py:288 | A formatted line has no line break when the speaker and text have none |
| Transcript.MinOf | src/ingestion.py:297 | The minimum is one of the values and no greater than any |
| Transcript.MaxOf | src/ingestion.py:297 | The maximum is one of the values and no smaller than any |
| Transcript.StartTimes | src/ingestion.py:293 | The start times are exactly those the utterances have |
| Transcript.EndTimes | src/ingestion.py:294 | The end times are exactly those the utterances have |
| Transcript.DistinctSpeakers | src/ingestion.py:255-305 | The speakers are the utterances' speakers, each once, at least one when there are utterances |
| Transcript.ParseMrtFile | src/ingestion.py:219-331 | A document needs a parsed tree with a transcript; every document names its file as source, has at least one utterance and no upload name |
| Transcript.ParseMrtFileFails | src/ingestion.py:229-331 | There is no document exactly when the XML does not parse, there is no transcript, no segment survives, or a surviving segment's time does not parse |
| Transcript.ParseSegmentsSpec | src/ingestion.py:257-324 | There is no document exactly when no segment survives or a time does not parse; otherwise the document is built from the survivors' utterances |
| Transcript.ParseMrtFileLines | src/ingestion.py:284-290 | The document's text splits at line breaks into one `[speaker]: text` line per surviving segment, as many as the utterance count |
| Transcript.DocumentLines | src/ingestion.py:284-290 | The text has one line per utterance, each `[speaker]: text` |
| Transcript.ParseMrtFileTextIsClean | src/ingestion.py:269-271 | Each kept segment's text has at least two characters, is not noise, and is whitespace-normalized |
| Transcript.ParseMrtFileSkipsDigitTasks | src/ingestion.py:259-261 | Inserting a digit-task segment anywhere leaves the parsed document unchanged |
| Transcript.ParseSegmentsSkipsDigitTask | src/ingestion.py:259-261 | The same, for the examined segments |
| Transcript.MetadataIdentity | src/ingestion.py:234-240 | The meeting identifier is the file stem, the session defaults to it, the source is the path, the type is the parsed code with its description, and a date appears exactly when the attribute is non-empty |
| Transcript.MetadataSpeakers | src/ingestion.py:304-306 | The utterance count is the number of utterances; the speakers are distinct, are exactly the utterances' speakers, and are counted |
| Transcript.MetadataNotes | src/ingestion.py:313-314 | Notes appear exactly when the stripped notes text is non-empty, cut to the first 500 characters |
| Transcript.MetadataParticipants | src/ingestion.py:315-316 | Participants appear exactly when at least one was collected, and are those collected |
| Transcript.MetadataTimes | src/ingestion.py:317-320 | The start time is the least utterance start time and the end time the greatest end time, each present exactly when some utterance has one |
| Transcript.MetadataDuration | src/ingestion.py:295-322 | The duration is the end time minus the start time, recorded only when both exist and it is not zero |
| Transcript.PrepareAppend | src/ingestion.py:257-269 | Segments are examined one by one, in order |
| Corpus.TranscriptNames | src/ingestion.py:348-351 | The selected names are exactly the listing's names ending in `.mrt` whose stem is not `preambles` |
| Corpus.MeetingFileSelected | src/ingestion.py:348-351 | `Bmr001.mrt` is selected |
| Corpus.PreamblesSkipped | src/ingestion.py:351 | `preambles.mrt` is not selected |
| Corpus.UpperCaseNotSelected | src/ingestion.py:348 | `Bmr001.MRT` is not selected: the pattern is case-sensitive |
| Corpus.StrLeTotal | src/ingestion.py:366 | Any two paths are ordered one way or the other |
| Corpus.StrLeTrans | src/ingestion.py:366 | Path order is transitive |
| Corpus.StrLeAntisymmetric | src/ingestion.py:366 | Paths ordered both ways are equal |
| Corpus.StrLePrefix | src/ingestion.py:366 | Paths in one directory are ordered as their names are |
| Corpus.Insert | src/ingestion.py:366 | Insertion adds exactly one element |
| Corpus.Sort | src/ingestion.py:366 | Sorting is a permutation |
| Corpus.SortSorted | src/ingestion.py:366 | Sorting gives an ascending permutation |
| Corpus.SortedUnique | src/ingestion.py:366 | There is only one ascending permutation, so the parse order is determined by the names alone |
| Corpus.FilePathsSorted | src/ingestion.py:366 | Paths built from sorted names are sorted |
| Corpus.ParseAll | src/ingestion.py:366-369 | Each collected document is a document of one of the files, and there are no more documents than files (that no parseable file is dropped is `Corpus.ParseAllComplete`) |
| Corpus.ParseAllComplete | src/ingestion.py:366-369 | Every file that parses contributes its document |
| Corpus.ParseAllMembers | src/ingestion.py:366-369 | A document is collected exactly when it is the document of one of the files |
| Corpus.ParseAllOrdered | src/ingestion.py:366-369 | Documents come in the order of their paths |
| Corpus.TotalUtterances | src/ingestion.py:370 | The total is at least the number of documents |
| Corpus.AllSpeakersFrom | src/ingestion.py:371 | Every speaker in the union comes from some document |
| Corpus.AllSpeakers | src/ingestion.py:371 | Every speaker of every document is in the union |
| Corpus.CountTypesGet | src/ingestion.py:374-375 | Each meeting type is counted exactly as often as documents of that type occur, and types that never occur have no entry |
| Corpus.CountTypesSum | src/ingestion.py:374-375 | The counts add up to the number of documents |
| Corpus.CountStep | src/ingestion.py:375 | One increment raises the sum of the counts by one |
| Corpus.LoadTranscriptsFails | src/ingestion.py:342-358 | Loading fails with "not found" exactly when the directory is missing, and with "no files" exactly when it holds no selected file |
| Corpus.LoadTranscriptsDocuments | src/ingestion.py:334-382 | Every loaded document comes from a selected file of the directory and has at least one utterance; there are no more documents than files; documents are in path order |
| Corpus.LoadTranscriptsComplete | src/ingestion.py:348-369 | When the directory exists and lists a selected `*.mrt` name, the loader succeeds, and if that file's contents parse, its document is among the loaded documents |
| Corpus.LoadTranscriptsTotals | src/ingestion.py:362-380 | The type counts add up to the number of documents and count each type exactly; the utterance total is at least the document count; the speakers are exactly the documents' speakers |
| Dict.SizeIsKeyCount | src/file_cache.py:95-101 | A dictionary's size is its number of keys and of values |
| Dict.PutNewValues | src/file_cache.py:74-80 | A new key's value goes after the existing values |
| Dict.PutOldValues | src/ingestion.py:375 | Overwriting a key keeps its position |
| FileProcessor.ValidateFileType | src/file_processor.py:85-102 | A rejection names the extension, which is not among the allowed ones |
| FileProcessor.ValidateFileTypeSpec | src/file_processor.py:85-102 | A file passes exactly when its lower-cased suffix is one of the allowed extensions |
| FileProcessor.NothingAllowed | tests/test_file_processor.py:172-175 | With nothing allowed, every file is rejected |
| FileProcessor.MixedCaseAccepted | tests/test_file_processor.py:133-141 | `test.MRT` and `test.MrT` pass |
| FileProcessor.NoExtensionRejected | tests/test_file_processor.py:156-161 | `noextension` is rejected with the empty extension |
| FileProcessor.ValidateFileSize | src/file_processor.py:65-82 | A rejection carries the size in megabytes, which exceeds the limit it names |
| FileProcessor.ValidateFileSizeBytes | src/file_processor.py:76-78 | Content is rejected exactly when it has more than limit × 1024 × 1024 bytes |
| FileProcessor.SizeLimitBoundary | tests/test_file_processor.py:80-97 | Content of exactly the limit passes and one byte more fails |
| FileProcessor.EmptyContentPasses | tests/test_file_processor.py:110-122 | Empty content passes exactly when the limit is not negative |
| FileProcessor.ProcessFile | src/file_processor.py:30-37 | A file whose lower-cased extension is not `.mrt` is refused with that extension |
| FileProcessor.Tag | src/file_processor.py:49-58 | No document means a parse failure naming the file; otherwise the document keeps its text and metadata and gains the uploaded file name |
| FileProcessor.ProcessFileIgnoresContent | src/file_processor.py:30-37 | A refused extension is refused whatever the content |
| FileProcessor.ProcessFileGuard | src/file_processor.py:30-37 | `process_file` passes the extension check exactly when `validate_file_type` passes with `.mrt` allowed |
| FileProcessor.ProcessFileOutcome | src/file_processor.py:45-58 | An `.mrt` upload fails exactly when parsing yields nothing; otherwise the text is the parsed text and only the upload name is added to the metadata |
| FileCache.Init | src/file_cache.py:19-25 | A new cache is empty: nothing cached, no documents, no file names |
| FileCache.Add | src/file_cache.py:52-61 | The document is stored under its hash, replacing any earlier one; other hashes are unaffected; the size grows only for a new hash; the file name is listed, once |
| FileCache.Get | src/file_cache.py:63-72 | A lookup finds a document exactly when the hash is cached |
| FileCache.GetAllDocuments | src/file_cache.py:74-80 | The documents are exactly those stored under some hash, one per hash |
| FileCache.GetAllFilenames | src/file_cache.py:82-88 | Each file name is listed once |
| FileCache.Clear | src/file_cache.py:90-93 | Clearing gives the empty cache |
| FileCache.ClearEmpties | src/file_cache.py:90-93 | After clearing nothing is cached and no name is listed |
| FileCache.ReAddKeepsSize | src/file_cache.py:52-61 | Re-adding cached content keeps the size and replaces the document |
| FileCache.ReplayGet | src/file_cache.py:41-72 | After any uploads, a lookup finds the document of the last upload of that hash, and a hash is cached exactly when it was uploaded |
| FileCache.ReplaySize | src/file_cache.py:95-101 | After any uploads, the size is the number of distinct hashes uploaded |
| FileCache.SharedHash | src/file_cache.py:52-61 | One content under two names gives two names and one document |
| FileCache.RenamedUpload | src/file_cache.py:52-61 | Uploading a known name again points it at the new hash without listing it twice |

## Left out

- XML parsing is not modelled. `parse_mrt_file` receives the element tree, or nothing when `ET.parse` raises. Each segment carries its serialized markup as the text `ET.tostring` would write.
- `html.unescape` resolves only the entities ElementTree writes (`&amp;`, `&lt;`, `&gt;`, `&quot;`, `&#10;`, `&#13;`, `&#09;`) and the two apostrophe spellings. Other named and numeric references are copied unchanged.
- `str.lower` maps only the ASCII letters A-Z; full Unicode case mapping is not modelled. `\w` is the ASCII letters, digits and `_`, without Python's other Unicode word characters. `\s` and `str.strip` share Python's `isspace` set.
- `float()` on a time attribute is a parameter: a time is absent, a number, or text on which `float` raises. Floating-point rounding is not modelled, so times and the duration are exact reals.
- Transcript.MinOf, Transcript.MaxOf: `min`/`max` over exact reals, so they say nothing about NaN or infinities.
- `validate_file_size` divides exactly, without floating-point rounding. The `.2f` formatting of its message is not modelled.
- Error messages are error values carrying the same data (the extension, the file name, the size and limit); the wording is not modelled.
- `get_file_hash` (SHA-256) is not modelled: hashes are opaque strings given to the cache.
- `process_file` writes the content to a temporary file and deletes it afterwards. The temporary path is a parameter and the XML parser a function of the content. Because `meeting_id` and `source` come from that path, an upload's metadata names the temporary file, as in the code.
- Paths.Name: follows the POSIX flavour of `pathlib` (separator `/`, trailing separators and `.` components dropped); Windows separators and drive letters are not modelled.
- Corpus.FilePath: joins as `dir + "/" + name`, the string `pathlib` gives for a directory in normal form (non-empty, not `.`, no trailing `/`); for `Path(".")` it would give `name` and for `Path("/")` it would give `/name`.
- Corpus.LoadTranscriptsComplete: states that each parseable selected file's document is loaded, not that it is loaded once; a directory lists each name once, which the listing parameter does not enforce.
- The directory listing is a parameter, and `glob` is modelled as a case-sensitive suffix match on names. Existence of the directory is a boolean.
- `load_transcripts` prints its aggregates. The model returns them with the documents instead; the printing and the per-file warnings are left out.
- Corpus.TotalUtterances: states only that the total is at least the number of documents, not its value as the sum of the utterance counts.
- `list(speakers)` has the order of a Python set, which is unspecified. The model lists speakers in order of first appearance and states only that each appears once.
- `clean_text(None)` and `is_empty_or_noise(None)` are modelled as the empty string, which behaves the same.
- `NOTES_MAX_LENGTH` is fixed at its default of 500 (src/config.py:28); the environment override is not modelled.
- `create_index`, `load_or_create_index` and the chunking settings, the API, the CLI, the chat engine, configuration loading, logging and `main.py` are outside this model.

=== FILE: clean_examples.dfy ===
/** What `clean_text` makes of the markup the corpus uses, stated for whole
    families of inputs and then for the sentences the repository's tests use.
    Also the one respect in which it is not idempotent: entities are decoded
    once per call, so an escaped entity loses one level of escaping each time. */
module CleanTextExamples {
  import opened Wrappers
  import opened Text
  import opened Rewrite
  import opened Markup

  /** Text whose whitespace is already single plain spaces with no margin. */
  predicate Normalized(t: string) {
    NoDoubleSpace(t) && OnlyPlainSpaces(t) && (|t| > 0 ==> !IsSpace(t[0]) && !IsSpace(t[|t| - 1]))
  }

  /** A single word is normalized. */
  lemma WordNormalized(w: string)
    requires NoSpace(w)
    ensures Normalized(w)
  {
  }

  /** Two normalized, non-empty texts joined by one space are normalized. */
  lemma NormalizedJoin(x: string, y: string)
    requires Normalized(x) && Normalized(y) && |x| > 0 && |y| > 0
    ensures Normalized(x + " " + y)
  {
    var s := x + " " + y;
    forall k | 0 <= k < |s|
      ensures s[k] == if k < |x| then x[k] else if k == |x| then ' ' else y[k - |x| - 1]
    {
    }
  }

  /** When the entity stage alone changes a non-empty text into normalized
      text without tags or underscores, that is the cleaned text. */
  lemma CleanTextDecodesOnly(t: string, u: string)
    requires |t| > 0 && Apply(Unescape, t) == u
    requires '<' !in u && '_' !in u && Normalized(u)
    ensures CleanText(t) == u
  {
    RewriteTagsPlain(u);
    RewriteAcronymsPlain(u);
    NormalizeSpaceKeeps(u);
  }

  /** When the tag stages alone change a non-empty text without entities
      into normalized text without underscores, that is the cleaned text. */
  lemma CleanTextTagsOnly(t: string, u: string)
    requires |t| > 0 && '&' !in t && RewriteTags(t) == u
    requires '_' !in u && Normalized(u)
    ensures CleanText(t) == u
  {
    NoTriggerNoChange(Unescape, t);
    RewriteAcronymsPlain(u);
    NormalizeSpaceKeeps(u);
  }

  /** When the acronym stages alone change a non-empty text without entities
      or tags into normalized text, that is the cleaned text. */
  lemma CleanTextAcronymsOnly(t: string, u: string)
    requires |t| > 0 && '&' !in t && '<' !in t && RewriteAcronyms(t) == u
    requires Normalized(u)
    ensures CleanText(t) == u
  {
    NoTriggerNoChange(Unescape, t);
    RewriteTagsPlain(t);
    NormalizeSpaceKeeps(u);
  }

  /** `&amp;` decodes to `&` in text without other entities. */
  lemma AmpersandDecodes(a: string, b: string)
    requires '&' !in a && '&' !in b
    ensures Apply(Unescape, a + "&amp;" + b) == a + "&" + b
  {
    var s := a + "&amp;" + b;
    var n := |a|;
    assert s[0..n] == a && s[n..n + 5] == "&amp;" && s[n + 5..] == b;
    NoTriggerBetween(Unescape, s, 0, n);
    NoTriggerBetween(Unescape, s, n + 5, |s|);
    assert Entities[0].0 == "&amp;";
    assert MatchAt(Unescape, s, n) == Some(Hit(n + 5, "&"));
    SingleHit(Unescape, s, n, Hit(n + 5, "&"));
    assert s[..n] == a;
  }

  /** An escaped ampersand in otherwise plain, normalized prose is decoded
      and nothing else changes. */
  lemma CleanTextDecodesAmpersand(t: string, a: string, b: string)
    requires t == a + "&amp;" + b
    requires '&' !in a && '&' !in b && '<' !in a + b && '_' !in a + b
    requires Normalized(a + "&" + b)
    ensures CleanText(t) == a + "&" + b
  {
    AmpersandDecodes(a, b);
    var u := a + "&" + b;
    assert '<' !in u && '_' !in u;
    CleanTextDecodesOnly(t, u);
  }

  /** The sentence `Tom &amp; Jerry` cleans to `Tom & Jerry`. The sentence is
      passed in rather than written into the claim so that the verifier
      reasons about the stages instead of unfolding them on a constant. */
  lemma TomAndJerry(t: string)
    requires t == "Tom &amp; Jerry"
    ensures CleanText(t) == "Tom & Jerry"
  {
    assert t == "Tom " + "&amp;" + " Jerry";
    assert "Tom " + "&" + " Jerry" == "Tom & Jerry";
    CleanTextDecodesAmpersand(t, "Tom ", " Jerry");
  }

  /** Cleaning twice is not cleaning once: `&amp;amp;` cleans to `&amp;`,
      which cleans to `&`. */
  lemma CleanTextNotIdempotent(t: string)
    requires t == "&amp;amp;"
    ensures CleanText(t) == "&amp;"
    ensures CleanText(CleanText(t)) == "&"
  {
    assert t == "" + "&amp;" + "amp;";
    assert "" + "&" + "amp;" == "&amp;";
    CleanTextDecodesAmpersand(t, "", "amp;");
    AmpersandAlone(CleanText(t));
  }

  /** `&amp;` on its own cleans to `&`. */
  lemma AmpersandAlone(t: string)
    requires t == "&amp;"
    ensures CleanText(t) == "&"
  {
    assert t == "" + "&amp;" + "";
    assert "" + "&" + "" == "&";
    CleanTextDecodesAmpersand(t, "", "");
  }

  /** `\bO_K\b` in otherwise plain, normalized prose. */
  lemma CleanTextCollapsesOk(t: string, a: string, b: string)
    requires t == a + "O_K" + b
    requires '&' !in a + b && '<' !in a + b && '_' !in a + b
    requires |a| > 0 ==> !IsWord(a[|a| - 1])
    requires |b| > 0 ==> !IsWord(b[0])
    requires Normalized(a + "OK" + b)
    ensures CleanText(t) == a + "OK" + b
  {
    assert '&' !in t && '<' !in t;
    assert '_' !in a && '_' !in b;
    OkTokenCollapses(a, b);
    var u := a + "OK" + b;
    assert '_' !in u;
    NoUnderscoreNoChange(Acronym3, u);
    NoUnderscoreNoChange(Acronym2, u);
    CleanTextAcronymsOnly(t, u);
  }

  /** A three-letter underscore acronym in otherwise plain, normalized prose. */
  lemma CleanTextCollapsesAcronym3(t: string, a: string, x: char, y: char, z: char, b: string)
    requires t == a + [x, '_', y, '_', z] + b
    requires '&' !in a + b && '<' !in a + b && '_' !in a + b && 'O' !in a + b
    requires IsWord(x) && IsWord(y) && IsWord(z) && '_' !in [x, y, z] && 'O' !in [x, y, z]
    requires |b| > 0 ==> !IsWord(b[0])
    requires Normalized(a + [x, y, z] + b)
    ensures CleanText(t) == a + [x, y, z] + b
  {
    assert '&' !in t && '<' !in t && 'O' !in t by {
      forall k | 0 <= k < |t|
        ensures t[k] in a + b || t[k] in [x, '_', y, '_', z]
      {
        if k < |a| { assert t[k] == (a + b)[k]; }
        else if k >= |a| + 5 { assert t[k] == (a + b)[k - 5]; }
      }
    }
    assert '_' !in a && '_' !in b;
    NoTriggerNoChange(OkToken, t);
    Acronym3Collapses(a, x, y, z, b);
    var u := a + [x, y, z] + b;
    assert '_' !in u by {
      forall k | 0 <= k < |u|
        ensures u[k] != '_'
      {
        if k < |a| { assert u[k] == a[k]; }
        else if k >= |a| + 3 { assert u[k] == b[k - |a| - 3]; }
      }
    }
    NoUnderscoreNoChange(Acronym2, u);
    CleanTextAcronymsOnly(t, u);
  }

  /** `O_K, let's start` cleans to `OK, let's start`. */
  lemma OkLetsStart(t: string)
    requires t == "O_K, let's start"
    ensures CleanText(t) == "OK, let's start"
  {
    var b := ", let's start";
    LetsStartFacts(b);
    LetsStartNormalized("OK, let's start");
    assert t == "" + "O_K" + b;
    CleanTextCollapsesOk(t, "", b);
  }

  lemma LetsStartFacts(b: string)
    requires b == ", let's start"
    ensures '&' !in b && '<' !in b && '_' !in b && !IsWord(b[0])
    ensures "" + "OK" + b == "OK, let's start"
  {
  }

  lemma LetsStartNormalized(u: string)
    requires u == "OK, let's start"
    ensures Normalized(u)
  {
    var x, y, z := "OK,", "let's", "start";
    WordNormalized(x);
    WordNormalized(y);
    WordNormalized(z);
    NormalizedJoin(x, y);
    NormalizedJoin(x + " " + y, z);
    assert u == x + " " + y + " " + z;
  }

  /** The three-letter collapse runs first, so `the P_D_A device` cleans to
      `the PDA device`. */
  lemma AcronymDevice(t: string)
    requires t == "the P_D_A device"
    ensures CleanText(t) == "the PDA device"
  {
    DeviceFacts("the ", " device");
    DeviceNormalized("the PDA device");
    assert t == "the " + ['P', '_', 'D', '_', 'A'] + " device";
    CleanTextCollapsesAcronym3(t, "the ", 'P', 'D', 'A', " device");
  }

  /** Four letters joined by underscores: the three-letter stage takes the
      last three, since `\b` fails after the third letter at the first
      position, and the two-letter stage then finds nothing. */
  lemma FourPartAcronym(t: string)
    requires t == "A_B_C_D"
    ensures CleanText(t) == "A_BCD"
  {
    var u := "A_BCD";
    FourPartThreeStage(t);
    FourPartTwoStage(u);
    FourPartFacts(t, u);
    NoTriggerNoChange(OkToken, t);
    CleanTextAcronymsOnly(t, u);
  }

  lemma FourPartFacts(t: string, u: string)
    requires t == "A_B_C_D" && u == "A_BCD"
    ensures '&' !in t && '<' !in t && 'O' !in t && Normalized(u)
  {
    WordNormalized(u);
  }

  lemma FourPartThreeStage(s: string)
    requires s == "A_B_C_D"
    ensures Apply(Acronym3, s) == "A_BCD"
  {
    assert MatchAt(Acronym3, s, 0).None? && MatchAt(Acronym3, s, 1).None?;
    assert MatchAt(Acronym3, s, 2) == Some(Hit(7, "BCD"));
    SingleHit(Acronym3, s, 2, Hit(7, "BCD"));
    assert s[..2] + "BCD" + s[7..] == "A_BCD";
  }

  lemma FourPartTwoStage(u: string)
    requires u == "A_BCD"
    ensures Apply(Acronym2, u) == u
  {
    assert MatchAt(Acronym2, u, 0).None? && MatchAt(Acronym2, u, 1).None?;
    assert forall k :: 2 <= k < |u| ==> MatchAt(Acronym2, u, k).None?;
    ScanCopies(Acronym2, u, 0);
  }

  lemma DeviceFacts(a: string, b: string)
    requires a == "the " && b == " device"
    ensures '&' !in a + b && '<' !in a + b && '_' !in a + b && 'O' !in a + b && !IsWord(b[0])
    ensures a + ['P', 'D', 'A'] + b == "the PDA device"
  {
  }

  lemma DeviceNormalized(u: string)
    requires u == "the PDA device"
    ensures Normalized(u)
  {
    var x, y, z := "the", "PDA", "device";
    WordNormalized(x);
    WordNormalized(y);
    WordNormalized(z);
    NormalizedJoin(x, y);
    NormalizedJoin(x + " " + y, z);
    assert u == x + " " + y + " " + z;
  }

  /** In `a + m + b`, a character that occurs in neither `a` nor `b` nor after
      the first character of `m` can only be at the start of `m`. */
  lemma OnlyAtStart(s: string, a: string, m: string, b: string, c: char)
    requires s == a + m + b && |m| > 0
    requires c !in a && c !in b && c !in m[1..]
    ensures forall k :: 0 <= k < |s| && s[k] == c ==> k == |a|
  {
    forall k | 0 <= k < |s| && k != |a|
      ensures s[k] != c
    {
      if k < |a| {
        assert s[k] == a[k];
      } else if k >= |a| + |m| {
        assert s[k] == b[k - |a| - |m|];
      } else if k > |a| {
        assert s[k] == m[1..][k - |a| - 1];
      }
    }
  }

  /** Text without `<` passes every tag stage from the third on. */
  lemma LaterTagStagesPlain(u: string)
    requires '<' !in u
    ensures Apply(Pause, u) == u && Apply(Emphasis, u) == u && Apply(Uncertain, u) == u
    ensures Apply(Unintelligible, u) == u && Apply(Foreign, u) == u && Apply(Pronounce, u) == u
    ensures Apply(Comment, u) == u && Apply(AnyTag, u) == u
  {
    NoTriggerNoChange(Pause, u);
    NoTriggerNoChange(Emphasis, u);
    NoTriggerNoChange(Uncertain, u);
    NoTriggerNoChange(Unintelligible, u);
    NoTriggerNoChange(Foreign, u);
    NoTriggerNoChange(Pronounce, u);
    NoTriggerNoChange(Comment, u);
    NoTriggerNoChange(AnyTag, u);
  }

  /** When the first stage leaves no `<`, it decides the tag stages. */
  lemma TagsSettleAtVocalSound(t: string, u: string)
    requires Apply(VocalSound, t) == u && '<' !in u
    ensures RewriteTags(t) == u
  {
    NoTriggerNoChange(NonVocalSound, u);
    LaterTagStagesPlain(u);
  }

  /** When the first two stages keep the text and the third leaves no `<`. */
  lemma TagsSettleAtPause(t: string, u: string)
    requires Apply(VocalSound, t) == t && Apply(NonVocalSound, t) == t
    requires Apply(Pause, t) == u && '<' !in u
    ensures RewriteTags(t) == u
  {
    LaterTagStagesPlain(u);
  }

  /** When the first three stages keep the text and emphasis leaves no `<`. */
  lemma TagsSettleAtEmphasis(t: string, u: string)
    requires Apply(VocalSound, t) == t && Apply(NonVocalSound, t) == t && Apply(Pause, t) == t
    requires Apply(Emphasis, t) == u && '<' !in u
    ensures RewriteTags(t) == u
  {
    LaterTagStagesPlain(u);
  }

  /** When the first four stages keep the text and uncertainty leaves no `<`. */
  lemma TagsSettleAtUncertain(t: string, u: string)
    requires Apply(VocalSound, t) == t && Apply(NonVocalSound, t) == t && Apply(Pause, t) == t
    requires Apply(Emphasis, t) == t && Apply(Uncertain, t) == u && '<' !in u
    ensures RewriteTags(t) == u
  {
    LaterTagStagesPlain(u);
  }

  /** A stage that starts with `<` copies text whose only `<` are at `n` and
      `m` when it misses at both. */
  lemma CopiesAroundTwo(rule: Rule, s: string, n: nat, m: nat)
    requires Trigger(rule) == Some('<') && n < |s| && m < |s|
    requires forall k :: 0 <= k < |s| && k != n && k != m ==> s[k] != '<'
    requires MatchAt(rule, s, n).None? && MatchAt(rule, s, m).None?
    ensures Apply(rule, s) == s
  {
    CopiesIfOnlyMisses(rule, s);
  }

  /** `<Pause/>` becomes `...`. */
  lemma PauseBecomesEllipsis(s: string, a: string, b: string)
    requires s == a + "<Pause/>" + b
    requires '<' !in a && '<' !in b
    ensures RewriteTags(s) == a + "..." + b
  {
    Pieces(s, a, "<Pause/>", b);
    OnlyAtStart(s, a, "<Pause/>", b, '<');
    SoundStagesMissPause(s, |a|);
    PauseStage(s, |a|);
    var u := a + "..." + b;
    assert '<' !in u;
    TagsSettleAtPause(s, u);
  }

  /** The sound-description stages copy text whose only `<` starts a pause. */
  lemma SoundStagesMissPause(s: string, i: nat)
    requires HasAt(s, i, "<Pause/>")
    requires forall k :: 0 <= k < |s| && s[k] == '<' ==> k == i
    ensures Apply(VocalSound, s) == s && Apply(NonVocalSound, s) == s
  {
    HasAtChar(s, i, "<Pause/>", 1);
    DescribedTagMiss(s, i, "VocalSound");
    DescribedTagMiss(s, i, "NonVocalSound");
    CopiesIfOnlyMisses(VocalSound, s);
    CopiesIfOnlyMisses(NonVocalSound, s);
  }

  /** `<Pause/>` at `i` is matched whole. */
  lemma PauseHit(s: string, i: nat)
    requires HasAt(s, i, "<Pause/>")
    ensures MatchAt(Pause, s, i) == Some(Hit(i + 8, "..."))
  {
    HasAtSplit(s, i, "<Pause", "/>");
    HasAtFirst(s, i + 6, "/>");
    RunEndAt(s, i + 6, Space, i + 6);
  }

  /** The pause stage turns `<Pause/>` at `i` into `...` when no other `<`
      occurs. */
  lemma PauseStage(s: string, i: nat)
    requires HasAt(s, i, "<Pause/>")
    requires '<' !in s[..i] && '<' !in s[i + 8..]
    ensures Apply(Pause, s) == s[..i] + "..." + s[i + 8..]
  {
    PauseHit(s, i);
    SingleHitIn(Pause, s, i, i + 8, "...");
  }

  /** In `x + m1 + y + m2 + z`, a character that occurs only as the first
      character of `m1` and of `m2` is found at those two places only. */
  lemma OnlyAtStarts(s: string, x: string, m1: string, y: string, m2: string, z: string, c: char)
    requires s == x + m1 + y + m2 + z && |m1| > 0 && |m2| > 0
    requires c !in x && c !in y && c !in z && c !in m1[1..] && c !in m2[1..]
    ensures forall k :: 0 <= k < |s| && k != |x| && k != |x| + |m1| + |y| ==> s[k] != c
  {
    var p := |x| + |m1|;
    var q := p + |y|;
    var r := q + |m2|;
    forall k | 0 <= k < |s| && k != |x| && k != q
      ensures s[k] != c
    {
      if k < |x| {
        assert s[k] == x[k];
      } else if k < p {
        assert s[k] == m1[1..][k - |x| - 1];
      } else if k < q {
        assert s[k] == y[k - p];
      } else if k < r {
        assert s[k] == m2[1..][k - q - 1];
      } else {
        assert s[k] == z[k - r];
      }
    }
  }

  /** The vocal-sound stage turns `<VocalSound Description="d"/>` at `i`
      into `[d]` when no other `<` occurs. */
  lemma VocalSoundStage(s: string, i: nat, d: string)
    requires HasAt(s, i, TagSpelling("VocalSound", d))
    requires '<' !in s[..i] && '<' !in s[i + |d| + 28..] && '"' !in d && |d| > 0
    ensures Apply(VocalSound, s) == s[..i] + ("[" + d + "]") + s[i + |d| + 28..]
  {
    VocalSoundHit(s, i, d);
    SingleHitIn(VocalSound, s, i, i + |d| + 28, "[" + d + "]");
  }

  /** `<VocalSound Description="d"/>` becomes `[d]`. */
  lemma VocalSoundBecomesBracketed(s: string, a: string, d: string, b: string)
    requires s == a + ("<VocalSound Description=\"" + d + "\"/>") + b
    requires '<' !in a && '<' !in b && '<' !in d && '"' !in d && |d| > 0
    ensures RewriteTags(s) == a + "[" + d + "]" + b
  {
    var tag := TagSpelling("VocalSound", d);
    VocalSoundSpelling(d);
    Pieces(s, a, tag, b);
    VocalSoundStage(s, |a|, d);
    var u := a + ("[" + d + "]") + b;
    assert '<' !in u;
    TagsSettleAtVocalSound(s, u);
    assert u == a + "[" + d + "]" + b;
  }

  /** No `<` in the whitespace-and-words body of a wrapping tag. */
  lemma BodyHasNoLt(sp: string, w: string)
    requires AllSpace(sp) && '<' !in w
    ensures '<' !in sp + w
  {
    forall k | 0 <= k < |sp + w|
      ensures (sp + w)[k] != '<'
    {
      if k < |sp| { assert (sp + w)[k] == sp[k]; } else { assert (sp + w)[k] == w[k - |sp|]; }
    }
  }

  /** The only `<` in `a + open + body + close + b` are those starting
      `open` and `close`; the stages before `<Uncertain>` miss at both. */
  lemma StagesBeforeUncertainCopy(s: string, a: string, body: string, b: string)
    requires s == a + "<Uncertain>" + body + "</Uncertain>" + b
    requires '<' !in a && '<' !in b && '<' !in body
    ensures Apply(VocalSound, s) == s && Apply(NonVocalSound, s) == s
    ensures Apply(Pause, s) == s && Apply(Emphasis, s) == s
  {
    var n := |a|;
    var m := n + 11 + |body|;
    OnlyAtStarts(s, a, "<Uncertain>", body, "</Uncertain>", b, '<');
    assert s[n..n + 11] == "<Uncertain>" && s[m..m + 12] == "</Uncertain>";
    assert s[n + 1] == 'U' && s[m + 1] == '/';
    DescribedStagesCopy(s, n, m);
    NamedStagesCopy(s, n, m);
  }

  /** Both described-tag stages copy text whose only `<` are at `n` and `m`,
      when neither is followed by `V` or `N`. */
  lemma DescribedStagesCopy(s: string, n: nat, m: nat)
    requires n + 1 < |s| && m + 1 < |s|
    requires forall k :: 0 <= k < |s| && k != n && k != m ==> s[k] != '<'
    requires s[n + 1] !in "VN" && s[m + 1] !in "VN"
    ensures Apply(VocalSound, s) == s && Apply(NonVocalSound, s) == s
  {
    DescribedStageCopies(VocalSound, "VocalSound", s, n, m);
    DescribedStageCopies(NonVocalSound, "NonVocalSound", s, n, m);
  }

  /** One described-tag stage copies text whose only `<` are at `n` and `m`,
      when neither is followed by the first letter of the tag's name. */
  lemma DescribedStageCopies(rule: Rule, name: string, s: string, n: nat, m: nat)
    requires (rule == VocalSound && name == "VocalSound") || (rule == NonVocalSound && name == "NonVocalSound")
    requires n + 1 < |s| && m + 1 < |s|
    requires forall k :: 0 <= k < |s| && k != n && k != m ==> s[k] != '<'
    requires s[n + 1] != name[0] && s[m + 1] != name[0]
    ensures Apply(rule, s) == s
  {
    DescribedTagMiss(s, n, name);
    DescribedTagMiss(s, m, name);
    CopiesAroundTwo(rule, s, n, m);
  }

  /** The pause and emphasis stages copy text whose only `<` are at `n` and
      `m`, when neither is followed by `P` or `E`. */
  lemma NamedStagesCopy(s: string, n: nat, m: nat)
    requires n + 1 < |s| && m + 1 < |s|
    requires forall k :: 0 <= k < |s| && k != n && k != m ==> s[k] != '<'
    requires s[n + 1] !in "PE" && s[m + 1] !in "PE"
    ensures Apply(Pause, s) == s && Apply(Emphasis, s) == s
  {
    PauseCopies(s, n, m);
    EmphasisCopies(s, n, m);
  }

  /** The pause stage copies text whose only `<` are at `n` and `m`, when
      neither is followed by `P`. */
  lemma PauseCopies(s: string, n: nat, m: nat)
    requires n + 1 < |s| && m + 1 < |s|
    requires forall k :: 0 <= k < |s| && k != n && k != m ==> s[k] != '<'
    requires s[n + 1] != 'P' && s[m + 1] != 'P'
    ensures Apply(Pause, s) == s
  {
    HasAtChar(s, n, "<Pause", 1);
    HasAtChar(s, m, "<Pause", 1);
    CopiesAroundTwo(Pause, s, n, m);
  }

  /** The emphasis stage copies text whose only `<` are at `n` and `m`, when
      neither is followed by `E`. */
  lemma EmphasisCopies(s: string, n: nat, m: nat)
    requires n + 1 < |s| && m + 1 < |s|
    requires forall k :: 0 <= k < |s| && k != n && k != m ==> s[k] != '<'
    requires s[n + 1] != 'E' && s[m + 1] != 'E'
    ensures Apply(Emphasis, s) == s
  {
    HasAtChar(s, n, "<Emphasis>", 1);
    HasAtChar(s, m, "<Emphasis>", 1);
    CopiesAroundTwo(Emphasis, s, n, m);
  }

  /** The uncertainty stage turns `<Uncertain>sp w</Uncertain>` into `(w?)`. */
  lemma UncertainStage(s: string, a: string, sp: string, w: string, b: string)
    requires s == a + "<Uncertain>" + (sp + w) + "</Uncertain>" + b
    requires '<' !in a && '<' !in b && '<' !in w
    requires AllSpace(sp) && |w| > 0 && !IsSpace(w[0])
    ensures Apply(Uncertain, s) == a + "(" + w + "?)" + b
  {
    var n := |a|;
    var m := n + 11 + |sp + w|;
    assert s[n..m + 12] == "<Uncertain>" + (sp + w) + "</Uncertain>";
    UncertainHit(s, n, sp, w);
    var h := Hit(m + 12, "(" + w + "?)");
    assert s[0..n] == a && s[m + 12..] == b;
    NoTriggerBetween(Uncertain, s, 0, n);
    NoTriggerBetween(Uncertain, s, m + 12, |s|);
    SingleHit(Uncertain, s, n, h);
    assert s[..n] == a;
  }

  /** `<Uncertain>` around words (after optional leading whitespace) becomes
      `(words?)`, where the words keep any trailing whitespace; this holds
      for `@@` as well, because this stage runs before the `@@` one. */
  lemma UncertainBecomesQuestion(s: string, a: string, sp: string, w: string, b: string)
    requires s == a + "<Uncertain>" + (sp + w) + "</Uncertain>" + b
    requires '<' !in a && '<' !in b && '<' !in w
    requires AllSpace(sp) && |w| > 0 && !IsSpace(w[0])
    ensures RewriteTags(s) == a + "(" + w + "?)" + b
  {
    BodyHasNoLt(sp, w);
    StagesBeforeUncertainCopy(s, a, sp + w, b);
    UncertainStage(s, a, sp, w, b);
    var u := a + "(" + w + "?)" + b;
    assert '<' !in u;
    TagsSettleAtUncertain(s, u);
  }

  /** The stages before `<Emphasis>` miss at both of its tags. */
  lemma StagesBeforeEmphasisCopy(s: string, a: string, body: string, b: string)
    requires s == a + "<Emphasis>" + body + "</Emphasis>" + b
    requires '<' !in a && '<' !in b && '<' !in body
    ensures Apply(VocalSound, s) == s && Apply(NonVocalSound, s) == s && Apply(Pause, s) == s
  {
    var n := |a|;
    var m := n + 10 + |body|;
    OnlyAtStarts(s, a, "<Emphasis>", body, "</Emphasis>", b, '<');
    assert s[n..n + 10] == "<Emphasis>" && s[m..m + 11] == "</Emphasis>";
    assert s[n + 1] == 'E' && s[m + 1] == '/';
    DescribedStagesCopy(s, n, m);
    PauseCopies(s, n, m);
  }

  /** The emphasis stage turns `<Emphasis>sp w</Emphasis>` into `w`. */
  lemma EmphasisStage(s: string, a: string, sp: string, w: string, b: string)
    requires s == a + "<Emphasis>" + (sp + w) + "</Emphasis>" + b
    requires '<' !in a && '<' !in b && '<' !in w
    requires AllSpace(sp) && |w| > 0 && !IsSpace(w[0])
    ensures Apply(Emphasis, s) == a + w + b
  {
    var n := |a|;
    var m := n + 10 + |sp + w|;
    assert s[n..m + 11] == "<Emphasis>" + (sp + w) + "</Emphasis>";
    EmphasisHit(s, n, sp, w);
    var h := Hit(m + 11, w);
    assert s[0..n] == a && s[m + 11..] == b;
    NoTriggerBetween(Emphasis, s, 0, n);
    NoTriggerBetween(Emphasis, s, m + 11, |s|);
    SingleHit(Emphasis, s, n, h);
    assert s[..n] == a;
  }

  /** `<Emphasis>` around words (after optional leading whitespace) leaves
      the words, trailing whitespace included. */
  lemma EmphasisKeepsWords(s: string, a: string, sp: string, w: string, b: string)
    requires s == a + "<Emphasis>" + (sp + w) + "</Emphasis>" + b
    requires '<' !in a && '<' !in b && '<' !in w
    requires AllSpace(sp) && |w| > 0 && !IsSpace(w[0])
    ensures RewriteTags(s) == a + w + b
  {
    BodyHasNoLt(sp, w);
    StagesBeforeEmphasisCopy(s, a, sp + w, b);
    EmphasisStage(s, a, sp, w, b);
    var u := a + w + b;
    assert '<' !in u;
    TagsSettleAtEmphasis(s, u);
  }

  /** When the tag stages leave single plain spaces only, the cleaned text
      is their result with the margins stripped. */
  lemma CleanTextTagsThenStrip(t: string, u: string)
    requires |t| > 0 && '&' !in t && RewriteTags(t) == u
    requires '_' !in u && NoDoubleSpace(u) && OnlyPlainSpaces(u)
    ensures CleanText(t) == Strip(u)
  {
    NoTriggerNoChange(Unescape, t);
    RewriteAcronymsPlain(u);
    SpaceRunKeepsNormalized(u, 0);
  }

  /** A pause in otherwise plain, normalized prose. */
  lemma CleanTextPause(t: string, a: string, b: string)
    requires t == a + "<Pause/>" + b
    requires '&' !in a + b && '<' !in a + b && '_' !in a + b
    requires Normalized(a + "..." + b)
    ensures CleanText(t) == a + "..." + b
  {
    assert '&' !in t && '<' !in a && '<' !in b;
    PauseBecomesEllipsis(t, a, b);
    var u := a + "..." + b;
    assert '_' !in u;
    CleanTextTagsOnly(t, u);
  }

  /** A sound description in otherwise plain, normalized prose. */
  lemma CleanTextVocalSound(t: string, a: string, d: string, b: string)
    requires t == a + ("<VocalSound Description=\"" + d + "\"/>") + b
    requires '&' !in a + d + b && '<' !in a + d + b && '_' !in a + d + b
    requires '"' !in d && |d| > 0
    requires Normalized(a + "[" + d + "]" + b)
    ensures CleanText(t) == a + "[" + d + "]" + b
  {
    VocalSoundChars(t, a, d, b);
    VocalSoundBecomesBracketed(t, a, d, b);
    CleanTextTagsOnly(t, a + "[" + d + "]" + b);
  }

  /** The characters a vocal-sound tag adds around plain prose. */
  lemma VocalSoundChars(t: string, a: string, d: string, b: string)
    requires t == a + ("<VocalSound Description=\"" + d + "\"/>") + b
    requires '&' !in a + d + b && '<' !in a + d + b && '_' !in a + d + b
    ensures '&' !in t && '<' !in a && '<' !in b && '<' !in d && '_' !in a + "[" + d + "]" + b
  {
    var open, close := "<VocalSound Description=\"", "\"/>";
    assert '&' !in open && '&' !in close;
    assert t == a + (open + d + close) + b;
  }

  /** An uncertain passage in otherwise plain, normalized prose. */
  lemma CleanTextUncertain(t: string, a: string, sp: string, w: string, b: string)
    requires t == a + "<Uncertain>" + (sp + w) + "</Uncertain>" + b
    requires '&' !in a + w + b && '<' !in a + w + b && '_' !in a + w + b
    requires AllSpace(sp) && |w| > 0 && !IsSpace(w[0])
    requires Normalized(a + "(" + w + "?)" + b)
    ensures CleanText(t) == a + "(" + w + "?)" + b
  {
    WrappedChars(t, a, "<Uncertain>", sp, w, "</Uncertain>", b);
    UncertainBecomesQuestion(t, a, sp, w, b);
    var u := a + "(" + w + "?)" + b;
    assert '_' !in u;
    CleanTextTagsOnly(t, u);
  }

  /** Whitespace holds neither `&` nor `<`. */
  lemma SpacesHoldNoMarkup(sp: string)
    requires AllSpace(sp)
    ensures '&' !in sp && '<' !in sp
  {
    forall k | 0 <= k < |sp|
      ensures sp[k] != '&' && sp[k] != '<'
    {
      assert IsSpace(sp[k]);
    }
  }

  /** The characters of prose with a passage wrapped in a pair of tags. */
  lemma WrappedChars(t: string, a: string, open: string, sp: string, w: string, close: string, b: string)
    requires t == a + open + (sp + w) + close + b
    requires '&' !in a + w + b && '<' !in a + w + b && '&' !in open + close && AllSpace(sp)
    ensures '&' !in t && '<' !in a && '<' !in b && '<' !in w
  {
    SpacesHoldNoMarkup(sp);
  }

  /** Emphasized words in prose whose whitespace is single plain spaces:
      the tags go and the margins are stripped. */
  lemma CleanTextEmphasis(t: string, a: string, sp: string, w: string, b: string)
    requires t == a + "<Emphasis>" + (sp + w) + "</Emphasis>" + b
    requires '&' !in a + w + b && '<' !in a + w + b && '_' !in a + w + b
    requires AllSpace(sp) && |w| > 0 && !IsSpace(w[0])
    requires NoDoubleSpace(a + w + b) && OnlyPlainSpaces(a + w + b)
    ensures CleanText(t) == Strip(a + w + b)
  {
    WrappedChars(t, a, "<Emphasis>", sp, w, "</Emphasis>", b);
    EmphasisKeepsWords(t, a, sp, w, b);
    CleanTextTagsThenStrip(t, a + w + b);
  }

  /** The stages that open with `<Uncertain`, `<Foreign` or `<Pronounce`
      copy text whose only `<` are at `n` and `m`, when neither is followed
      by `U`, `F` or `P`. */
  lemma OpenTagStagesCopy(s: string, n: nat, m: nat)
    requires n + 1 < |s| && m + 1 < |s|
    requires forall k :: 0 <= k < |s| && k != n && k != m ==> s[k] != '<'
    requires s[n + 1] !in "UFP" && s[m + 1] !in "UFP"
    ensures Apply(Uncertain, s) == s && Apply(Unintelligible, s) == s
    ensures Apply(Foreign, s) == s && Apply(Pronounce, s) == s
  {
    assert s[n + 1] != 'U' && s[m + 1] != 'U' && s[n + 1] != 'F' && s[m + 1] != 'F';
    assert s[n + 1] != 'P' && s[m + 1] != 'P';
    UncertainCopies(s, n, m);
    UnintelligibleCopies(s, n, m);
    ForeignCopies(s, n, m);
    PronounceCopies(s, n, m);
  }

  lemma UncertainCopies(s: string, n: nat, m: nat)
    requires n + 1 < |s| && m + 1 < |s|
    requires forall k :: 0 <= k < |s| && k != n && k != m ==> s[k] != '<'
    requires s[n + 1] != 'U' && s[m + 1] != 'U'
    ensures Apply(Uncertain, s) == s
  {
    HasAtChar(s, n, "<Uncertain>", 1);
    HasAtChar(s, m, "<Uncertain>", 1);
    CopiesAroundTwo(Uncertain, s, n, m);
  }

  lemma UnintelligibleCopies(s: string, n: nat, m: nat)
    requires n + 1 < |s| && m + 1 < |s|
    requires forall k :: 0 <= k < |s| && k != n && k != m ==> s[k] != '<'
    requires s[n + 1] != 'U' && s[m + 1] != 'U'
    ensures Apply(Unintelligible, s) == s
  {
    HasAtChar(s, n, "<Uncertain", 1);
    HasAtChar(s, m, "<Uncertain", 1);
    CopiesAroundTwo(Unintelligible, s, n, m);
  }

  lemma ForeignCopies(s: string, n: nat, m: nat)
    requires n + 1 < |s| && m + 1 < |s|
    requires forall k :: 0 <= k < |s| && k != n && k != m ==> s[k] != '<'
    requires s[n + 1] != 'F' && s[m + 1] != 'F'
    ensures Apply(Foreign, s) == s
  {
    OpenTagMiss(s, n, "Foreign");
    OpenTagMiss(s, m, "Foreign");
    ForeignMatcher(s, n, None);
    ForeignMatcher(s, m, None);
    CopiesAroundTwo(Foreign, s, n, m);
  }

  lemma PronounceCopies(s: string, n: nat, m: nat)
    requires n + 1 < |s| && m + 1 < |s|
    requires forall k :: 0 <= k < |s| && k != n && k != m ==> s[k] != '<'
    requires s[n + 1] != 'P' && s[m + 1] != 'P'
    ensures Apply(Pronounce, s) == s
  {
    OpenTagMiss(s, n, "Pronounce");
    OpenTagMiss(s, m, "Pronounce");
    PronounceMatcher(s, n, None);
    PronounceMatcher(s, m, None);
    CopiesAroundTwo(Pronounce, s, n, m);
  }

  /** When the eight stages before the comment stage keep the text and the
      comment stage leaves no `<`. */
  lemma TagsSettleAtComment(t: string, u: string)
    requires Apply(VocalSound, t) == t && Apply(NonVocalSound, t) == t && Apply(Pause, t) == t
    requires Apply(Emphasis, t) == t && Apply(Uncertain, t) == t && Apply(Unintelligible, t) == t
    requires Apply(Foreign, t) == t && Apply(Pronounce, t) == t
    requires Apply(Comment, t) == u && '<' !in u
    ensures RewriteTags(t) == u
  {
    NoTriggerNoChange(AnyTag, u);
  }

  /** The comment stage deletes `<Comment Description="d"/>` at `i` when no
      other `<` occurs. */
  lemma CommentStage(s: string, i: nat, d: string)
    requires HasAt(s, i, TagSpelling("Comment", d))
    requires '<' !in s[..i] && '<' !in s[i + |d| + 25..] && '"' !in d && |d| > 0
    ensures Apply(Comment, s) == s[..i] + s[i + |d| + 25..]
  {
    CommentHit(s, i, d);
    SingleHitIn(Comment, s, i, i + |d| + 25, "");
  }

  /** A character in none of three strings is not in their concatenation. */
  lemma NotInThree(c: char, x: string, y: string, z: string)
    requires c !in x && c !in y && c !in z
    ensures c !in x + y + z
  {
    var s := x + y + z;
    forall k | 0 <= k < |s|
      ensures s[k] != c
    {
      if k < |x| {
        assert s[k] == x[k];
      } else if k < |x| + |y| {
        assert s[k] == y[k - |x|];
      } else {
        assert s[k] == z[k - |x| - |y|];
      }
    }
  }

  /** What the spelling of a comment holds, for a description without `<`
      or `&`. */
  lemma CommentSpellingFacts(d: string)
    requires '<' !in d && '&' !in d
    ensures var tag := TagSpelling("Comment", d);
      && tag[0] == '<' && tag[1] == 'C' && '<' !in tag[1..] && '&' !in tag
  {
    var open, close := "Comment Description=\"", "\"/>";
    var tag := TagSpelling("Comment", d);
    CommentTail(d);
    assert tag[1..] == open + d + close;
    assert '<' !in open && '<' !in close && '&' !in open && '&' !in close;
    NotInThree('<', open, d, close);
    NotInThree('&', open, d, close);
    assert tag == "<" + (open + d + close);
  }

  lemma CommentSpelling(d: string)
    ensures TagSpelling("Comment", d) == "<Comment Description=\"" + d + "\"/>"
  {
  }

  lemma CommentTail(d: string)
    ensures TagSpelling("Comment", d) == "<" + ("Comment Description=\"" + d + "\"/>")
  {
  }

  /** A comment in prose without other markup leaves the prose on either
      side of it, joined. */
  lemma CommentVanishes(s: string, a: string, d: string, b: string)
    requires s == a + TagSpelling("Comment", d) + b
    requires '<' !in a && '<' !in b && '<' !in d && '&' !in d && '"' !in d && |d| > 0
    ensures RewriteTags(s) == a + b
  {
    var n := |a|;
    CommentPieces(s, a, d, b);
    StagesBeforeCommentCopy(s, n);
    CommentStage(s, n, d);
    NotInThree('<', a, "", b);
    assert a + "" + b == a + b;
    TagsSettleAtComment(s, a + b);
  }

  /** Where the comment sits in `a + <Comment Description="d"/> + b`. */
  lemma CommentPieces(s: string, a: string, d: string, b: string)
    requires s == a + TagSpelling("Comment", d) + b
    requires '<' !in a && '<' !in b && '<' !in d && '&' !in d
    ensures var n := |a|;
      && HasAt(s, n, TagSpelling("Comment", d)) && n + 1 < |s| && s[n + 1] == 'C'
      && s[..n] == a && s[n + |d| + 25..] == b
      && (forall k :: 0 <= k < |s| && k != n ==> s[k] != '<')
  {
    var n := |a|;
    var tag := TagSpelling("Comment", d);
    CommentSpellingFacts(d);
    OnlyAtStart(s, a, tag, b, '<');
    Pieces(s, a, tag, b);
    HasAtChar(s, n, tag, 1);
  }

  /** The eight stages before the comment stage copy text whose only `<`
      starts a comment. */
  lemma StagesBeforeCommentCopy(s: string, n: nat)
    requires n + 1 < |s| && s[n + 1] == 'C'
    requires forall k :: 0 <= k < |s| && k != n ==> s[k] != '<'
    ensures Apply(VocalSound, s) == s && Apply(NonVocalSound, s) == s && Apply(Pause, s) == s
    ensures Apply(Emphasis, s) == s && Apply(Uncertain, s) == s && Apply(Unintelligible, s) == s
    ensures Apply(Foreign, s) == s && Apply(Pronounce, s) == s
  {
    DescribedStagesCopy(s, n, n);
    NamedStagesCopy(s, n, n);
    OpenTagStagesCopy(s, n, n);
  }

  /** A comment in otherwise plain prose disappears, and the prose around it
      is whitespace-normalized as if the comment had never been there. */
  lemma CleanTextComment(t: string, a: string, d: string, b: string)
    requires t == a + ("<Comment Description=\"" + d + "\"/>") + b
    requires '&' !in a + d + b && '<' !in a + d + b && '_' !in a + b
    requires '"' !in d && |d| > 0
    ensures CleanText(t) == NormalizeSpace(a + b)
  {
    CommentChars(t, a, d, b);
    CommentVanishes(t, a, d, b);
    NoTriggerNoChange(Unescape, t);
    RewriteAcronymsPlain(a + b);
  }

  /** The characters of prose around a comment. */
  lemma CommentChars(t: string, a: string, d: string, b: string)
    requires t == a + ("<Comment Description=\"" + d + "\"/>") + b
    requires '&' !in a + d + b && '<' !in a + d + b
    ensures '<' !in a && '<' !in b && '<' !in d && '&' !in d
    ensures t == a + TagSpelling("Comment", d) + b && '&' !in t
  {
    assert '&' !in a && '&' !in b && '&' !in d;
    CommentSpellingFacts(d);
    CommentSpelling(d);
    NotInThree('&', a, TagSpelling("Comment", d), b);
  }

  /** A comment between two words, with whitespace on either side or both,
      leaves the words one plain space apart. */
  lemma CleanTextCommentBetweenWords(t: string, w1: string, sp1: string, d: string, sp2: string, w2: string)
    requires t == (w1 + sp1) + ("<Comment Description=\"" + d + "\"/>") + (sp2 + w2)
    requires NoSpace(w1) && NoSpace(w2) && |w1| > 0 && |w2| > 0
    requires AllSpace(sp1) && AllSpace(sp2) && |sp1 + sp2| > 0
    requires '&' !in w1 + d + w2 && '<' !in w1 + d + w2 && '_' !in w1 + w2
    requires '"' !in d && |d| > 0
    ensures CleanText(t) == w1 + " " + w2
  {
    SpacesHoldNoMarkup(sp1);
    SpacesHoldNoMarkup(sp2);
    WordsAroundChars(w1, sp1, d, sp2, w2);
    CleanTextComment(t, w1 + sp1, d, sp2 + w2);
    SpacesAroundJoin(w1, sp1, sp2, w2);
  }

  /** Two stretches of whitespace that meet collapse to one space. */
  lemma SpacesAroundJoin(w1: string, sp1: string, sp2: string, w2: string)
    requires NoSpace(w1) && NoSpace(w2) && |w1| > 0 && |w2| > 0
    requires AllSpace(sp1) && AllSpace(sp2) && |sp1 + sp2| > 0
    ensures NormalizeSpace((w1 + sp1) + (sp2 + w2)) == w1 + " " + w2
  {
    assert (w1 + sp1) + (sp2 + w2) == w1 + (sp1 + sp2) + w2;
    AllSpaceJoin(sp1, sp2);
    NormalizeSpaceBetweenWords(w1, sp1 + sp2, w2);
  }

  /** The markup characters around a comment between two words. */
  lemma WordsAroundChars(w1: string, sp1: string, d: string, sp2: string, w2: string)
    requires '&' !in w1 + d + w2 && '<' !in w1 + d + w2 && '_' !in w1 + w2
    requires '&' !in sp1 && '<' !in sp1 && '&' !in sp2 && '<' !in sp2 && AllSpace(sp1) && AllSpace(sp2)
    ensures '&' !in (w1 + sp1) + d + (sp2 + w2) && '<' !in (w1 + sp1) + d + (sp2 + w2)
    ensures '_' !in (w1 + sp1) + (sp2 + w2)
  {
    assert forall c :: c in (w1 + sp1) + d + (sp2 + w2) ==> c in w1 || c in sp1 || c in d || c in sp2 || c in w2;
    assert forall c :: c in (w1 + sp1) + (sp2 + w2) ==> c in w1 || c in sp1 || c in sp2 || c in w2;
    forall k | 0 <= k < |sp1| ensures sp1[k] != '_' { assert IsSpace(sp1[k]); }
    forall k | 0 <= k < |sp2| ensures sp2[k] != '_' { assert IsSpace(sp2[k]); }
  }

  lemma AllSpaceJoin(x: string, y: string)
    requires AllSpace(x) && AllSpace(y)
    ensures AllSpace(x + y)
  {
    forall k | 0 <= k < |x + y|
      ensures IsSpace((x + y)[k])
    {
      if k < |x| { assert (x + y)[k] == x[k]; } else { assert (x + y)[k] == y[k - |x|]; }
    }
  }

  /** `hello <Comment Description="cough"/> world` cleans to `hello world`. */
  lemma CoughIsDropped(t: string)
    requires t == "hello <Comment Description=\"cough\"/> world"
    ensures CleanText(t) == "hello world"
  {
    CoughFacts(t, "hello", " ", "cough", " ", "world");
    CleanTextCommentBetweenWords(t, "hello", " ", "cough", " ", "world");
  }

  lemma CoughFacts(t: string, w1: string, sp1: string, d: string, sp2: string, w2: string)
    requires t == "hello <Comment Description=\"cough\"/> world"
    requires w1 == "hello" && sp1 == " " && d == "cough" && sp2 == " " && w2 == "world"
    ensures t == (w1 + sp1) + ("<Comment Description=\"" + d + "\"/>") + (sp2 + w2)
    ensures NoSpace(w1) && NoSpace(w2) && AllSpace(sp1) && AllSpace(sp2) && |sp1 + sp2| > 0
    ensures '&' !in w1 + d + w2 && '<' !in w1 + d + w2 && '_' !in w1 + w2 && '"' !in d
    ensures w1 + " " + w2 == "hello world"
  {
    CoughSpelling(t, w1, sp1, d, sp2, w2);
    NotInThree('&', w1, d, w2);
    NotInThree('<', w1, d, w2);
    NotInThree('_', w1, "", w2);
    assert w1 + "" + w2 == w1 + w2;
  }

  lemma CoughSpelling(t: string, w1: string, sp1: string, d: string, sp2: string, w2: string)
    requires t == "hello <Comment Description=\"cough\"/> world"
    requires w1 == "hello" && sp1 == " " && d == "cough" && sp2 == " " && w2 == "world"
    ensures t == (w1 + sp1) + ("<Comment Description=\"" + d + "\"/>") + (sp2 + w2)
  {
  }


  lemma HelloPauseWorld(t: string)
    requires t == "Hello <Pause/> world"
    ensures CleanText(t) == "Hello ... world"
  {
    HelloWorldFacts("Hello ", " world");
    HelloWorldNormalized("Hello ... world");
    CleanTextPause(t, "Hello ", " world");
  }

  lemma HelloWorldFacts(a: string, b: string)
    requires a == "Hello " && b == " world"
    ensures '&' !in a + b && '<' !in a + b && '_' !in a + b
    ensures a + "<Pause/>" + b == "Hello <Pause/> world" && a + "..." + b == "Hello ... world"
  {
  }

  lemma HelloWorldNormalized(u: string)
    requires u == "Hello ... world"
    ensures Normalized(u)
  {
    var x, y, z := "Hello", "...", "world";
    WordNormalized(x);
    WordNormalized(y);
    WordNormalized(z);
    NormalizedJoin(x, y);
    NormalizedJoin(x + " " + y, z);
    assert u == x + " " + y + " " + z;
  }

  lemma LaughFacts(d: string)
    requires d == "laugh"
    ensures '&' !in d && '<' !in d && '_' !in d && '"' !in d && Normalized("[laugh]")
    ensures "" + ("<VocalSound Description=\"" + d + "\"/>") + "" == "<VocalSound Description=\"laugh\"/>"
    ensures "" + "[" + d + "]" + "" == "[laugh]"
  {
    WordNormalized("[laugh]");
  }

  lemma LaughIsBracketed(t: string)
    requires t == "<VocalSound Description=\"laugh\"/>"
    ensures CleanText(t) == "[laugh]"
  {
    LaughFacts("laugh");
    CleanTextVocalSound(t, "", "laugh", "");
  }

  /** The words of an uncertain passage keep the whitespace before the
      closing tag, so the question mark follows a space. */
  lemma MaybeIsUncertain(t: string)
    requires t == "<Uncertain> maybe </Uncertain>"
    ensures CleanText(t) == "(maybe ?)"
  {
    var w := "maybe ";
    MaybeFacts(w);
    MaybeNormalized("(maybe ?)");
    CleanTextUncertain(t, "", " ", w, "");
  }

  lemma MaybeFacts(w: string)
    requires w == "maybe "
    ensures '&' !in w && '<' !in w && '_' !in w && AllSpace(" ") && !IsSpace(w[0])
    ensures "" + "(" + w + "?)" + "" == "(maybe ?)"
    ensures "" + "<Uncertain>" + (" " + w) + "</Uncertain>" + "" == "<Uncertain> maybe </Uncertain>"
  {
  }

  lemma MaybeNormalized(u: string)
    requires u == "(maybe ?)"
    ensures Normalized(u)
  {
    var x, y := "(maybe", "?)";
    WordNormalized(x);
    WordNormalized(y);
    NormalizedJoin(x, y);
    assert u == x + " " + y;
  }

  /** An uncertain `@@` is caught by the uncertain-word stage before the
      `@@` stage can turn it into `(unintelligible)`. */
  lemma UncertainAtAt(t: string)
    requires t == "<Uncertain>@@</Uncertain>"
    ensures CleanText(t) == "(@@?)"
  {
    assert t == "" + "<Uncertain>" + ("" + "@@") + "</Uncertain>" + "";
    assert "" + "(" + "@@" + "?)" + "" == "(@@?)";
    CleanTextUncertain(t, "", "", "@@", "");
  }

  /** Stripping drops one trailing space after normalized non-empty text. */
  lemma StripTrailingSpace(v: string)
    requires |v| > 0 && Normalized(v)
    ensures Strip(v + " ") == v
  {
    var u := v + " ";
    assert u[0] == v[0];
    assert StripLeading(u) == u;
    assert u[..|u| - 1] == v;
    assert StripTrailing(u) == StripTrailing(v);
    assert StripTrailing(v) == v;
  }

  /** A segment that is only emphasized words followed by one space cleans
      to the words. */
  lemma CleanTextEmphasisAlone(t: string, sp: string, v: string)
    requires t == "<Emphasis>" + (sp + (v + " ")) + "</Emphasis>"
    requires '&' !in v && '<' !in v && '_' !in v
    requires AllSpace(sp) && |v| > 0 && Normalized(v)
    ensures CleanText(t) == v
  {
    TrailingSpaceFacts(v);
    assert t == "" + "<Emphasis>" + (sp + (v + " ")) + "</Emphasis>" + "";
    CleanTextEmphasis(t, "", sp, v + " ", "");
    StripTrailingSpace(v);
  }

  /** Normalized words followed by one space, seen as the body of a tag. */
  lemma TrailingSpaceFacts(v: string)
    requires '&' !in v && '<' !in v && '_' !in v
    requires |v| > 0 && Normalized(v)
    ensures var w := v + " ";
      && "" + w + "" == w
      && '&' !in w && '<' !in w && '_' !in w && !IsSpace(w[0])
      && NoDoubleSpace(w) && OnlyPlainSpaces(w)
  {
    var w := v + " ";
    assert "" + w + "" == w;
    assert w[0] == v[0];
    assert w[|v| - 1] == v[|v| - 1];
  }

  lemma ImportantIsEmphasized(t: string)
    requires t == "<Emphasis> important </Emphasis>"
    ensures CleanText(t) == "important"
  {
    var v := "important";
    ImportantFacts(v);
    ImportantNormalized(v);
    CleanTextEmphasisAlone(t, " ", v);
  }

  lemma ImportantNormalized(v: string)
    requires v == "important"
    ensures Normalized(v)
  {
    WordNormalized(v);
  }

  lemma ImportantFacts(v: string)
    requires v == "important"
    ensures '&' !in v && '<' !in v && '_' !in v && AllSpace(" ")
    ensures "<Emphasis>" + (" " + (v + " ")) + "</Emphasis>" == "<Emphasis> important </Emphasis>"
  {
  }
}

=== FILE: corpus.dfy ===
/** `load_transcripts`: the corpus loader. It picks the `*.mrt` files of a
    directory other than `preambles.mrt`, parses them in sorted order, keeps
    the documents that parse, and totals utterances, speakers and meeting
    types over them. */
module Corpus {
  import opened Wrappers
  import opened Text
  import opened Dict
  import opened Paths
  import opened Transcript

  /** The stem of the file of preamble templates, which is not a meeting. */
  const PreamblesStem := "preambles"

  /** Why the loader raises `FileNotFoundError`. */
  datatype LoadError = DirectoryNotFound | NoTranscriptFiles

  /** The documents and the totals the loader reports about them. */
  datatype Loaded = Loaded(
    documents: seq<Document>,
    totalUtterances: nat,
    speakers: set<string>,
    meetingTypes: OrderedMap<Option<string>, int>)

  // ---------------------------------------------------------------- file selection

  /** A directory entry the loader parses: it matches `*.mrt` (which is case
      sensitive on POSIX) and is not the preamble templates file. */
  predicate IsTranscriptName(name: string) {
    EndsWith(name, ".mrt") && Stem(name) != PreamblesStem
  }

  /** The entries that match `*.mrt` and are not `preambles.mrt`, in listing order. */
  function TranscriptNames(listing: seq<string>): (r: seq<string>)
    ensures |r| <= |listing|
    ensures forall k :: 0 <= k < |r| ==> IsTranscriptName(r[k])
    ensures forall n :: n in r <==> n in listing && IsTranscriptName(n)
  {
    if |listing| == 0 then []
    else (if IsTranscriptName(listing[0]) then [listing[0]] else []) + TranscriptNames(listing[1..])
  }

  function FilePath(dir: string, name: string): string {
    dir + "/" + name
  }

  /** The paths of `names` inside `dir`, in order. */
  function FilePaths(dir: string, names: seq<string>): (r: seq<string>)
    ensures |r| == |names|
    ensures forall k :: 0 <= k < |names| ==> r[k] == FilePath(dir, names[k])
  {
    seq(|names|, k requires 0 <= k < |names| => FilePath(dir, names[k]))
  }

  // ---------------------------------------------------------------- ordering

  /** Python's `a <= b` on strings: lexicographic by code point, a prefix
      first. */
  predicate StrLe(a: string, b: string) {
    |a| == 0 || (|b| > 0 && (a[0] < b[0] || (a[0] == b[0] && StrLe(a[1..], b[1..]))))
  }

  lemma {:induction false} StrLeTotal(a: string, b: string)
    ensures StrLe(a, b) || StrLe(b, a)
  {
    if |a| > 0 && |b| > 0 && a[0] == b[0] {
      StrLeTotal(a[1..], b[1..]);
    }
  }

  lemma {:induction false} StrLeReflexive(a: string)
    ensures StrLe(a, a)
  {
    if |a| > 0 {
      StrLeReflexive(a[1..]);
    }
  }

  lemma {:induction false} StrLeTrans(a: string, b: string, c: string)
    requires StrLe(a, b) && StrLe(b, c)
    ensures StrLe(a, c)
  {
    if |a| > 0 && a[0] == b[0] && b[0] == c[0] {
      StrLeTrans(a[1..], b[1..], c[1..]);
    }
  }

  lemma {:induction false} StrLeAntisymmetric(a: string, b: string)
    requires StrLe(a, b) && StrLe(b, a)
    ensures a == b
  {
    if |a| > 0 {
      StrLeAntisymmetric(a[1..], b[1..]);
    }
  }

  /** A common directory prefix does not change the order: the paths of one
      directory compare as their names do. */
  lemma {:induction false} StrLePrefix(p: string, a: string, b: string)
    ensures StrLe(p + a, p + b) <==> StrLe(a, b)
  {
    if |p| > 0 {
      var pa, pb := p + a, p + b;
      assert pa[0] == p[0] == pb[0] && |pa| > 0 && |pb| > 0;
      assert pa[1..] == p[1..] + a && pb[1..] == p[1..] + b;
      assert StrLe(pa, pb) == StrLe(pa[1..], pb[1..]);
      StrLePrefix(p[1..], a, b);
    } else {
      assert p + a == a && p + b == b;
    }
  }

  predicate Sorted(s: seq<string>) {
    forall i, j :: 0 <= i < j < |s| ==> StrLe(s[i], s[j])
  }

  /** `x` placed before the first element it does not exceed. */
  function Insert(x: string, s: seq<string>): (r: seq<string>)
    ensures multiset(r) == multiset(s) + multiset{x}
    ensures |r| == |s| + 1 && forall y :: y in r <==> y == x || y in s
  {
    if |s| == 0 then [x]
    else if StrLe(x, s[0]) then [x] + s
    else
      assert s == [s[0]] + s[1..];
      [s[0]] + Insert(x, s[1..])
  }

  /** `sorted(names)`, by insertion. */
  function Sort(s: seq<string>): (r: seq<string>)
    ensures multiset(r) == multiset(s)
  {
    if |s| == 0 then []
    else
      assert s == [s[0]] + s[1..];
      Insert(s[0], Sort(s[1..]))
  }

  /** Inserting into a sorted sequence keeps it sorted. */
  lemma {:induction false} InsertSorted(x: string, s: seq<string>)
    requires Sorted(s)
    ensures Sorted(Insert(x, s))
  {
    if |s| == 0 {
      assert Insert(x, s) == [x];
    } else if StrLe(x, s[0]) {
      forall j | 0 <= j < |s|
        ensures StrLe(x, s[j])
      {
        if j > 0 {
          StrLeTrans(x, s[0], s[j]);
        }
      }
      ConsSorted(x, s);
    } else {
      StrLeTotal(x, s[0]);
      SortedTail(s);
      InsertSorted(x, s[1..]);
      var rest := Insert(x, s[1..]);
      forall j | 0 <= j < |rest|
        ensures StrLe(s[0], rest[j])
      {
        assert rest[j] in rest;
        if rest[j] != x {
          assert rest[j] in s[1..];
          var i :| 0 <= i < |s[1..]| && s[1..][i] == rest[j];
          assert s[i + 1] == rest[j];
        }
      }
      ConsSorted(s[0], rest);
    }
  }

  /** The sorted names are in order and are the same names. */
  lemma {:induction false} SortSorted(s: seq<string>)
    ensures Sorted(Sort(s)) && multiset(Sort(s)) == multiset(s)
  {
    if |s| > 0 {
      SortSorted(s[1..]);
      InsertSorted(s[0], Sort(s[1..]));
    }
  }

  /** A sorted arrangement is unique: any sorted sequence holding the same
      names is the result of `Sort`. */
  lemma {:induction false} SortedUnique(a: seq<string>, b: seq<string>)
    requires Sorted(a) && Sorted(b) && multiset(a) == multiset(b)
    ensures a == b
  {
    assert |a| == |multiset(a)| == |multiset(b)| == |b|;
    if |a| > 0 {
      SameHead(a, b);
      SortedTail(a);
      SortedTail(b);
      SortedUnique(a[1..], b[1..]);
      assert a == [a[0]] + a[1..] && b == [b[0]] + b[1..];
    }
  }

  /** Two sorted arrangements of the same names start alike. */
  lemma SameHead(a: seq<string>, b: seq<string>)
    requires Sorted(a) && Sorted(b) && multiset(a) == multiset(b) && |a| > 0
    ensures |b| > 0 && a[0] == b[0] && multiset(a[1..]) == multiset(b[1..])
  {
    assert a == [a[0]] + a[1..];
    assert a[0] in multiset(b);
    assert |b| > 0 && b == [b[0]] + b[1..];
    assert b[0] in multiset(a);
    var i :| 0 <= i < |b| && b[i] == a[0];
    var j :| 0 <= j < |a| && a[j] == b[0];
    StrLeReflexive(a[0]);
    assert StrLe(b[0], a[0]) by {
      if i > 0 { assert StrLe(b[0], b[i]); }
    }
    assert StrLe(a[0], b[0]) by {
      if j > 0 { assert StrLe(a[0], a[j]); }
    }
    StrLeAntisymmetric(a[0], b[0]);
    assert multiset(a) == multiset{a[0]} + multiset(a[1..]);
    assert multiset(b) == multiset{b[0]} + multiset(b[1..]);
    assert multiset(a[1..]) == multiset(a) - multiset{a[0]};
    assert multiset(b[1..]) == multiset(b) - multiset{b[0]};
  }

  /** The rest of a sorted sequence is sorted. */
  lemma SortedTail(s: seq<string>)
    requires Sorted(s) && |s| > 0
    ensures Sorted(s[1..])
  {
    forall i, j | 0 <= i < j < |s[1..]|
      ensures StrLe(s[1..][i], s[1..][j])
    {
      assert s[1..][i] == s[i + 1] && s[1..][j] == s[j + 1];
    }
  }

  /** Sorting the names of one directory sorts their paths. */
  lemma FilePathsSorted(dir: string, names: seq<string>)
    requires Sorted(names)
    ensures Sorted(FilePaths(dir, names))
  {
    var ps := FilePaths(dir, names);
    forall i, j | 0 <= i < j < |ps|
      ensures StrLe(ps[i], ps[j])
    {
      StrLePrefix(dir + "/", names[i], names[j]);
    }
  }

  // ---------------------------------------------------------------- parsing

  /** `parse` behaves as `parse_mrt_file` does on every path: a document it
      returns is a document of that file. */
  ghost predicate FileParser(parse: string -> Option<Document>) {
    forall p :: parse(p).Some? ==> DocumentOfFile(p, parse(p).value)
  }

  /** `parse_mrt_file` with `read` as the XML parser (`None` when it raises). */
  function MrtParser(read: string -> Option<MrtTree>): (parse: string -> Option<Document>)
    ensures FileParser(parse)
  {
    MrtParserDocuments(read);
    p => ParseMrtFile(p, read(p))
  }

  lemma MrtParserDocuments(read: string -> Option<MrtTree>)
    ensures forall p :: ParseMrtFile(p, read(p)).Some? ==> DocumentOfFile(p, ParseMrtFile(p, read(p)).value)
  {
  }

  /** The documents of the files that parse, in file order. */
  function ParseAll(paths: seq<string>, parse: string -> Option<Document>): (docs: seq<Document>)
    requires FileParser(parse)
    ensures |docs| <= |paths|
    ensures forall k :: 0 <= k < |docs| ==>
      docs[k].metadata.source in paths && DocumentOfFile(docs[k].metadata.source, docs[k])
  {
    if |paths| == 0 then []
    else
      var d := parse(paths[0]);
      (if d.Some? then [d.value] else []) + ParseAll(paths[1..], parse)
  }

  /** The sources of some documents, in order. */
  function Sources(docs: seq<Document>): (r: seq<string>)
    ensures |r| == |docs| && forall k :: 0 <= k < |docs| ==> r[k] == docs[k].metadata.source
  {
    seq(|docs|, k requires 0 <= k < |docs| => docs[k].metadata.source)
  }

  /** A file that parses contributes its document, one that does not
      contributes nothing. */
  lemma ParseAllFirst(paths: seq<string>, parse: string -> Option<Document>)
    requires FileParser(parse) && |paths| > 0
    ensures parse(paths[0]).Some? ==> ParseAll(paths, parse) == [parse(paths[0]).value] + ParseAll(paths[1..], parse)
    ensures parse(paths[0]).None? ==> ParseAll(paths, parse) == ParseAll(paths[1..], parse)
  {
  }

  /** Every file that parses contributes its document. */
  lemma {:induction false} ParseAllComplete(paths: seq<string>, parse: string -> Option<Document>, k: nat)
    requires FileParser(parse) && k < |paths| && parse(paths[k]).Some?
    ensures parse(paths[k]).value in ParseAll(paths, parse)
  {
    ParseAllFirst(paths, parse);
    if k > 0 {
      assert paths[1..][k - 1] == paths[k];
      ParseAllComplete(paths[1..], parse, k - 1);
    }
  }

  /** The documents are exactly those of the files that parse. */
  lemma {:induction false} ParseAllMembers(paths: seq<string>, parse: string -> Option<Document>, d: Document)
    requires FileParser(parse)
    ensures d in ParseAll(paths, parse) <==> exists k :: 0 <= k < |paths| && parse(paths[k]) == Some(d)
  {
    if |paths| > 0 {
      ParseAllFirst(paths, parse);
      ParseAllMembers(paths[1..], parse, d);
      if d in ParseAll(paths[1..], parse) {
        var k :| 0 <= k < |paths[1..]| && parse(paths[1..][k]) == Some(d);
        assert paths[k + 1] == paths[1..][k];
      }
      if exists k :: 0 <= k < |paths| && parse(paths[k]) == Some(d) {
        var k :| 0 <= k < |paths| && parse(paths[k]) == Some(d);
        ParseAllComplete(paths, parse, k);
      }
    }
  }

  /** Files are parsed in order, so the documents come in the order of
      their paths. */
  lemma {:induction false} ParseAllOrdered(paths: seq<string>, parse: string -> Option<Document>)
    requires FileParser(parse) && Sorted(paths)
    ensures Sorted(Sources(ParseAll(paths, parse)))
  {
    if |paths| > 0 {
      SortedTail(paths);
      ParseAllOrdered(paths[1..], parse);
      ParseAllFirst(paths, parse);
      if parse(paths[0]).Some? {
        ParsedHeadOrdered(paths, parse(paths[0]).value, ParseAll(paths[1..], parse));
      }
    }
  }

  /** A parsed first file comes before the documents of the later files. */
  lemma ParsedHeadOrdered(paths: seq<string>, doc: Document, rest: seq<Document>)
    requires Sorted(paths) && |paths| > 0 && doc.metadata.source == paths[0]
    requires forall k :: 0 <= k < |rest| ==> rest[k].metadata.source in paths[1..]
    requires Sorted(Sources(rest))
    ensures Sorted(Sources([doc] + rest))
  {
    var t := Sources(rest);
    assert Sources([doc] + rest) == [paths[0]] + t;
    HeadBelow(paths, t);
    ConsSorted(paths[0], t);
  }

  /** The first of a sorted sequence is no greater than any of the rest. */
  lemma HeadBelow(s: seq<string>, t: seq<string>)
    requires Sorted(s) && |s| > 0
    requires forall j :: 0 <= j < |t| ==> t[j] in s[1..]
    ensures forall j :: 0 <= j < |t| ==> StrLe(s[0], t[j])
  {
    forall j | 0 <= j < |t|
      ensures StrLe(s[0], t[j])
    {
      var i :| 0 <= i < |s[1..]| && s[1..][i] == t[j];
      assert s[i + 1] == t[j];
    }
  }

  /** A name no greater than any of a sorted sequence can go before it. */
  lemma ConsSorted(x: string, t: seq<string>)
    requires Sorted(t) && forall j :: 0 <= j < |t| ==> StrLe(x, t[j])
    ensures Sorted([x] + t)
  {
    var s := [x] + t;
    forall i, j | 0 <= i < j < |s|
      ensures StrLe(s[i], s[j])
    {
      if i == 0 {
        assert s[j] == t[j - 1];
      } else {
        assert s[i] == t[i - 1] && s[j] == t[j - 1];
      }
    }
  }

  // ---------------------------------------------------------------- totals

  /** `total_utterances`. */
  function TotalUtterances(docs: seq<Document>): (r: nat)
    ensures (forall k :: 0 <= k < |docs| ==> docs[k].metadata.numUtterances >= 1) ==> r >= |docs|
  {
    if |docs| == 0 then 0
    else TotalUtterances(docs[..|docs| - 1]) + docs[|docs| - 1].metadata.numUtterances
  }

  function SpeakerSet(d: Document): (r: set<string>)
    ensures forall s :: s in r <==> s in d.metadata.speakers
  {
    set s | s in d.metadata.speakers
  }

  /** `all_speakers`: the union of the documents' speaker lists. */
  function AllSpeakers(docs: seq<Document>): (r: set<string>)
    ensures forall k, s :: 0 <= k < |docs| && s in docs[k].metadata.speakers ==> s in r
  {
    if |docs| == 0 then {}
    else AllSpeakers(docs[..|docs| - 1]) + SpeakerSet(docs[|docs| - 1])
  }

  /** Every speaker in the union speaks in some document. */
  lemma {:induction false} AllSpeakersFrom(docs: seq<Document>, s: string)
    requires s in AllSpeakers(docs)
    ensures exists k :: 0 <= k < |docs| && s in docs[k].metadata.speakers
  {
    var last := |docs| - 1;
    if s !in docs[last].metadata.speakers {
      AllSpeakersFrom(docs[..last], s);
      var k :| 0 <= k < last && s in docs[..last][k].metadata.speakers;
      assert docs[k] == docs[..last][k];
    }
  }

  /** The number of documents of meeting type `t`. */
  function CountOf(docs: seq<Document>, t: Option<string>): nat {
    if |docs| == 0 then 0
    else CountOf(docs[..|docs| - 1], t) + (if docs[|docs| - 1].metadata.meetingType == t then 1 else 0)
  }

  /** `meeting_types`: the number of documents of each type, the types in
      the order they first appear. */
  function CountTypes(docs: seq<Document>): (r: OrderedMap<Option<string>, int>)
    ensures r.Valid()
  {
    if |docs| == 0 then Empty()
    else Bump(CountTypes(docs[..|docs| - 1]), docs[|docs| - 1].metadata.meetingType)
  }

  /** `counts[k] = counts.get(k, 0) + 1`. */
  function Bump<K>(m: OrderedMap<K, int>, k: K): (r: OrderedMap<K, int>)
    requires m.Valid()
    ensures r.Valid()
  {
    m.Put(k, m.Get(k).GetOr(0) + 1)
  }

  /** Each type's entry is its document count, and only types that occur
      have one. */
  lemma {:induction false} CountTypesGet(docs: seq<Document>, t: Option<string>)
    ensures CountTypes(docs).Get(t) == if CountOf(docs, t) > 0 then Some(CountOf(docs, t)) else None
  {
    if |docs| > 0 {
      CountTypesGet(docs[..|docs| - 1], t);
    }
  }

  function Sum(s: seq<int>): int {
    if |s| == 0 then 0 else Sum(s[..|s| - 1]) + s[|s| - 1]
  }

  lemma {:induction false} SumBump(s: seq<int>, j: nat, v: int)
    requires j < |s| && v == s[j] + 1
    ensures Sum(s[j := v]) == Sum(s) + 1
  {
    var last := |s| - 1;
    assert s[j := v][..last] == if j == last then s[..last] else s[..last][j := v];
    if j < last {
      SumBump(s[..last], j, v);
    }
  }

  /** Counting one more document of type `k` adds one to the sum of the counts. */
  lemma CountStep<K>(m: OrderedMap<K, int>, k: K)
    requires m.Valid()
    ensures Sum(Bump(m, k).Values()) == Sum(m.Values()) + 1
  {
    var v := m.Get(k).GetOr(0) + 1;
    if k in m.entries {
      assert v == m.entries[k] + 1;
      var j :| 0 <= j < |m.keys| && m.keys[j] == k;
      CountStepSeen(m, k, j);
    } else {
      assert v == 1;
      CountStepNew(m, k);
    }
  }

  lemma CountStepSeen<K>(m: OrderedMap<K, int>, k: K, j: nat)
    requires m.Valid() && j < |m.keys| && m.keys[j] == k
    ensures Sum(m.Put(k, m.entries[k] + 1).Values()) == Sum(m.Values()) + 1
  {
    var v := m.entries[k] + 1;
    var vs := m.Values();
    PutOldValues(m, k, v, j);
    assert v == vs[j] + 1;
    SumBump(vs, j, v);
  }

  lemma CountStepNew<K>(m: OrderedMap<K, int>, k: K)
    requires m.Valid() && k !in m.entries
    ensures Sum(m.Put(k, 1).Values()) == Sum(m.Values()) + 1
  {
    PutNewValues(m, k, 1);
    var vs := m.Values();
    assert (vs + [1])[..|vs|] == vs;
  }

  /** The type counts add up to the number of documents. */
  lemma {:induction false} CountTypesSum(docs: seq<Document>)
    ensures Sum(CountTypes(docs).Values()) == |docs|
  {
    if |docs| > 0 {
      var init := docs[..|docs| - 1];
      var m := CountTypes(init);
      var t := docs[|docs| - 1].metadata.meetingType;
      CountTypesSum(init);
      CountStep(m, t);
    }
  }

  // ---------------------------------------------------------------- the loader

  /** `load_transcripts`: `dirExists` is whether the directory exists,
      `listing` the names of its entries and `read` the XML parser. */
  function LoadTranscripts(dirExists: bool, dir: string, listing: seq<string>, read: string -> Option<MrtTree>): (r: Result<Loaded, LoadError>)
  {
    if !dirExists then Failure(DirectoryNotFound)
    else
      var names := TranscriptNames(listing);
      if |names| == 0 then Failure(NoTranscriptFiles)
      else
        var docs := ParseAll(FilePaths(dir, Sort(names)), MrtParser(read));
        Success(Loaded(docs, TotalUtterances(docs), AllSpeakers(docs), CountTypes(docs)))
  }

  /** The loader raises exactly when the directory is missing or holds no
      `*.mrt` file other than `preambles.mrt`. */
  lemma LoadTranscriptsFails(dirExists: bool, dir: string, listing: seq<string>, read: string -> Option<MrtTree>)
    ensures var r := LoadTranscripts(dirExists, dir, listing, read);
      && (r == Failure(DirectoryNotFound) <==> !dirExists)
      && (r == Failure(NoTranscriptFiles) <==> dirExists && forall n :: n in listing ==> !IsTranscriptName(n))
  {
    var names := TranscriptNames(listing);
    if dirExists && |names| > 0 {
      assert names[0] in listing && IsTranscriptName(names[0]);
    }
  }

  /** On success every document comes from a selected file of the
      directory, holds at least one utterance, and the documents come
      in sorted path order. */
  lemma LoadTranscriptsDocuments(dirExists: bool, dir: string, listing: seq<string>, read: string -> Option<MrtTree>)
    requires LoadTranscripts(dirExists, dir, listing, read).Success?
    ensures var docs := LoadTranscripts(dirExists, dir, listing, read).value.documents;
      && |docs| <= |TranscriptNames(listing)|
      && (forall k :: 0 <= k < |docs| ==>
            docs[k].metadata.numUtterances >= 1 &&
            exists n :: n in listing && IsTranscriptName(n) && docs[k].metadata.source == FilePath(dir, n))
      && Sorted(Sources(docs))
  {
    var names := TranscriptNames(listing);
    var sorted := Sort(names);
    var paths := FilePaths(dir, sorted);
    var parse := MrtParser(read);
    var docs := ParseAll(paths, parse);
    SortSorted(names);
    FilePathsSorted(dir, sorted);
    ParseAllOrdered(paths, parse);
    forall k | 0 <= k < |docs|
      ensures exists n :: n in listing && IsTranscriptName(n) && docs[k].metadata.source == FilePath(dir, n)
    {
      var i :| 0 <= i < |paths| && paths[i] == docs[k].metadata.source;
      assert sorted[i] in multiset(names);
      assert sorted[i] in names;
    }
  }

  /** When the directory exists, the loader succeeds and every selected
      file whose contents parse contributes its document: no file is
      dropped. */
  lemma LoadTranscriptsComplete(dirExists: bool, dir: string, listing: seq<string>, read: string -> Option<MrtTree>, n: string)
    requires dirExists && n in listing && IsTranscriptName(n)
    requires MrtParser(read)(FilePath(dir, n)).Some?
    ensures LoadTranscripts(dirExists, dir, listing, read).Success?
    ensures MrtParser(read)(FilePath(dir, n)).value
      in LoadTranscripts(dirExists, dir, listing, read).value.documents
  {
    var names := TranscriptNames(listing);
    assert n in names;
    var sorted := Sort(names);
    var paths := FilePaths(dir, sorted);
    var parse := MrtParser(read);
    assert LoadTranscripts(dirExists, dir, listing, read).value.documents == ParseAll(paths, parse);
    assert n in multiset(sorted);
    var k :| 0 <= k < |sorted| && sorted[k] == n;
    assert paths[k] == FilePath(dir, n);
    ParseAllComplete(paths, parse, k);
  }

  /** The totals: the type counts add up to the number of documents and
      give each type's number of documents; the utterance total is at least
      the number of documents; the speakers are those of the documents. */
  lemma LoadTranscriptsTotals(dirExists: bool, dir: string, listing: seq<string>, read: string -> Option<MrtTree>, t: Option<string>, s: string)
    requires LoadTranscripts(dirExists, dir, listing, read).Success?
    ensures var l := LoadTranscripts(dirExists, dir, listing, read).value;
      && Sum(l.meetingTypes.Values()) == |l.documents|
      && l.meetingTypes.Get(t) == (if CountOf(l.documents, t) > 0 then Some(CountOf(l.documents, t)) else None)
      && l.totalUtterances >= |l.documents|
      && (s in l.speakers <==> exists k :: 0 <= k < |l.documents| && s in l.documents[k].metadata.speakers)
  {
    var docs := LoadTranscripts(dirExists, dir, listing, read).value.documents;
    CountTypesSum(docs);
    CountTypesGet(docs, t);
    if s in AllSpeakers(docs) {
      AllSpeakersFrom(docs, s);
    }
  }

  /** A meeting file is selected. */
  lemma MeetingFileSelected(n: string)
    requires n == "Bmr001.mrt"
    ensures IsTranscriptName(n)
  {
    SplitAtDot(n, 6);
    assert |n[..6]| != |PreamblesStem|;
  }

  /** The preamble templates are skipped. */
  lemma PreamblesSkipped(n: string)
    requires n == "preambles.mrt"
    ensures !IsTranscriptName(n)
  {
    SplitAtDot(n, 9);
    assert n[..9] == PreamblesStem;
  }

  /** `*.mrt` is case sensitive. */
  lemma UpperCaseNotSelected(n: string)
    requires n == "Bmr001.MRT"
    ensures !IsTranscriptName(n)
  {
    assert n[|n| - 4..] != ".mrt";
  }
}

=== FILE: dict.dfy ===
/** Python's `dict`: a finite map that also remembers the order in which its
    keys were first inserted, so that `keys()` and `values()` come out in
    that order. Overwriting a key keeps its original position. */
module Dict {
  import opened Wrappers

  datatype OrderedMap<K(==), V> = OrderedMap(keys: seq<K>, entries: map<K, V>) {

    /** The key list holds every key exactly once. */
    predicate Valid() {
      && (forall i, j :: 0 <= i < j < |keys| ==> keys[i] != keys[j])
      && (forall i :: 0 <= i < |keys| ==> keys[i] in entries)
      && (forall k :: k in entries ==> k in keys)
    }

    /** `len(d)`. */
    function Size(): nat {
      |entries|
    }

    /** `d.get(k)`. */
    function Get(k: K): (r: Option<V>)
      ensures r.Some? <==> k in entries
      ensures r.Some? ==> r.value == entries[k]
    {
      if k in entries then Some(entries[k]) else None
    }

    /** `d[k] = v`. */
    function Put(k: K, v: V): (d: OrderedMap<K, V>)
      requires Valid()
      ensures d.Valid()
      ensures d.entries == entries[k := v]
      ensures k in entries ==> d.keys == keys
      ensures k !in entries ==> d.keys == keys + [k]
    {
      if k in entries then OrderedMap(keys, entries[k := v])
      else OrderedMap(keys + [k], entries[k := v])
    }

    /** `list(d.values())`, in key order. */
    function Values(): (vs: seq<V>)
      requires Valid()
      ensures |vs| == |keys|
      ensures forall i :: 0 <= i < |keys| ==> vs[i] == entries[keys[i]]
    {
      ValuesAt(keys, entries)
    }
  }

  /** The values of `m` at the keys `ks`, in order. */
  function ValuesAt<K(==), V>(ks: seq<K>, m: map<K, V>): (vs: seq<V>)
    requires forall i :: 0 <= i < |ks| ==> ks[i] in m
    ensures |vs| == |ks|
    ensures forall i :: 0 <= i < |ks| ==> vs[i] == m[ks[i]]
  {
    if |ks| == 0 then [] else [m[ks[0]]] + ValuesAt(ks[1..], m)
  }

  /** `{}`. */
  function Empty<K(==), V>(): (d: OrderedMap<K, V>)
    ensures d.Valid() && d.Size() == 0 && |d.keys| == 0
  {
    OrderedMap([], map[])
  }

  /** The number of distinct elements of a sequence without repetitions is its length. */
  lemma {:induction false} DistinctCard<K>(ks: seq<K>)
    requires forall i, j :: 0 <= i < j < |ks| ==> ks[i] != ks[j]
    ensures |set k | k in ks| == |ks|
  {
    if |ks| > 0 {
      var rest := ks[1..];
      DistinctCard(rest);
      assert (set k | k in ks) == (set k | k in rest) + {ks[0]};
      assert ks[0] !in rest;
    }
  }

  /** In a valid dict, `len(d)` equals the length of its key list, and hence of `values()`. */
  lemma SizeIsKeyCount<K, V>(d: OrderedMap<K, V>)
    requires d.Valid()
    ensures d.Size() == |d.keys| == |d.Values()|
  {
    DistinctCard(d.keys);
    assert d.entries.Keys == set k | k in d.keys;
  }

  /** Adding a new key appends its value. */
  lemma PutNewValues<K, V>(d: OrderedMap<K, V>, k: K, v: V)
    requires d.Valid() && k !in d.entries
    ensures d.Put(k, v).Values() == d.Values() + [v]
  {
    var vs, vs' := d.Values(), d.Put(k, v).Values();
    forall i | 0 <= i < |vs|
      ensures vs'[i] == vs[i]
    {
      assert d.keys[i] != k;
    }
  }

  /** Overwriting a key replaces its value in place. */
  lemma PutOldValues<K, V>(d: OrderedMap<K, V>, k: K, v: V, j: nat)
    requires d.Valid() && j < |d.keys| && d.keys[j] == k
    ensures d.Put(k, v).Values() == d.Values()[j := v]
  {
    var vs, vs' := d.Values(), d.Put(k, v).Values();
    forall i | 0 <= i < |vs|
      ensures vs'[i] == vs[j := v][i]
    {
      if i != j {
        assert d.keys[i] != k;
      }
    }
  }
}

=== FILE: file_cache.dfy ===
/** `FileCache`: uploaded documents remembered by the hash of their content,
    together with the hash each uploaded file name last had. The cache is a
    value here, and each mutating method returns the next cache. */
module FileCache {
  import opened Wrappers
  import opened Dict
  import opened Transcript

  /** `_documents_by_hash` and `_hash_by_filename`. */
  datatype Cache = Cache(documentsByHash: OrderedMap<string, Document>, hashByFilename: OrderedMap<string, string>)

  predicate Valid(c: Cache) {
    c.documentsByHash.Valid() && c.hashByFilename.Valid()
  }

  /** `FileCache()`: nothing cached. */
  function Init(): (c: Cache)
    ensures Valid(c) && Size(c) == 0
    ensures forall h :: !IsCached(c, h)
    ensures GetAllDocuments(c) == [] && GetAllFilenames(c) == []
  {
    Cache(Empty(), Empty())
  }

  /** `is_cached`. */
  function IsCached(c: Cache, h: string): bool {
    h in c.documentsByHash.entries
  }

  /** `add`: the document is stored under its hash, replacing any document
      stored there, and the file name now points at that hash. */
  function Add(c: Cache, h: string, filename: string, doc: Document): (r: Cache)
    requires Valid(c)
    ensures Valid(r)
    ensures IsCached(r, h) && Get(r, h) == Some(doc)
    ensures filename in GetAllFilenames(r)
    ensures forall g :: g != h ==> Get(r, g) == Get(c, g)
    ensures Size(r) == if IsCached(c, h) then Size(c) else Size(c) + 1
    ensures GetAllFilenames(r) == if filename in GetAllFilenames(c) then GetAllFilenames(c) else GetAllFilenames(c) + [filename]
  {
    var r := Cache(c.documentsByHash.Put(h, doc), c.hashByFilename.Put(filename, h));
    assert r.documentsByHash.entries.Keys == if h in c.documentsByHash.entries then c.documentsByHash.entries.Keys
      else c.documentsByHash.entries.Keys + {h};
    r
  }

  /** `get`. */
  function Get(c: Cache, h: string): (r: Option<Document>)
    ensures r.Some? <==> IsCached(c, h)
  {
    c.documentsByHash.Get(h)
  }

  /** `get_all_documents`: the documents in the order their hashes were
      first added. */
  function GetAllDocuments(c: Cache): (r: seq<Document>)
    requires Valid(c)
    ensures |r| == Size(c)
    ensures forall d :: d in r <==> exists h :: IsCached(c, h) && Get(c, h) == Some(d)
  {
    var m := c.documentsByHash;
    SizeIsKeyCount(m);
    var r := m.Values();
    assert forall d :: d in r ==> exists h :: IsCached(c, h) && Get(c, h) == Some(d) by {
      forall d | d in r
        ensures exists h :: IsCached(c, h) && Get(c, h) == Some(d)
      {
        var i :| 0 <= i < |r| && r[i] == d;
        assert IsCached(c, m.keys[i]) && Get(c, m.keys[i]) == Some(d);
      }
    }
    assert forall h :: IsCached(c, h) ==> Get(c, h).value in r by {
      forall h | IsCached(c, h)
        ensures Get(c, h).value in r
      {
        var i :| 0 <= i < |m.keys| && m.keys[i] == h;
        assert r[i] == Get(c, h).value;
      }
    }
    r
  }

  /** `get_all_filenames`: each name once, in the order first added. */
  function GetAllFilenames(c: Cache): (r: seq<string>)
    requires Valid(c)
    ensures forall i, j :: 0 <= i < j < |r| ==> r[i] != r[j]
  {
    c.hashByFilename.keys
  }

  /** `clear`: as if nothing had been added. */
  function Clear(c: Cache): (r: Cache)
    ensures r == Init()
  {
    Cache(Empty(), Empty())
  }

  /** `size`: the number of distinct hashes cached. */
  function Size(c: Cache): nat {
    c.documentsByHash.Size()
  }

  /** A cleared cache holds nothing. */
  lemma ClearEmpties(c: Cache, h: string)
    ensures Size(Clear(c)) == 0 && !IsCached(Clear(c), h) && Get(Clear(c), h).None?
    ensures GetAllFilenames(Clear(c)) == [] && GetAllDocuments(Clear(c)) == []
  {
  }

  /** Adding content already cached keeps the size and replaces the document. */
  lemma ReAddKeepsSize(c: Cache, h: string, f: string, d: Document)
    requires Valid(c) && IsCached(c, h)
    ensures Size(Add(c, h, f, d)) == Size(c) && Get(Add(c, h, f, d), h) == Some(d)
  {
  }

  // ---------------------------------------------------------------- histories

  /** One call of `add`. */
  datatype Upload = Upload(hash: string, filename: string, doc: Document)

  /** The cache after the given calls of `add`, from a fresh one. */
  function Replay(us: seq<Upload>): (c: Cache)
    ensures Valid(c)
  {
    if |us| == 0 then Init()
    else
      var u := us[|us| - 1];
      Add(Replay(us[..|us| - 1]), u.hash, u.filename, u.doc)
  }

  /** The hashes of the uploads, in order. */
  function Hashes(us: seq<Upload>): (r: seq<string>)
    ensures |r| == |us| && forall i :: 0 <= i < |us| ==> r[i] == us[i].hash
  {
    seq(|us|, i requires 0 <= i < |us| => us[i].hash)
  }

  /** The document of the last upload with hash `h`, if any: what a lookup
      should find. */
  function LastUpload(us: seq<Upload>, h: string): Option<Document> {
    if |us| == 0 then None
    else if us[|us| - 1].hash == h then Some(us[|us| - 1].doc)
    else LastUpload(us[..|us| - 1], h)
  }

  lemma HashesInit(us: seq<Upload>)
    requires |us| > 0
    ensures Hashes(us) == Hashes(us[..|us| - 1]) + [us[|us| - 1].hash]
  {
  }

  /** A lookup finds the document of the last upload with that hash, so a
      hash never uploaded is not found. */
  lemma {:induction false} ReplayGet(us: seq<Upload>, h: string)
    ensures Get(Replay(us), h) == LastUpload(us, h)
    ensures IsCached(Replay(us), h) <==> h in Hashes(us)
  {
    if |us| > 0 {
      ReplayGet(us[..|us| - 1], h);
      HashesInit(us);
    }
  }

  /** The distinct elements of a sequence with one more element. */
  lemma DistinctAppend(xs: seq<string>, x: string)
    ensures (set y | y in xs + [x]) == (set y | y in xs) + {x}
  {
  }

  /** The number of distinct elements grows exactly when the new one is new. */
  lemma DistinctAppendCount(xs: seq<string>, x: string)
    ensures |set y | y in xs + [x]| == if x in xs then |set y | y in xs| else |set y | y in xs| + 1
  {
    DistinctAppend(xs, x);
    var a := set y | y in xs;
    assert x in xs <==> x in a;
  }

  /** The size is the number of distinct hashes uploaded. */
  lemma {:induction false} ReplaySize(us: seq<Upload>)
    ensures Size(Replay(us)) == |set x | x in Hashes(us)|
  {
    if |us| > 0 {
      var init, u := us[..|us| - 1], us[|us| - 1];
      var c := Replay(init);
      assert Replay(us) == Add(c, u.hash, u.filename, u.doc);
      ReplaySize(init);
      ReplayGet(init, u.hash);
      HashesInit(us);
      DistinctAppendCount(Hashes(init), u.hash);
    }
  }

  /** One content uploaded under two names: two file names, one document. */
  lemma SharedHash(h: string, f1: string, f2: string, d: Document)
    requires f1 != f2
    ensures var c := Add(Add(Init(), h, f1, d), h, f2, d);
      && GetAllFilenames(c) == [f1, f2] && Size(c) == 1 && |GetAllFilenames(c)| > Size(c)
  {
  }

  /** Uploading a name again points it at the new hash without listing it twice. */
  lemma RenamedUpload(c: Cache, h: string, f: string, d: Document)
    requires Valid(c) && f in GetAllFilenames(c)
    ensures GetAllFilenames(Add(c, h, f, d)) == GetAllFilenames(c)
    ensures Add(c, h, f, d).hashByFilename.Get(f) == Some(h)
  {
  }
}

=== FILE: file_processor.dfy ===
/** `FileProcessor`: the checks an uploaded file goes through and its
    conversion into a document. */
module FileProcessor {
  import opened Wrappers
  import opened Text
  import opened Paths
  import opened Transcript

  /** A byte of file content. */
  type Byte = bv8

  /** One megabyte, `1024 * 1024` bytes. */
  const BytesPerMb := 1048576

  /** The only extension `process_file` converts. */
  const MrtExtension := ".mrt"

  /** Why `process_file` raises `ValueError`. */
  datatype ProcessError = UnsupportedExtension(extension: string) | ParseFailed(filename: string)

  /** Why `validate_file_size` raises: the size in megabytes and the limit. */
  datatype SizeError = TooLarge(sizeMb: real, maxMb: int)

  /** `Path(filename).suffix.lower()`. */
  function Extension(filename: string): string {
    Lower(Suffix(filename))
  }

  // ---------------------------------------------------------------- validators

  /** `validate_file_type`: the error names the rejected extension. */
  function ValidateFileType(filename: string, allowed: seq<string>): (r: Outcome<string>)
    ensures r.Fail? ==> r.error == Extension(filename) && r.error !in allowed
  {
    var ext := Extension(filename);
    if ext !in allowed then Fail(ext) else Pass
  }

  /** A file passes exactly when its extension, whatever its case, is one
      of the allowed ones written in lower case. */
  lemma ValidateFileTypeSpec(filename: string, allowed: seq<string>)
    ensures ValidateFileType(filename, allowed).Pass? <==>
      exists i :: 0 <= i < |allowed| && allowed[i] == Lower(Suffix(filename))
  {
    if Extension(filename) in allowed {
      var i :| 0 <= i < |allowed| && allowed[i] == Extension(filename);
    }
  }

  /** An empty list of allowed extensions rejects every file. */
  lemma NothingAllowed(filename: string)
    ensures ValidateFileType(filename, []) == Fail(Extension(filename))
  {
  }

  /** `validate_file_size`: the size in megabytes is the byte count divided
      by `1024 * 1024`, compared with the limit. */
  function ValidateFileSize(content: seq<Byte>, maxSizeMb: int): (r: Outcome<SizeError>)
    ensures r.Fail? ==> r.error.maxMb == maxSizeMb && r.error.sizeMb > maxSizeMb as real
  {
    var sizeMb := (|content| as real) / (BytesPerMb as real);
    if sizeMb > maxSizeMb as real then Fail(TooLarge(sizeMb, maxSizeMb)) else Pass
  }

  /** In whole bytes: the content is rejected exactly when it has more than
      `maxSizeMb * 1024 * 1024` bytes. */
  lemma ValidateFileSizeBytes(content: seq<Byte>, maxSizeMb: int)
    ensures ValidateFileSize(content, maxSizeMb).Fail? <==> |content| > maxSizeMb * BytesPerMb
  {
    var n, m := |content| as real, BytesPerMb as real;
    if n / m > maxSizeMb as real {
      assert n > (maxSizeMb as real) * m;
    }
    if |content| > maxSizeMb * BytesPerMb {
      assert n > (maxSizeMb * BytesPerMb) as real;
    }
  }

  /** Content of exactly the limit passes; one more byte fails. */
  lemma SizeLimitBoundary(content: seq<Byte>, b: Byte, maxSizeMb: nat)
    requires |content| == maxSizeMb * BytesPerMb
    ensures ValidateFileSize(content, maxSizeMb).Pass?
    ensures ValidateFileSize(content + [b], maxSizeMb).Fail?
  {
    ValidateFileSizeBytes(content, maxSizeMb);
    ValidateFileSizeBytes(content + [b], maxSizeMb);
  }

  /** Empty content passes under any limit that is not negative. */
  lemma EmptyContentPasses(maxSizeMb: int)
    ensures ValidateFileSize([], maxSizeMb).Pass? <==> maxSizeMb >= 0
  {
    ValidateFileSizeBytes([], maxSizeMb);
  }

  // ---------------------------------------------------------------- process_file

  /** `process_file`: `tempPath` is the path of the temporary `.mrt` file the
      content is written to, and `read` the XML parser applied to the
      content. */
  function ProcessFile(filename: string, content: seq<Byte>, tempPath: string, read: seq<Byte> -> Option<MrtTree>): (r: Result<Document, ProcessError>)
    ensures Extension(filename) != MrtExtension ==> r == Failure(UnsupportedExtension(Extension(filename)))
  {
    var ext := Extension(filename);
    if ext != MrtExtension then Failure(UnsupportedExtension(ext))
    else Tag(filename, ParseMrtFile(tempPath, read(content)))
  }

  /** The part of `process_file` after parsing: no document raises, and a
      document is tagged with the uploaded file's name. */
  function Tag(filename: string, parsed: Option<Document>): (r: Result<Document, ProcessError>)
    ensures parsed.None? <==> r == Failure(ParseFailed(filename))
    ensures r.Success? ==> r.value.text == parsed.value.text
    ensures r.Success? ==> r.value.metadata.uploadedFilename == Some(filename)
    ensures r.Success? ==> r.value.metadata.(uploadedFilename := parsed.value.metadata.uploadedFilename) == parsed.value.metadata
  {
    match parsed
    case None => Failure(ParseFailed(filename))
    case Some(doc) => Success(doc.(metadata := doc.metadata.(uploadedFilename := Some(filename))))
  }

  /** A file whose extension is not `.mrt` is refused whatever its content:
      the content is never read. */
  lemma ProcessFileIgnoresContent(filename: string, c1: seq<Byte>, c2: seq<Byte>, p1: string, p2: string,
                                  r1: seq<Byte> -> Option<MrtTree>, r2: seq<Byte> -> Option<MrtTree>)
    requires Extension(filename) != MrtExtension
    ensures ProcessFile(filename, c1, p1, r1) == ProcessFile(filename, c2, p2, r2)
    ensures ProcessFile(filename, c1, p1, r1).Failure?
  {
  }

  /** `process_file`'s extension check accepts the files `validate_file_type`
      accepts with `.mrt` as the one allowed extension. */
  lemma ProcessFileGuard(filename: string, content: seq<Byte>, tempPath: string, read: seq<Byte> -> Option<MrtTree>)
    ensures ProcessFile(filename, content, tempPath, read) != Failure(UnsupportedExtension(Extension(filename)))
       <==> ValidateFileType(filename, [MrtExtension]).Pass?
  {
  }

  /** The outcome of an `.mrt` upload: a parse failure raises, and otherwise
      the file's document comes back with only `uploaded_filename` added to
      its metadata. */
  lemma ProcessFileOutcome(filename: string, content: seq<Byte>, tempPath: string, read: seq<Byte> -> Option<MrtTree>)
    requires Extension(filename) == MrtExtension
    ensures var parsed, r := ParseMrtFile(tempPath, read(content)), ProcessFile(filename, content, tempPath, read);
      && (parsed.None? <==> r == Failure(ParseFailed(filename)))
      && (r.Success? ==>
            && r.value.text == parsed.value.text
            && r.value.metadata.uploadedFilename == Some(filename)
            && parsed.value.metadata.uploadedFilename.None?
            && r.value.metadata.(uploadedFilename := None) == parsed.value.metadata)
  {
  }

  /** The extension check ignores case: `test.MRT` and `test.MrT` pass. */
  lemma MixedCaseAccepted(a: string, b: string)
    requires a == "test.MRT" && b == "test.MrT"
    ensures ValidateFileType(a, [MrtExtension]).Pass? && ValidateFileType(b, [MrtExtension]).Pass?
  {
    UpperMrtAccepted(a);
    UpperMrtAccepted(b);
  }

  lemma UpperMrtAccepted(a: string)
    requires a == "test.MRT" || a == "test.MrT"
    ensures ValidateFileType(a, [MrtExtension]).Pass?
  {
    SplitAtDot(a, 4);
    LowerMrt(a[4..]);
  }

  lemma LowerMrt(s: string)
    requires s == ".MRT" || s == ".MrT"
    ensures Lower(s) == MrtExtension
  {
    var r := Lower(s);
    assert r[0] == LowerChar(s[0]) == '.';
    assert r[1] == LowerChar(s[1]) == 'm';
    assert r[2] == LowerChar(s[2]) == 'r';
    assert r[3] == LowerChar(s[3]) == 't';
  }

  /** A name without an extension has the empty suffix and is refused. */
  lemma NoExtensionRejected(a: string)
    requires a == "noextension"
    ensures ValidateFileType(a, [MrtExtension]) == Fail("")
  {
    assert RFind(a, '/') == -1 && RFind(a, '.') == -1;
  }
}

=== FILE: identifiers.dfy ===
/** ICSI naming conventions: meeting identifiers such as `Bmr001` and
    speaker identifiers such as `me011`, and the table of meeting-type codes. */
module Identifiers {
  import opened Wrappers

  /** The three positional parts of a meeting identifier; all absent when the
      identifier is too short to decompose. */
  datatype MeetingIdParts = MeetingIdParts(location: Option<string>, typeCode: Option<string>, number: Option<string>)

  /** Identifiers shorter than this are not decomposed. */
  const MinMeetingIdLength := 6

  /** `parse_meeting_id`: location letter, two-letter type code, then the rest. */
  function ParseMeetingId(id: string): (r: MeetingIdParts)
    ensures r.location.Some? <==> |id| >= MinMeetingIdLength
    ensures r.typeCode.Some? == r.location.Some? && r.number.Some? == r.location.Some?
    ensures r.location.Some? ==>
      |r.location.value| == 1 && |r.typeCode.value| == 2
      && r.location.value + r.typeCode.value + r.number.value == id
  {
    if |id| >= MinMeetingIdLength then
      MeetingIdParts(Some(id[..1]), Some(id[1..3]), Some(id[3..]))
    else MeetingIdParts(None, None, None)
  }

  /** The decoded fields of a speaker identifier; only `rawId` is present for
      identifiers shorter than five characters. */
  datatype SpeakerInfo = SpeakerInfo(rawId: string, gender: Option<string>, nativeEnglish: Option<bool>, speakerNum: Option<string>)

  const MinSpeakerIdLength := 5

  /** The gender for a code letter: `m`, `f`, `u` and `x` are male, female,
      unknown and computer; any other letter reads as `"unknown"`. */
  function GenderOf(code: char): (g: string)
    ensures g in {"male", "female", "unknown", "computer"}
  {
    if code == 'm' then "male"
    else if code == 'f' then "female"
    else if code == 'u' then "unknown"
    else if code == 'x' then "computer"
    else "unknown"
  }

  /** `parse_speaker_id`. */
  function ParseSpeakerId(id: string): (r: SpeakerInfo)
    ensures r.rawId == id
    ensures r.gender.Some? <==> |id| >= MinSpeakerIdLength
    ensures r.nativeEnglish.Some? == r.gender.Some? && r.speakerNum.Some? == r.gender.Some?
    ensures r.gender.Some? ==>
      && r.gender.value == GenderOf(id[0])
      && r.nativeEnglish.value == (id[1] == 'e')
      && id == id[..2] + r.speakerNum.value
  {
    if |id| >= MinSpeakerIdLength then
      SpeakerInfo(id, Some(GenderOf(id[0])), Some(id[1] == 'e'), Some(id[2..]))
    else SpeakerInfo(id, None, None, None)
  }

  /** A speaker is reported `"unknown"` exactly when its code letter is `u`
      or is not a gender code at all. */
  lemma GenderUnknown(code: char)
    ensures GenderOf(code) == "unknown" <==> code !in "mfx"
  {
  }

  /** The meeting-type codes of the corpus, in table order. */
  const MeetingTypeCodes: seq<string> := ["db", "ed", "mr", "ns", "ro", "sr", "tr", "uw"]

  /** The `MEETING_TYPES` table: the description of a known code. */
  function MeetingTypeLookup(code: string): Option<string> {
    if code == "db" then Some("Database issues meeting")
    else if code == "ed" then Some("Even Deeper Understanding (NLP/AI) weekly meeting")
    else if code == "mr" then Some("Meeting Recorder weekly meeting")
    else if code == "ns" then Some("Network Services and Applications group meeting")
    else if code == "ro" then Some("Robustness (signal processing) weekly meeting")
    else if code == "sr" then Some("SRI collaboration meeting")
    else if code == "tr" then Some("Meeting Recorder transcriber's meeting")
    else if code == "uw" then Some("UW collaboration meeting")
    else None
  }

  const UnknownMeetingType := "Unknown meeting type"

  /** `MEETING_TYPES.get(type_code, "Unknown meeting type")`; an absent code
      (a short meeting identifier) falls back as well. */
  function MeetingTypeDescription(code: Option<string>): (d: string)
    ensures |d| > 0
    ensures code.Some? && MeetingTypeLookup(code.value).Some? ==> d == MeetingTypeLookup(code.value).value
    ensures d == UnknownMeetingType <==> code.None? || MeetingTypeLookup(code.value).None?
  {
    if code.Some? && MeetingTypeLookup(code.value).Some? then
      MeetingTypeDescribed(code.value);
      MeetingTypeLookup(code.value).value
    else UnknownMeetingType
  }

  /** The table knows exactly the eight listed codes, each with a non-empty
      description. */
  lemma MeetingTypeTable(code: string)
    ensures MeetingTypeLookup(code).Some? <==> code in MeetingTypeCodes
    ensures MeetingTypeLookup(code).Some? ==> |MeetingTypeLookup(code).value| > 0
  {
    MeetingTypeDescribed(code);
  }

  /** Every description in the table is non-empty and differs from the
      fallback. */
  lemma MeetingTypeDescribed(code: string)
    ensures MeetingTypeLookup(code).Some? ==>
      |MeetingTypeLookup(code).value| > 0 && MeetingTypeLookup(code).value != UnknownMeetingType
  {
  }

  /** The meeting identifiers of the corpus decode as documented. */
  lemma MeetingIdExamples()
    ensures ParseMeetingId("Bmr001") == MeetingIdParts(Some("B"), Some("mr"), Some("001"))
    ensures ParseMeetingId("Bed005").typeCode == Some("ed")
    ensures ParseMeetingId("Bro017").typeCode == Some("ro")
    ensures ParseMeetingId("Bmr") == MeetingIdParts(None, None, None)
    ensures MeetingTypeDescription(ParseMeetingId("Bmr").typeCode) == UnknownMeetingType
  {
    assert "Bmr001"[..1] == "B" && "Bmr001"[1..3] == "mr" && "Bmr001"[3..] == "001";
    assert "Bed005"[1..3] == "ed";
    assert "Bro017"[1..3] == "ro";
  }

  lemma SpeakerIdExamples()
    ensures ParseSpeakerId("me011") == SpeakerInfo("me011", Some("male"), Some(true), Some("011"))
    ensures ParseSpeakerId("fn002").gender == Some("female") && ParseSpeakerId("fn002").nativeEnglish == Some(false)
    ensures ParseSpeakerId("ue001").gender == Some("unknown")
    ensures ParseSpeakerId("me01") == SpeakerInfo("me01", None, None, None)
  {
    assert "me011"[2..] == "011";
  }
}

=== FILE: markup.dfy ===
/** `clean_text`: the fixed, order-sensitive pipeline that turns the
    serialized markup of one transcript segment into plain prose. */
module Markup {
  import opened Text
  import opened Rewrite

  /** The tag stages, in the order the source applies them: sound
      descriptions become `[description]`, pauses `...`, emphasis, foreign
      words and pronunciations keep their words, uncertain words become
      `(word?)` and an uncertain `@@` becomes `(unintelligible)`, comments go,
      and finally any tag left is removed. */
  function RewriteTags(t: string): string {
    var t1 := Apply(VocalSound, t);
    var t2 := Apply(NonVocalSound, t1);
    var t3 := Apply(Pause, t2);
    var t4 := Apply(Emphasis, t3);
    var t5 := Apply(Uncertain, t4);
    var t6 := Apply(Unintelligible, t5);
    var t7 := Apply(Foreign, t6);
    var t8 := Apply(Pronounce, t7);
    var t9 := Apply(Comment, t8);
    Apply(AnyTag, t9)
  }

  /** `O_K` becomes `OK`, then three-letter and then two-letter
      underscore acronyms lose their underscores. */
  function RewriteAcronyms(t: string): string {
    Apply(Acronym2, Apply(Acronym3, Apply(OkToken, t)))
  }

  /** The last two stages: every whitespace run becomes one space, then
      `strip`. The result has no whitespace at either end, never two
      whitespace characters in a row, and no whitespace other than the plain
      space, so in particular no line break; every other character is kept,
      in order. */
  function NormalizeSpace(t: string): (r: string)
    ensures |r| > 0 ==> !IsSpace(r[0]) && !IsSpace(r[|r| - 1])
    ensures NoDoubleSpace(r) && OnlyPlainSpaces(r)
    ensures '\n' !in r
    ensures NonSpace(r) == NonSpace(t)
  {
    var spaced := Apply(SpaceRun, t);
    SpaceRunShape(t, 0);
    SpaceRunKeepsNonSpace(t, 0);
    assert t[0..] == t;
    StripNormalized(spaced);
    StripKeepsNonSpace(spaced);
    Strip(spaced)
  }

  /** `clean_text`. An empty input (Python's `""` or `None`) gives `""`;
      otherwise entities are decoded, the tag stages and then the acronym
      stages run, and whitespace is normalized, which keeps every other
      character of the rewritten text in order. */
  function CleanText(text: string): (r: string)
    ensures |text| == 0 ==> r == ""
    ensures |r| > 0 ==> !IsSpace(r[0]) && !IsSpace(r[|r| - 1])
    ensures NoDoubleSpace(r) && OnlyPlainSpaces(r)
    ensures '\n' !in r
    ensures |text| > 0 ==> NonSpace(r) == NonSpace(RewriteAcronyms(RewriteTags(Apply(Unescape, text))))
  {
    if |text| == 0 then ""
    else NormalizeSpace(RewriteAcronyms(RewriteTags(Apply(Unescape, text))))
  }

  /** The tag stages only act on text containing `<`. */
  lemma RewriteTagsPlain(t: string)
    requires '<' !in t
    ensures RewriteTags(t) == t
  {
    NoTriggerNoChange(VocalSound, t);
    NoTriggerNoChange(NonVocalSound, t);
    NoTriggerNoChange(Pause, t);
    NoTriggerNoChange(Emphasis, t);
    NoTriggerNoChange(Uncertain, t);
    NoTriggerNoChange(Unintelligible, t);
    NoTriggerNoChange(Foreign, t);
    NoTriggerNoChange(Pronounce, t);
    NoTriggerNoChange(Comment, t);
    NoTriggerNoChange(AnyTag, t);
  }

  /** The acronym stages only act on text containing `_`. */
  lemma RewriteAcronymsPlain(t: string)
    requires '_' !in t
    ensures RewriteAcronyms(t) == t
  {
    NoUnderscoreNoChange(OkToken, t);
    NoUnderscoreNoChange(Acronym3, t);
    NoUnderscoreNoChange(Acronym2, t);
  }

  /** Text without markup characters (`&`, `<`, `_`) is only
      whitespace-normalized. */
  lemma CleanTextPlain(t: string)
    requires '&' !in t && '<' !in t && '_' !in t
    ensures CleanText(t) == NormalizeSpace(t)
  {
    if |t| > 0 {
      NoTriggerNoChange(Unescape, t);
      RewriteTagsPlain(t);
      RewriteAcronymsPlain(t);
    }
  }

  /** Whitespace normalization keeps text that is already normalized. */
  lemma NormalizeSpaceKeeps(t: string)
    requires NoDoubleSpace(t) && OnlyPlainSpaces(t)
    requires |t| > 0 ==> !IsSpace(t[0]) && !IsSpace(t[|t| - 1])
    ensures NormalizeSpace(t) == t
  {
    SpaceRunKeepsNormalized(t, 0);
    StripUnchanged(t);
  }

  /** A run of whitespace between two words becomes one plain space. */
  lemma NormalizeSpaceBetweenWords(a: string, sp: string, b: string)
    requires NoSpace(a) && NoSpace(b) && |a| > 0 && |b| > 0
    requires AllSpace(sp) && |sp| > 0
    ensures NormalizeSpace(a + sp + b) == a + " " + b
  {
    SpaceRunBetweenWords(a + sp + b, a, sp, b);
    var u := a + " " + b;
    assert u[0] == a[0] && u[|u| - 1] == b[|b| - 1];
    StripUnchanged(u);
  }

  /** Plain prose that is already normalized comes back unchanged. */
  lemma CleanTextKeepsProse(t: string)
    requires '&' !in t && '<' !in t && '_' !in t
    requires NoDoubleSpace(t) && OnlyPlainSpaces(t)
    requires |t| > 0 ==> !IsSpace(t[0]) && !IsSpace(t[|t| - 1])
    ensures CleanText(t) == t
  {
    CleanTextPlain(t);
    NormalizeSpaceKeeps(t);
  }
}

=== FILE: noise.dfy ===
/** `is_empty_or_noise`: whether a cleaned utterance carries no words worth
    indexing, either because it is (almost) empty or because it is a single
    bracketed sound description such as `[laugh]`. */
module Noise {
  import opened Text

  /** Utterances whose stripped text is shorter than this are noise. */
  const MinUtteranceLength := 2

  /** `re.match(r'^\[[^\]]+\]$', s)`: an opening bracket, the longest run of
      characters other than `]` (at least one), a closing bracket, and then
      the end of the string, or a final line break, which `$` also accepts.
      Backtracking into the run cannot help, since every shorter run is
      followed by a character other than `]`. */
  predicate BracketMatch(s: string) {
    |s| > 0 && s[0] == '[' &&
    var j := RunEnd(s, 1, NotRBracket);
    j > 1 && j < |s| && s[j] == ']' && (j + 1 == |s| || (j + 2 == |s| && s[j + 1] == '\n'))
  }

  /** The declarative reading: one pair of brackets around a non-empty text
      with no closing bracket inside. */
  predicate IsBracketed(s: string) {
    |s| >= 3 && s[0] == '[' && s[|s| - 1] == ']' && ']' !in s[1..|s| - 1]
  }

  /** `is_empty_or_noise`; an absent text (`None`) is the empty string here. */
  function IsEmptyOrNoise(text: string): (r: bool)
    ensures |text| == 0 ==> r
    ensures r <==> |Strip(text)| < MinUtteranceLength || IsBracketed(Strip(text))
  {
    var cleaned := Strip(text);
    StripSpec(text);
    BracketMatchWithoutLineBreak(cleaned);
    if |text| == 0 then true
    else if |cleaned| < MinUtteranceLength then true
    else BracketMatch(cleaned)
  }

  /** The run of non-`]` characters from index 1 covers `s[1..j]`. */
  lemma RunCovers(s: string, j: nat)
    requires 1 <= j <= |s|
    requires forall k :: 1 <= k < j ==> s[k] != ']'
    ensures ']' !in s[1..j]
  {
    forall k | 0 <= k < j - 1
      ensures s[1..j][k] != ']'
    {
      assert s[1..j][k] == s[k + 1];
    }
  }

  /** On text that does not end in a line break, the pattern accepts exactly
      the bracketed texts. */
  lemma BracketMatchWithoutLineBreak(s: string)
    requires |s| > 0 ==> s[|s| - 1] != '\n'
    ensures BracketMatch(s) <==> IsBracketed(s)
  {
    if |s| > 0 && s[0] == '[' {
      var j := RunEnd(s, 1, NotRBracket);
      if BracketMatch(s) {
        assert j + 1 == |s|;
        RunCovers(s, j);
      }
      if IsBracketed(s) {
        var n := |s| - 1;
        assert forall k :: 1 <= k < n ==> s[k] == s[1..n][k - 1];
        assert j == n;
      }
    }
  }

  /** Text shorter than two characters is noise. */
  lemma ShortIsNoise(t: string)
    requires |t| < MinUtteranceLength
    ensures IsEmptyOrNoise(t)
  {
    StripSpec(t);
  }

  /** A single bracketed description, possibly with whitespace around it, is
      noise. */
  lemma BracketedIsNoise(t: string, sp: string, d: string, sq: string)
    requires t == sp + ("[" + d + "]") + sq
    requires AllSpace(sp) && AllSpace(sq) && |d| > 0 && ']' !in d
    ensures IsEmptyOrNoise(t)
  {
    var m := "[" + d + "]";
    assert m[1..|m| - 1] == d;
    StripAround(t, sp, m, sq);
  }

  /** Stripping removes whitespace margins around a text that neither
      starts nor ends with whitespace. */
  lemma StripAround(t: string, sp: string, m: string, sq: string)
    requires t == sp + m + sq && AllSpace(sp) && AllSpace(sq)
    requires |m| > 0 && !IsSpace(m[0]) && !IsSpace(m[|m| - 1])
    ensures Strip(t) == m
    decreases |sp| + |sq|
  {
    if |sp| > 0 {
      assert t[1..] == sp[1..] + m + sq;
      StripAround(t[1..], sp[1..], m, sq);
      assert StripLeading(t) == StripLeading(t[1..]);
    } else if |sq| > 0 {
      var l := StripLeading(t);
      assert t == m + sq;
      assert l == t;
      assert t[..|t| - 1] == m + sq[..|sq| - 1];
      StripAround(t[..|t| - 1], sp, m, sq[..|sq| - 1]);
      assert StripLeading(t[..|t| - 1]) == t[..|t| - 1];
    } else {
      assert t == m;
      StripUnchanged(m);
    }
  }

  /** Text with at least two characters, no whitespace margin and no
      opening bracket at its start is kept. */
  lemma WordsAreNotNoise(t: string)
    requires |t| >= MinUtteranceLength && t[0] != '['
    requires !IsSpace(t[0]) && !IsSpace(t[|t| - 1])
    ensures !IsEmptyOrNoise(t)
  {
    StripUnchanged(t);
  }

  /** Two bracketed descriptions in a row are kept. */
  lemma TwoSoundsAreNotNoise(t: string, d: string, e: string)
    requires t == "[" + d + "] [" + e + "]"
    ensures !IsEmptyOrNoise(t)
  {
    StripUnchanged(t);
    assert t[1..|t| - 1][|d|] == ']';
  }

  lemma LaughIsNoise(t: string)
    requires t == "[laugh]"
    ensures IsEmptyOrNoise(t)
  {
    assert t == "" + ("[" + "laugh" + "]") + "";
    BracketedIsNoise(t, "", "laugh", "");
  }

  lemma BreathIsNoise(t: string)
    requires t == "  [breath] "
    ensures IsEmptyOrNoise(t)
  {
    assert t == "  " + ("[" + "breath" + "]") + " ";
    BracketedIsNoise(t, "  ", "breath", " ");
  }

  lemma EmptyPairIsNotNoise(t: string)
    requires t == "[]"
    ensures !IsEmptyOrNoise(t)
  {
    StripUnchanged(t);
  }

  lemma SentencesAreNotNoise(t: string, u: string)
    requires t == "We discussed the project" && u == "OK, sounds good"
    ensures !IsEmptyOrNoise(t) && !IsEmptyOrNoise(u)
  {
    WordsAreNotNoise(t);
    WordsAreNotNoise(u);
  }

  lemma LaughThenBreathIsNotNoise(t: string)
    requires t == "[laugh] [breath]"
    ensures !IsEmptyOrNoise(t)
  {
    assert t == "[" + "laugh" + "] [" + "breath" + "]";
    TwoSoundsAreNotNoise(t, "laugh", "breath");
  }
}

=== FILE: paths.dfy ===
/** The three `pathlib.PurePath` attributes the ingestion code reads:
    `name`, `suffix` and `stem`. A path is a string whose components are
    separated by `/`. */
module Paths {

  /** `s.rfind(c)`: the last index of `c` in `s`, or -1. */
  function RFind(s: string, c: char): (i: int)
    ensures -1 <= i < |s|
    ensures i >= 0 ==> s[i] == c
    ensures forall k :: i < k < |s| ==> s[k] != c
  {
    if |s| == 0 then -1
    else if s[|s| - 1] == c then |s| - 1
    else RFind(s[..|s| - 1], c)
  }

  /** The last `c` in `s` is at `i`. */
  lemma RFindAt(s: string, c: char, i: nat)
    requires i < |s| && s[i] == c
    requires forall k :: i < k < |s| ==> s[k] != c
    ensures RFind(s, c) == i
  {
  }

  /** A character that does not occur is not found. */
  lemma RFindAbsent(s: string, c: char)
    requires forall k :: 0 <= k < |s| ==> s[k] != c
    ensures RFind(s, c) == -1
  {
  }

  /** The path without what `PurePath` drops from its end: trailing `/`
      separators and trailing `.` components. */
  function Trim(p: string): (t: string)
    ensures |t| <= |p|
    decreases |p|
  {
    if |p| > 0 && p[|p| - 1] == '/' then Trim(p[..|p| - 1])
    else if DotComponentAtEnd(p) then Trim(p[..|p| - 1])
    else p
  }

  /** `p` ends in a `.` component: it is `.` or ends in `/.`. */
  predicate DotComponentAtEnd(p: string) {
    |p| > 0 && p[|p| - 1] == '.' && (|p| == 1 || p[|p| - 2] == '/')
  }

  /** What `Trim` cuts is a tail of `/` and `.` characters, and what it
      keeps ends neither in a separator nor in a `.` component. */
  lemma {:induction false} TrimSpec(p: string)
    ensures var t := Trim(p);
      && t == p[..|t|]
      && (forall k :: |t| <= k < |p| ==> p[k] == '/' || p[k] == '.')
      && (|t| > 0 ==> t[|t| - 1] != '/')
      && !DotComponentAtEnd(t)
    decreases |p|
  {
    if |p| > 0 && p[|p| - 1] == '/' {
      TrimSpec(p[..|p| - 1]);
    } else if DotComponentAtEnd(p) {
      TrimSpec(p[..|p| - 1]);
    }
  }

  /** A path that ends in neither `/` nor `.` keeps its end. */
  lemma TrimPlain(p: string)
    requires |p| > 0 && p[|p| - 1] != '/' && p[|p| - 1] != '.'
    ensures Trim(p) == p
  {
  }

  /** The stem and suffix of a bare file name whose last dot is at `i`. */
  lemma SplitAtDot(p: string, i: nat)
    requires 0 < i < |p| - 1 && p[i] == '.'
    requires forall k :: 0 <= k < |p| ==> p[k] != '/'
    requires forall k :: i < k < |p| ==> p[k] != '.'
    ensures Stem(p) == p[..i] && Suffix(p) == p[i..]
  {
    TrimPlain(p);
    RFindAbsent(p, '/');
    RFindAt(p, '.', i);
  }

  /** `PurePath(p).name`: the last component of the path, where components
      are separated by `/` and a `.` component counts for nothing; `""` when
      no component is left. */
  function Name(p: string): (n: string)
    ensures '/' !in n
  {
    LastComponent(Trim(p))
  }

  /** What follows the last `/` of a path. */
  function LastComponent(t: string): (n: string)
    ensures '/' !in n
  {
    t[RFind(t, '/') + 1..]
  }

  /** `n` is the last component of the trimmed path `t`: not `.`, the end
      of `t`, and after a `/` unless it is all of `t`. */
  predicate EndComponent(t: string, n: string) {
    && n != "." && |n| <= |t| && n == t[|t| - |n|..]
    && (|n| < |t| ==> t[|t| - |n| - 1] == '/')
  }

  /** The name is the last component of what `Trim` keeps of the path. */
  lemma NameSpec(p: string)
    ensures EndComponent(Trim(p), Name(p))
  {
    TrimSpec(p);
    LastComponentSpec(Trim(p));
  }

  /** The last component of a path that does not end in a `.` component. */
  lemma LastComponentSpec(t: string)
    requires !DotComponentAtEnd(t)
    ensures EndComponent(t, LastComponent(t))
  {
  }

  /** A separator at the end of a path does not change its name. */
  lemma NameTrailingSeparator(p: string)
    ensures Name(p + "/") == Name(p)
  {
    assert (p + "/")[..|p|] == p;
  }

  /** A `.` component at the end of a path does not change its name. */
  lemma NameTrailingDot(p: string)
    ensures Name(p + "/.") == Name(p)
  {
    var q := p + "/.";
    assert DotComponentAtEnd(q);
    assert q[..|q| - 1] == p + "/";
    NameTrailingSeparator(p);
  }

  /** The name of `dir/n`, for a component `n`, is `n`. */
  lemma NameAfterDirectory(dir: string, n: string)
    requires |n| > 0 && '/' !in n && n[|n| - 1] != '.'
    ensures Name(dir + "/" + n) == n
  {
    var p := dir + "/" + n;
    TrimPlain(p);
    assert p[|dir|] == '/';
    forall k | |dir| < k < |p|
      ensures p[k] != '/'
    {
      assert p[k] == n[k - |dir| - 1];
    }
    RFindAt(p, '/', |dir|);
    assert p[|dir| + 1..] == n;
  }

  /** Where the suffix of a file name starts, if it has one: the last dot,
      provided it is neither the first nor the last character. */
  function SuffixStart(name: string): (i: int)
    ensures -1 <= i < |name|
  {
    var i := RFind(name, '.');
    if 0 < i < |name| - 1 then i else -1
  }

  /** The suffix of a file name: from its last dot on, when that dot is
      neither its first nor its last character. */
  function NameSuffix(name: string): (s: string)
    ensures s == "" || (|s| >= 2 && s[0] == '.' && '.' !in s[1..])
  {
    var i := SuffixStart(name);
    if i < 0 then "" else name[i..]
  }

  /** The stem of a file name: the name without its suffix. */
  function NameStem(name: string): string {
    var i := SuffixStart(name);
    if i < 0 then name else name[..i]
  }

  /** `PurePath(p).suffix`. */
  function Suffix(p: string): (s: string)
    ensures s == "" || (|s| >= 2 && s[0] == '.' && '.' !in s[1..])
  {
    NameSuffix(Name(p))
  }

  /** `PurePath(p).stem`. */
  function Stem(p: string): string {
    NameStem(Name(p))
  }

  /** A name splits into its stem followed by its suffix. */
  lemma StemSuffix(p: string)
    ensures Stem(p) + Suffix(p) == Name(p)
  {
  }

  /** The stem of a name with a suffix is non-empty: a leading dot never starts one. */
  lemma SuffixAfterNonEmptyStem(p: string)
    requires Suffix(p) != ""
    ensures |Stem(p)| >= 1
  {
  }

  lemma SuffixUpperCase(p: string)
    requires p == "test.MRT"
    ensures Suffix(p) == ".MRT"
  {
    SplitAtDot(p, 4);
  }

  lemma SuffixInDirectory()
    ensures Suffix("dir/Bmr001.mrt") == ".mrt" && Stem("dir/Bmr001.mrt") == "Bmr001"
  {
    NameAfterDirectory("dir", "Bmr001.mrt");
    assert "dir" + "/" + "Bmr001.mrt" == "dir/Bmr001.mrt";
    RFindAt("Bmr001.mrt", '.', 6);
  }

  /** A trailing separator, or a trailing `.` component, leaves the suffix
      as it is. */
  lemma SuffixTrailingSeparator(p: string)
    requires p == "x.mrt"
    ensures Suffix(p + "/") == ".mrt" && Suffix(p + "/.") == ".mrt"
  {
    SplitAtDot(p, 1);
    NameTrailingSeparator(p);
    SameName(p + "/", p);
    NameTrailingDot(p);
    SameName(p + "/.", p);
  }

  /** Suffix and stem depend on the name alone. */
  lemma SameName(p: string, q: string)
    requires Name(p) == Name(q)
    ensures Suffix(p) == Suffix(q) && Stem(p) == Stem(q)
  {
  }

  lemma SuffixNone()
    ensures Suffix("noextension") == ""
  {
    TrimPlain("noextension");
    assert RFind("noextension", '/') == -1;
    assert RFind("noextension", '.') == -1;
  }

  /** A leading dot does not start a suffix: `.mrt` is a stem. */
  lemma SuffixHiddenFile()
    ensures Suffix(".mrt") == "" && Stem(".mrt") == ".mrt"
  {
    TrimPlain(".mrt");
    assert RFind(".mrt", '/') == -1;
    RFindAt(".mrt", '.', 0);
  }

  lemma SuffixLastDot(p: string)
    requires p == "archive.tar.mrt"
    ensures Suffix(p) == ".mrt"
  {
    SplitAtDot(p, 11);
  }
}

=== FILE: rewrite.dfy ===
/** The rewrite stages of `clean_text`, each one call of `re.sub` (or of
    `html.unescape`), modelled as a left-to-right scan: at each index the
    stage's matcher is tried; a hit emits the replacement and the scan resumes
    after the matched text, otherwise one character is copied. This is how
    `re.sub` proceeds for patterns that never match the empty string, which
    holds for every pattern here.

    Each matcher is the deterministic outcome of Python's backtracking search
    for its pattern at one index: a greedy repetition of a character class is
    the longest run of that class (`RunEnd`), and where backtracking could
    give characters back, the matcher states what the search then settles on.
    Lookaround such as `\b` inspects the input of the stage, not its output. */
module Rewrite {
  import opened Wrappers
  import opened Text

  /** The stages, in the order `clean_text` applies them. */
  datatype Rule =
    | Unescape        // html.unescape, for the entities ElementTree writes
    | VocalSound      // <VocalSound\s+Description="([^"]+)"\s*/>   ->  [\1]
    | NonVocalSound   // <NonVocalSound\s+Description="([^"]+)"\s*/> ->  [\1]
    | Pause           // <Pause\s*/>                                 ->  ...
    | Emphasis        // <Emphasis>\s*([^<]+)\s*</Emphasis>          ->  \1
    | Uncertain       // <Uncertain>\s*([^<]+)\s*</Uncertain>        ->  (\1?)
    | Unintelligible  // <Uncertain[^>]*>\s*@@\s*</Uncertain>        ->  (unintelligible)
    | Foreign         // <Foreign[^>]*>\s*([^<]+)\s*</Foreign>       ->  \1
    | Pronounce       // <Pronounce[^>]*>\s*([^<]+)\s*</Pronounce>   ->  \1
    | Comment         // <Comment\s+Description="([^"]+)"\s*/>       ->  (nothing)
    | AnyTag          // <[^>]+>                                     ->  (nothing)
    | OkToken         // \bO_K\b                                     ->  OK
    | Acronym3        // (\w)_(\w)_(\w)\b                            ->  \1\2\3
    | Acronym2        // (\w)_(\w)\b                                 ->  \1\2
    | SpaceRun        // \s+                                         ->  one space

  /** A match: where the matched text ends, and what replaces it. */
  datatype Hit = Hit(end: nat, out: string)

  /** A hit is a non-empty match that stays inside the input. */
  predicate WellFormed(s: string, i: nat, h: Option<Hit>) {
    h.Some? ==> i < h.value.end <= |s|
  }

  /** The character references `html.unescape` resolves in this model: the
      ones ElementTree's serializer writes into text and attribute values,
      plus the two spellings of the apostrophe. */
  const Entities: seq<(string, string)> := [
    ("&amp;", "&"), ("&lt;", "<"), ("&gt;", ">"), ("&quot;", "\""),
    ("&#39;", "'"), ("&apos;", "'"), ("&#10;", "\n"), ("&#13;", "\r"), ("&#09;", "\t")
  ]

  /** The first entity of `table` spelt at `i`. */
  function EntityAt(s: string, i: nat, table: seq<(string, string)>): (h: Option<Hit>)
    requires forall k :: 0 <= k < |table| ==> |table[k].0| > 0 && table[k].0[0] == '&'
    ensures WellFormed(s, i, h)
    ensures h.Some? ==> i < |s| && s[i] == '&'
  {
    if |table| == 0 then None
    else if HasAt(s, i, table[0].0) then
      HasAtFirst(s, i, table[0].0);
      Some(Hit(i + |table[0].0|, table[0].1))
    else EntityAt(s, i, table[1..])
  }

  // <Name\s+Description="([^"]+)"\s*/> : the end of the tag and its description.
  function DescribedTag(s: string, i: nat, name: string): (h: Option<Hit>)
    ensures WellFormed(s, i, h)
    ensures h.Some? ==> s[i] == '<' && HasAt(s, i, "<" + name)
  {
    if !HasAt(s, i, "<" + name) then None
    else
      HasAtFirst(s, i, "<" + name);
      DescriptionAttribute(s, i + 1 + |name|)
  }

  // \s+Description="([^"]+)"\s*/> from `a`, just after the tag name.
  function DescriptionAttribute(s: string, a: nat): (h: Option<Hit>)
    requires a <= |s|
    ensures WellFormed(s, a, h)
  {
    var b := RunEnd(s, a, Space);
    if b == a || !HasAt(s, b, "Description=\"") then None
    else DescriptionValue(s, b + 13)
  }

  // ([^"]+)"\s*/> from `c`, just after the opening quote.
  function DescriptionValue(s: string, c: nat): (h: Option<Hit>)
    requires c <= |s|
    ensures WellFormed(s, c, h)
  {
    var d := RunEnd(s, c, NotQuote);
    if d == c || !HasAt(s, d, "\"") then None
    else
      var e := RunEnd(s, d + 1, Space);
      if !HasAt(s, e, "/>") then None
      else Some(Hit(e + 2, s[c..d]))
  }

  /** `\s*([^<]+)\s*` followed by the literal `close`, starting at `a`: the end of
      the match and the captured group. Greedily, the group runs to the first
      `<` and starts after the leading whitespace; when the text before the
      `<` is all whitespace, backtracking leaves its last character to the
      group. */
  function WrappedBody(s: string, a: nat, close: string): (h: Option<Hit>)
    requires a <= |s|
    ensures WellFormed(s, a, h)
  {
    var r := RunEnd(s, a, NotLt);
    if r == a || !HasAt(s, r, close) then None
    else
      var w := RunEnd(s, a, Space);
      var g := if w < r then w else r - 1;
      Some(Hit(r + |close|, s[g..r]))
  }

  /** `<Name[^>]*>` followed by the wrapped body closed by `</Name>`. */
  function OpenTagBody(s: string, i: nat, name: string): (h: Option<Hit>)
    ensures WellFormed(s, i, h)
    ensures h.Some? ==> s[i] == '<' && HasAt(s, i, "<" + name)
  {
    if !HasAt(s, i, "<" + name) then None
    else
      HasAtFirst(s, i, "<" + name);
      var b := RunEnd(s, i + 1 + |name|, NotGt);
      if !HasAt(s, b, ">") then None
      else WrappedBody(s, b + 1, "</" + name + ">")
  }

  /** `<Uncertain[^>]*>\s*@@\s*</Uncertain>`. */
  function UnintelligibleAt(s: string, i: nat): (h: Option<Hit>)
    ensures WellFormed(s, i, h)
    ensures h.Some? ==> s[i] == '<' && HasAt(s, i, "<Uncertain")
  {
    if !HasAt(s, i, "<Uncertain") then None
    else
      HasAtFirst(s, i, "<Uncertain");
      var b := RunEnd(s, i + 10, NotGt);
      if !HasAt(s, b, ">") then None
      else
        var c := RunEnd(s, b + 1, Space);
        if !HasAt(s, c, "@@") then None
        else
          var d := RunEnd(s, c + 2, Space);
          if !HasAt(s, d, "</Uncertain>") then None
          else Some(Hit(d + 12, "(unintelligible)"))
  }

  /** `<[^>]+>`: a `<`, at least one character other than `>`, then `>`. */
  function AnyTagAt(s: string, i: nat): (h: Option<Hit>)
    requires i < |s|
    ensures WellFormed(s, i, h)
    ensures h.Some? <==> s[i] == '<' && RunEnd(s, i + 1, NotGt) > i + 1 && RunEnd(s, i + 1, NotGt) < |s|
  {
    if s[i] != '<' then None
    else
      var b := RunEnd(s, i + 1, NotGt);
      if b == i + 1 || b == |s| then None else Some(Hit(b + 1, ""))
  }

  /** `\b` just before index `k`, when the character at `k` is a word character. */
  predicate WordStartsAt(s: string, k: nat) {
    k == 0 || (k <= |s| && !IsWord(s[k - 1]))
  }

  /** `\b` just after a word character that ends at index `k`. */
  predicate WordEndsAt(s: string, k: nat) {
    k >= |s| || !IsWord(s[k])
  }

  /** `(\w)_(\w)_(\w)\b`: the three letters, without underscores. */
  function Acronym3At(s: string, i: nat): (h: Option<Hit>)
    ensures WellFormed(s, i, h)
  {
    if i + 5 <= |s| && IsWord(s[i]) && s[i + 1] == '_' && IsWord(s[i + 2]) && s[i + 3] == '_'
       && IsWord(s[i + 4]) && WordEndsAt(s, i + 5)
    then Some(Hit(i + 5, [s[i], s[i + 2], s[i + 4]]))
    else None
  }

  /** `(\w)_(\w)\b`: the two letters, without the underscore. */
  function Acronym2At(s: string, i: nat): (h: Option<Hit>)
    ensures WellFormed(s, i, h)
  {
    if i + 3 <= |s| && IsWord(s[i]) && s[i + 1] == '_' && IsWord(s[i + 2]) && WordEndsAt(s, i + 3)
    then Some(Hit(i + 3, [s[i], s[i + 2]]))
    else None
  }

  /** A described tag's match with its description wrapped in `open` and `close`. */
  function Wrap(d: Option<Hit>, open: string, close: string): (h: Option<Hit>)
    ensures h.Some? == d.Some?
    ensures h.Some? ==> h.value.end == d.value.end && h.value.out == open + d.value.out + close
  {
    if d.Some? then Some(Hit(d.value.end, open + d.value.out + close)) else None
  }

  /** A described tag's match with nothing in its place. */
  function Erase(d: Option<Hit>): (h: Option<Hit>)
    ensures h.Some? == d.Some?
    ensures h.Some? ==> h.value.end == d.value.end && h.value.out == ""
  {
    if d.Some? then Some(Hit(d.value.end, "")) else None
  }

  // <Pause\s*/>
  function PauseAt(s: string, i: nat): (h: Option<Hit>)
    ensures WellFormed(s, i, h)
    ensures h.Some? ==> s[i] == '<' && HasAt(s, i, "<Pause")
  {
    if HasAt(s, i, "<Pause") then
      HasAtFirst(s, i, "<Pause");
      var e := RunEnd(s, i + 6, Space);
      if HasAt(s, e, "/>") then Some(Hit(e + 2, "...")) else None
    else None
  }

  // <Emphasis>\s*([^<]+)\s*</Emphasis>
  function EmphasisAt(s: string, i: nat): (h: Option<Hit>)
    ensures WellFormed(s, i, h)
    ensures h.Some? ==> s[i] == '<' && HasAt(s, i, "<Emphasis>")
  {
    if HasAt(s, i, "<Emphasis>") then
      HasAtFirst(s, i, "<Emphasis>");
      WrappedBody(s, i + 10, "</Emphasis>")
    else None
  }

  // <Uncertain>\s*([^<]+)\s*</Uncertain>
  function UncertainAt(s: string, i: nat): (h: Option<Hit>)
    ensures WellFormed(s, i, h)
    ensures h.Some? ==> s[i] == '<' && HasAt(s, i, "<Uncertain>")
  {
    if HasAt(s, i, "<Uncertain>") then
      HasAtFirst(s, i, "<Uncertain>");
      Wrap(WrappedBody(s, i + 11, "</Uncertain>"), "(", "?)")
    else None
  }

  // \bO_K\b
  function OkTokenAt(s: string, i: nat): (h: Option<Hit>)
    ensures WellFormed(s, i, h)
    ensures h.Some? ==> s[i] == 'O' && HasAt(s, i, "O_K")
  {
    if HasAt(s, i, "O_K") && WordStartsAt(s, i) && WordEndsAt(s, i + 3) then
      HasAtFirst(s, i, "O_K");
      Some(Hit(i + 3, "OK"))
    else None
  }

  // \s+
  function SpaceRunAt(s: string, i: nat): (h: Option<Hit>)
    requires i < |s|
    ensures WellFormed(s, i, h)
  {
    if IsSpace(s[i]) then Some(Hit(RunEnd(s, i, Space), " ")) else None
  }

  /** A matcher: what a pattern matches at an index, if anything. */
  type Matcher = (string, nat) -> Option<Hit>

  /** The matcher of each stage. The stage is looked up first and the
      matcher applied after, so that a claim about every stage at once
      never needs to look inside the fifteen matchers. */
  function MatcherFor(rule: Rule): Matcher {
    match rule
    case Unescape => (s: string, i: nat) => EntityAt(s, i, Entities)
    case VocalSound => (s: string, i: nat) => Wrap(DescribedTag(s, i, "VocalSound"), "[", "]")
    case NonVocalSound => (s: string, i: nat) => Wrap(DescribedTag(s, i, "NonVocalSound"), "[", "]")
    case Pause => (s: string, i: nat) => PauseAt(s, i)
    case Emphasis => (s: string, i: nat) => EmphasisAt(s, i)
    case Uncertain => (s: string, i: nat) => UncertainAt(s, i)
    case Unintelligible => (s: string, i: nat) => UnintelligibleAt(s, i)
    case Foreign => (s: string, i: nat) => OpenTagBody(s, i, "Foreign")
    case Pronounce => (s: string, i: nat) => OpenTagBody(s, i, "Pronounce")
    case Comment => (s: string, i: nat) => Erase(DescribedTag(s, i, "Comment"))
    case AnyTag => (s: string, i: nat) => if i < |s| then AnyTagAt(s, i) else None
    case OkToken => (s: string, i: nat) => OkTokenAt(s, i)
    case Acronym3 => (s: string, i: nat) => Acronym3At(s, i)
    case Acronym2 => (s: string, i: nat) => Acronym2At(s, i)
    case SpaceRun => (s: string, i: nat) => if i < |s| then SpaceRunAt(s, i) else None
  }

  /** Every stage's matches are non-empty and stay inside the input, and a
      stage that begins with a literal only matches at that literal's first
      character. */
  lemma MatcherForSpec(rule: Rule, s: string, i: nat)
    requires i < |s|
    ensures var h := MatcherFor(rule)(s, i);
      && WellFormed(s, i, h)
      && (h.Some? && Trigger(rule).Some? ==> s[i] == Trigger(rule).value)
  {
    match rule
    case Unescape =>
    case VocalSound =>
    case NonVocalSound =>
    case Pause =>
    case Emphasis =>
    case Uncertain =>
    case Unintelligible =>
    case Foreign =>
    case Pronounce =>
    case Comment =>
    case AnyTag =>
    case OkToken =>
    case Acronym3 =>
    case Acronym2 =>
    case SpaceRun =>
  }

  /** What `rule` matches at index `i`, if anything. */
  function MatchAt(rule: Rule, s: string, i: nat): (h: Option<Hit>)
    requires i < |s|
    ensures WellFormed(s, i, h)
    ensures h.Some? && Trigger(rule).Some? ==> s[i] == Trigger(rule).value
  {
    MatcherForSpec(rule, s, i);
    MatcherFor(rule)(s, i)
  }

  /** Every match of `f` is non-empty and stays inside its input. */
  ghost predicate Advances(f: Matcher) {
    forall s: string, i: nat :: i < |s| ==> WellFormed(s, i, f(s, i))
  }

  lemma MatcherAdvances(rule: Rule)
    ensures Advances(MatcherFor(rule))
  {
    forall s: string, i: nat | i < |s|
      ensures WellFormed(s, i, MatcherFor(rule)(s, i))
    {
      MatcherForSpec(rule, s, i);
    }
  }

  /** The output of the scan of `s` with the matcher `f` from index `i` on:
      at each index a match emits its replacement and the scan resumes after
      it; otherwise one character is copied. */
  function Scan(f: Matcher, s: string, i: nat): string
    requires i <= |s| && Advances(f)
    decreases |s| - i
  {
    if i == |s| then ""
    else
      var h := f(s, i);
      if h.Some? then h.value.out + Scan(f, s, h.value.end)
      else [s[i]] + Scan(f, s, i + 1)
  }

  /** The output of the scan of `s` by the stage `rule` from index `i` on. */
  function ScanFrom(rule: Rule, s: string, i: nat): string
    requires i <= |s|
  {
    MatcherAdvances(rule);
    Scan(MatcherFor(rule), s, i)
  }

  /** `re.sub(pattern, repl, s)` for the stage `rule`. */
  function Apply(rule: Rule, s: string): string {
    ScanFrom(rule, s, 0)
  }

  /** `f` matches nowhere from `i` up to (not including) `j`. */
  predicate Misses(f: Matcher, s: string, i: nat, j: nat) {
    forall k: nat :: i <= k < j ==> f(s, k).None?
  }

  /** No match of `rule` starts anywhere in `s` at or after `i`. */
  predicate NoHitFrom(rule: Rule, s: string, i: nat) {
    forall k :: i <= k < |s| ==> MatchAt(rule, s, k).None?
  }

  /** No match of `rule` starts in `s` between `i` (inclusive) and `j`. */
  predicate NoHitBetween(rule: Rule, s: string, i: nat, j: nat)
    requires j <= |s|
  {
    forall k :: i <= k < j ==> MatchAt(rule, s, k).None?
  }

  /** The stage's misses are its matcher's. */
  lemma MissesOf(rule: Rule, s: string, i: nat, j: nat)
    requires j <= |s| && NoHitBetween(rule, s, i, j)
    ensures Misses(MatcherFor(rule), s, i, j)
  {
    forall k: nat | i <= k < j
      ensures MatcherFor(rule)(s, k).None?
    {
      assert MatchAt(rule, s, k).None?;
    }
  }

  /** Where the matcher finds nothing, the scan copies its input. */
  lemma {:induction false} ScanCopiesWith(f: Matcher, s: string, i: nat)
    requires i <= |s| && Advances(f) && Misses(f, s, i, |s|)
    ensures Scan(f, s, i) == s[i..]
    decreases |s| - i
  {
    if i < |s| {
      ScanCopiesWith(f, s, i + 1);
      assert s[i..] == [s[i]] + s[i + 1..];
    }
  }

  /** Where the stage finds nothing to match, it copies its input. */
  lemma ScanCopies(rule: Rule, s: string, i: nat)
    requires i <= |s|
    requires NoHitFrom(rule, s, i)
    ensures ScanFrom(rule, s, i) == s[i..]
  {
    assert NoHitBetween(rule, s, i, |s|);
    MissesOf(rule, s, i, |s|);
    MatcherAdvances(rule);
    ScanCopiesWith(MatcherFor(rule), s, i);
  }

  /** The character every match of `rule` starts with, for the stages that
      begin with a literal. */
  function Trigger(rule: Rule): Option<char> {
    match rule
    case Unescape => Some('&')
    case OkToken => Some('O')
    case Acronym3 => None
    case Acronym2 => None
    case SpaceRun => None
    case _ => Some('<')
  }

  /** The `j`-th character of a literal found at `i`. */
  lemma HasAtChar(s: string, i: nat, lit: string, j: nat)
    ensures HasAt(s, i, lit) && j < |lit| ==> s[i + j] == lit[j]
  {
    if HasAt(s, i, lit) && j < |lit| {
      assert s[i..i + |lit|][j] == s[i + j];
    }
  }

  /** A literal found at `i` is found piece by piece. */
  lemma HasAtSplit(s: string, i: nat, x: string, y: string)
    requires HasAt(s, i, x + y)
    ensures HasAt(s, i, x) && HasAt(s, i + |x|, y)
  {
    assert s[i..i + |x|] == s[i..i + |x + y|][..|x|];
    assert s[i + |x|..i + |x| + |y|] == s[i..i + |x + y|][|x|..];
  }

  lemma HasAtFirst(s: string, i: nat, lit: string)
    requires |lit| > 0 && HasAt(s, i, lit)
    ensures s[i] == lit[0]
  {
    assert s[i..i + |lit|][0] == s[i];
  }

  /** A stage that begins with a literal leaves text without its first
      character untouched. */
  lemma NoTriggerNoChange(rule: Rule, s: string)
    requires Trigger(rule).Some? && Trigger(rule).value !in s
    ensures Apply(rule, s) == s
  {
    ScanCopies(rule, s, 0);
  }

  /** The acronym stages only fire on an underscore. */
  lemma NoUnderscoreNoChange(rule: Rule, s: string)
    requires rule == Acronym3 || rule == Acronym2 || rule == OkToken
    requires '_' !in s
    ensures Apply(rule, s) == s
  {
    forall k | 0 < k < |s|
      ensures s[k] != '_'
    {
      assert s[k] in s;
    }
    NoUnderscoreBetween(rule, s, 0, |s|);
    ScanCopies(rule, s, 0);
  }

  /** The whitespace stage only fires on whitespace. */
  lemma NoSpaceNoChange(s: string)
    requires forall k :: 0 <= k < |s| ==> !IsSpace(s[k])
    ensures Apply(SpaceRun, s) == s
  {
    ScanCopies(SpaceRun, s, 0);
  }

  /** One copy step. */
  lemma CopyStep(f: Matcher, s: string, i: nat)
    requires i < |s| && Advances(f) && f(s, i).None?
    ensures Scan(f, s, i) == [s[i]] + Scan(f, s, i + 1)
  {
  }

  /** One rewrite step. */
  lemma HitStep(f: Matcher, s: string, i: nat, h: Hit)
    requires i < |s| && Advances(f) && f(s, i) == Some(h)
    ensures i < h.end <= |s| && Scan(f, s, i) == h.out + Scan(f, s, h.end)
  {
  }

  /** A run of copy steps: where nothing matches between `i` and `j`, the
      scan copies that stretch and carries on from `j`. */
  lemma {:induction false} ScanCopyUpTo(f: Matcher, s: string, i: nat, j: nat)
    requires i <= j <= |s| && Advances(f)
    requires Misses(f, s, i, j)
    ensures Scan(f, s, i) == s[i..j] + Scan(f, s, j)
    decreases j - i
  {
    if i < j {
      CopyStep(f, s, i);
      ScanCopyUpTo(f, s, i + 1, j);
      assert s[i..j] == [s[i]] + s[i + 1..j];
    }
  }

  /** The same for a stage. */
  lemma CopyUpTo(rule: Rule, s: string, i: nat, j: nat)
    requires i <= j <= |s|
    requires NoHitBetween(rule, s, i, j)
    ensures ScanFrom(rule, s, i) == s[i..j] + ScanFrom(rule, s, j)
  {
    MissesOf(rule, s, i, j);
    MatcherAdvances(rule);
    ScanCopyUpTo(MatcherFor(rule), s, i, j);
  }

  /** The whitespace stage leaves single plain spaces only: no two whitespace
      characters in a row, and every whitespace character is `' '`. Its output
      starts with whitespace exactly when its input does. */
  lemma {:induction false} SpaceRunShape(s: string, i: nat)
    requires i <= |s|
    ensures var r := ScanFrom(SpaceRun, s, i);
      && NoDoubleSpace(r) && OnlyPlainSpaces(r)
      && (|r| == 0 <==> i == |s|)
      && (i < |s| ==> (IsSpace(r[0]) <==> IsSpace(s[i])))
    decreases |s| - i
  {
    if i < |s| {
      var h := MatchAt(SpaceRun, s, i);
      if h.Some? {
        var e := h.value.end;
        SpaceRunShape(s, e);
        var rest := ScanFrom(SpaceRun, s, e);
        assert ScanFrom(SpaceRun, s, i) == " " + rest;
        assert e < |s| ==> !IsSpace(s[e]);
      } else {
        SpaceRunShape(s, i + 1);
        var rest := ScanFrom(SpaceRun, s, i + 1);
        assert ScanFrom(SpaceRun, s, i) == [s[i]] + rest;
      }
    }
  }

  /** Text whose whitespace is already single plain spaces passes the
      whitespace stage unchanged. */
  lemma {:induction false} SpaceRunKeepsNormalized(s: string, i: nat)
    requires i <= |s|
    requires NoDoubleSpace(s) && OnlyPlainSpaces(s)
    ensures ScanFrom(SpaceRun, s, i) == s[i..]
    decreases |s| - i
  {
    if i < |s| {
      SpaceRunKeepsNormalized(s, i + 1);
      if IsSpace(s[i]) {
        assert i + 1 < |s| ==> !IsSpace(s[i + 1]);
        assert RunEnd(s, i, Space) == i + 1;
      }
      assert s[i..] == [s[i]] + s[i + 1..];
    }
  }

  /** The whitespace stage changes whitespace only: the other characters
      come out as they went in. */
  lemma {:induction false} SpaceRunKeepsNonSpace(s: string, i: nat)
    requires i <= |s|
    ensures NonSpace(ScanFrom(SpaceRun, s, i)) == NonSpace(s[i..])
    decreases |s| - i
  {
    if i < |s| {
      var h := MatchAt(SpaceRun, s, i);
      if h.Some? {
        var e := h.value.end;
        var rest := ScanFrom(SpaceRun, s, e);
        SpaceRunKeepsNonSpace(s, e);
        assert ScanFrom(SpaceRun, s, i) == " " + rest;
        RunIsSpace(s, i, e);
        assert s[i..] == s[i..e] + s[e..];
        RunKeepsNonSpace(s[i..e], rest, s[e..]);
      } else {
        var rest := ScanFrom(SpaceRun, s, i + 1);
        SpaceRunKeepsNonSpace(s, i + 1);
        assert ScanFrom(SpaceRun, s, i) == [s[i]] + rest;
        NonSpaceConcat([s[i]], rest);
        assert s[i..] == [s[i]] + s[i + 1..];
        NonSpaceConcat([s[i]], s[i + 1..]);
      }
    }
  }

  /** The stretch a greedy `\s` run covers is whitespace. */
  lemma RunIsSpace(s: string, i: nat, e: nat)
    requires i <= |s| && e == RunEnd(s, i, Space)
    ensures AllSpace(s[i..e])
  {
    forall k | 0 <= k < e - i
      ensures IsSpace(s[i..e][k])
    {
      assert InClass(s[i + k], Space);
    }
  }

  /** A run of whitespace replaced by one space: the non-space characters
      on both sides agree when they agree after the run. */
  lemma RunKeepsNonSpace(run: string, rest: string, tail: string)
    requires AllSpace(run) && NonSpace(rest) == NonSpace(tail)
    ensures NonSpace(" " + rest) == NonSpace(run + tail)
  {
    NonSpaceConcat(" ", rest);
    NonSpaceConcat(run, tail);
    NonSpaceOfSpaces(run);
  }

  /** A whole run of whitespace, from `i` up to a non-space at `j` or the
      end, becomes exactly one plain space. */
  lemma SpaceRunCollapses(s: string, i: nat, j: nat)
    requires i < j <= |s| && AllSpace(s[i..j]) && (j < |s| ==> !IsSpace(s[j]))
    ensures ScanFrom(SpaceRun, s, i) == " " + ScanFrom(SpaceRun, s, j)
  {
    forall k | i <= k < j
      ensures InClass(s[k], Space)
    {
      assert s[k] == s[i..j][k - i];
    }
    RunEndAt(s, i, Space, j);
    MatcherAdvances(SpaceRun);
    HitStep(MatcherFor(SpaceRun), s, i, Hit(j, " "));
  }

  /** The whitespace stage finds nothing in a stretch without whitespace. */
  lemma NoSpaceNoHit(s: string, i: nat, j: nat)
    requires i <= j <= |s| && NoSpace(s[i..j])
    ensures NoHitBetween(SpaceRun, s, i, j)
  {
    forall k | i <= k < j
      ensures MatchAt(SpaceRun, s, k).None?
    {
      assert s[k] == s[i..j][k - i];
    }
  }

  /** Between two stretches without whitespace, a run of whitespace becomes
      one plain space and nothing else changes. */
  lemma SpaceRunBetweenWords(s: string, a: string, sp: string, b: string)
    requires s == a + sp + b && NoSpace(a) && NoSpace(b)
    requires AllSpace(sp) && |sp| > 0
    ensures Apply(SpaceRun, s) == a + " " + b
  {
    var n, m := |a|, |a| + |sp|;
    Pieces(s, a, sp, b);
    assert s[0..n] == a && s[n..m] == sp && s[m..|s|] == b;
    NoSpaceNoHit(s, 0, n);
    CopyUpTo(SpaceRun, s, 0, n);
    SpaceRunCollapses(s, n, m);
    NoSpaceNoHit(s, m, |s|);
    ScanCopies(SpaceRun, s, m);
  }

  /** A stage that begins with a literal finds nothing where its first
      character does not occur. */
  lemma NoTriggerBetween(rule: Rule, s: string, i: nat, j: nat)
    requires i <= j <= |s| && Trigger(rule).Some?
    requires Trigger(rule).value !in s[i..j]
    ensures NoHitBetween(rule, s, i, j)
  {
    forall k | i <= k < j
      ensures MatchAt(rule, s, k).None?
    {
      assert s[k] == s[i..j][k - i];
    }
  }

  /** The underscore stages find nothing where no underscore follows. */
  lemma NoUnderscoreBetween(rule: Rule, s: string, i: nat, j: nat)
    requires rule == Acronym3 || rule == Acronym2 || rule == OkToken
    requires i <= j <= |s|
    requires forall k :: i < k <= j && k < |s| ==> s[k] != '_'
    ensures NoHitBetween(rule, s, i, j)
  {
    forall k | i <= k < j
      ensures MatchAt(rule, s, k).None?
    {
      HasAtChar(s, k, "O_K", 1);
      if k + 1 < |s| {
        assert s[k + 1] != '_';
      }
    }
  }

  /** `(\w)_(\w)_(\w)\b` collapses a three-letter acronym that is followed by
      a non-word character or the end, wherever it stands in text without
      other underscores. */
  lemma Acronym3Collapses(a: string, x: char, y: char, z: char, b: string)
    requires '_' !in a && '_' !in b
    requires IsWord(x) && IsWord(y) && IsWord(z) && x != '_'
    requires |b| > 0 ==> !IsWord(b[0])
    ensures Apply(Acronym3, a + [x, '_', y, '_', z] + b) == a + [x, y, z] + b
  {
    var s := a + [x, '_', y, '_', z] + b;
    var n := |a|;
    NoUnderscoreBetween(Acronym3, s, 0, n);
    assert MatchAt(Acronym3, s, n) == Some(Hit(n + 5, [x, y, z]));
    NoUnderscoreBetween(Acronym3, s, n + 5, |s|);
    SingleHit(Acronym3, s, n, Hit(n + 5, [x, y, z]));
    assert s[..n] == a && s[n + 5..] == b;
  }

  /** `(\w)_(\w)\b` collapses a two-letter acronym in the same setting. */
  lemma Acronym2Collapses(a: string, x: char, y: char, b: string)
    requires '_' !in a && '_' !in b
    requires IsWord(x) && IsWord(y) && x != '_'
    requires |b| > 0 ==> !IsWord(b[0])
    ensures Apply(Acronym2, a + [x, '_', y] + b) == a + [x, y] + b
  {
    var s := a + [x, '_', y] + b;
    var n := |a|;
    NoUnderscoreBetween(Acronym2, s, 0, n);
    assert MatchAt(Acronym2, s, n) == Some(Hit(n + 3, [x, y]));
    NoUnderscoreBetween(Acronym2, s, n + 3, |s|);
    SingleHit(Acronym2, s, n, Hit(n + 3, [x, y]));
    assert s[..n] == a && s[n + 3..] == b;
  }

  /** `\bO_K\b` turns a standalone `O_K` into `OK`. */
  lemma OkTokenCollapses(a: string, b: string)
    requires '_' !in a && '_' !in b
    requires |a| > 0 ==> !IsWord(a[|a| - 1])
    requires |b| > 0 ==> !IsWord(b[0])
    ensures Apply(OkToken, a + "O_K" + b) == a + "OK" + b
  {
    var s := a + "O_K" + b;
    var n := |a|;
    NoUnderscoreBetween(OkToken, s, 0, n);
    assert s[n..n + 3] == "O_K";
    assert MatchAt(OkToken, s, n) == Some(Hit(n + 3, "OK"));
    NoUnderscoreBetween(OkToken, s, n + 3, |s|);
    SingleHit(OkToken, s, n, Hit(n + 3, "OK"));
    assert s[..n] == a && s[n + 3..] == b;
  }

  /** A greedy run of `cls` from `i` that stops at `j`. */
  lemma {:induction false} RunEndAt(s: string, i: nat, cls: CharClass, j: nat)
    requires i <= j <= |s|
    requires forall k :: i <= k < j ==> InClass(s[k], cls)
    requires j < |s| ==> !InClass(s[j], cls)
    ensures RunEnd(s, i, cls) == j
    decreases j - i
  {
    if i < j {
      RunEndAt(s, i + 1, cls, j);
    }
  }

  /** A stage that begins with a literal copies its input when it misses at
      every occurrence of its first character. */
  lemma CopiesIfOnlyMisses(rule: Rule, s: string)
    requires Trigger(rule).Some?
    requires forall k :: 0 <= k < |s| && s[k] == Trigger(rule).value ==> MatchAt(rule, s, k).None?
    ensures Apply(rule, s) == s
  {
    ScanCopies(rule, s, 0);
  }

  /** A stage that matches once, at `n`, and nowhere else, rewrites just the
      matched text. */
  lemma SingleHit(rule: Rule, s: string, n: nat, h: Hit)
    requires n < |s| && n < h.end <= |s|
    requires NoHitBetween(rule, s, 0, n)
    requires MatchAt(rule, s, n) == Some(h)
    requires NoHitBetween(rule, s, h.end, |s|)
    ensures Apply(rule, s) == s[..n] + h.out + s[h.end..]
  {
    var f := MatcherFor(rule);
    MatcherAdvances(rule);
    MissesOf(rule, s, 0, n);
    MissesOf(rule, s, h.end, |s|);
    ScanCopyUpTo(f, s, 0, n);
    HitStep(f, s, n, h);
    ScanCopyUpTo(f, s, h.end, |s|);
    ScanCopiesWith(f, s, |s|);
  }

  /** A described tag is missed where the character after `<` is not the
      first letter of its name. */
  lemma DescribedTagMiss(s: string, i: nat, name: string)
    requires |name| > 0 && (i + 1 < |s| ==> s[i + 1] != name[0])
    ensures DescribedTag(s, i, name).None?
  {
    HasAtChar(s, i, "<" + name, 1);
  }

  /** An open tag is missed where the character after `<` is not the first
      letter of its name. */
  lemma OpenTagMiss(s: string, i: nat, name: string)
    requires |name| > 0 && (i + 1 < |s| ==> s[i + 1] != name[0])
    ensures OpenTagBody(s, i, name).None?
  {
    HasAtChar(s, i, "<" + name, 1);
  }

  /** The usual spelling of a described tag: `<name Description="d"/>`. */
  function TagSpelling(name: string, d: string): (r: string)
    ensures |r| == |name| + |d| + 18
  {
    "<" + name + " Description=\"" + d + "\"/>"
  }

  /** After the tag name, ` Description="d"/>` is matched whole and `d` is
      captured. */
  lemma DescriptionHit(s: string, a: nat, d: string, end: nat)
    requires HasAt(s, a, " Description=\"") && HasAt(s, a + 14, d) && HasAt(s, a + 14 + |d|, "\"/>")
    requires |d| > 0 && '"' !in d && end == a + 17 + |d|
    ensures DescriptionAttribute(s, a) == Some(Hit(end, d))
  {
    var e := a + 14 + |d|;
    AttributeOpening(s, a);
    AttributeClosing(s, e);
    DescriptionRun(s, a + 14, d);
    DescriptionAttributeHit(s, a);
    DescriptionValueHit(s, a + 14, e);
  }

  /** ` Description="` is one space and the attribute name. */
  lemma AttributeOpening(s: string, a: nat)
    requires HasAt(s, a, " Description=\"")
    ensures a < |s| && RunEnd(s, a, Space) == a + 1 && HasAt(s, a + 1, "Description=\"")
  {
    HasAtSplit(s, a, " ", "Description=\"");
    HasAtFirst(s, a, " ");
    RunEndAt(s, a, Space, a + 1);
  }

  /** `"/>` is the closing quote and the end of the tag, with no space between. */
  lemma AttributeClosing(s: string, e: nat)
    requires HasAt(s, e, "\"/>")
    ensures e + 1 < |s| && s[e] == '"' && HasAt(s, e, "\"")
    ensures RunEnd(s, e + 1, Space) == e + 1 && HasAt(s, e + 1, "/>")
  {
    HasAtSplit(s, e, "\"", "/>");
    HasAtFirst(s, e, "\"");
    HasAtFirst(s, e + 1, "/>");
    RunEndAt(s, e + 1, Space, e + 1);
  }

  lemma DescribedTagAt(s: string, i: nat, name: string, h: Option<Hit>)
    requires HasAt(s, i, "<" + name) && DescriptionAttribute(s, i + 1 + |name|) == h
    ensures DescribedTag(s, i, name) == h
  {
  }

  lemma DescriptionAttributeHit(s: string, a: nat)
    requires a < |s| && RunEnd(s, a, Space) == a + 1 && HasAt(s, a + 1, "Description=\"")
    ensures DescriptionAttribute(s, a) == DescriptionValue(s, a + 14)
  {
  }

  lemma DescriptionValueHit(s: string, c: nat, e: nat)
    requires c < e < |s| && RunEnd(s, c, NotQuote) == e && HasAt(s, e, "\"")
    requires RunEnd(s, e + 1, Space) == e + 1 && HasAt(s, e + 1, "/>")
    ensures DescriptionValue(s, c) == Some(Hit(e + 3, s[c..e]))
  {
  }

  /** The four pieces of a tag spelt as in `DescribedTagHit`. */
  lemma TagSpellingPieces(s: string, i: nat, name: string, d: string)
    requires HasAt(s, i, TagSpelling(name, d))
    ensures var a := i + 1 + |name|; var e := a + 14 + |d|;
      && HasAt(s, i, "<" + name) && HasAt(s, a, " Description=\"")
      && HasAt(s, a + 14, d) && HasAt(s, e, "\"/>")
  {
    HasAtSplit(s, i, "<" + name + " Description=\"" + d, "\"/>");
    HasAtSplit(s, i, "<" + name + " Description=\"", d);
    HasAtSplit(s, i, "<" + name, " Description=\"");
  }

  /** A description without `"` followed by `"` is a whole run of `[^"]`. */
  lemma DescriptionRun(s: string, c: nat, d: string)
    requires HasAt(s, c, d) && '"' !in d
    requires c + |d| < |s| && s[c + |d|] == '"'
    ensures RunEnd(s, c, NotQuote) == c + |d| && s[c..c + |d|] == d
  {
    var e := c + |d|;
    forall k | c <= k < e
      ensures InClass(s[k], NotQuote)
    {
      assert s[k] == s[c..e][k - c] == d[k - c];
    }
    RunEndAt(s, c, NotQuote, e);
  }

  /** A wrapped body made of leading whitespace `sp` and words `w` that start
      with a non-space and hold no `<`, followed by `close`: the match ends
      after `close` and captures `w`, trailing whitespace included. */
  lemma WrappedBodyHit(s: string, a: nat, close: string, sp: string, w: string, end: nat)
    requires HasAt(s, a, sp + w + close)
    requires AllSpace(sp) && |w| > 0 && !IsSpace(w[0]) && '<' !in w
    requires |close| > 0 && close[0] == '<' && end == a + |sp| + |w| + |close|
    ensures WrappedBody(s, a, close) == Some(Hit(end, w))
  {
    var b := a + |sp|;
    var r := b + |w|;
    HasAtSplit(s, a, sp + w, close);
    HasAtSplit(s, a, sp, w);
    assert s[a..b] == sp && s[b..r] == w;
    forall k | a <= k < r
      ensures InClass(s[k], NotLt)
    {
      if k < b {
        assert s[k] == sp[k - a];
      } else {
        assert s[k] == w[k - b];
      }
    }
    assert s[r] == close[0];
    RunEndAt(s, a, NotLt, r);
    forall k | a <= k < b
      ensures InClass(s[k], Space)
    {
      assert s[k] == sp[k - a];
    }
    assert s[b] == w[0];
    RunEndAt(s, a, Space, b);
  }

  /** `<Uncertain>` around whitespace `sp` and words `w` turns into `(w?)`. */
  lemma UncertainHit(s: string, i: nat, sp: string, w: string)
    requires HasAt(s, i, "<Uncertain>" + (sp + w) + "</Uncertain>")
    requires AllSpace(sp) && |w| > 0 && !IsSpace(w[0]) && '<' !in w
    ensures MatchAt(Uncertain, s, i) == Some(Hit(i + 23 + |sp| + |w|, "(" + w + "?)"))
  {
    var end := i + 23 + |sp| + |w|;
    assert "<Uncertain>" + (sp + w) + "</Uncertain>" == "<Uncertain>" + ((sp + w) + "</Uncertain>");
    HasAtSplit(s, i, "<Uncertain>", (sp + w) + "</Uncertain>");
    WrappedBodyHit(s, i + 11, "</Uncertain>", sp, w, end);
    UncertainAtBody(s, i, Some(Hit(end, w)));
  }

  lemma UncertainAtBody(s: string, i: nat, h: Option<Hit>)
    requires HasAt(s, i, "<Uncertain>") && WrappedBody(s, i + 11, "</Uncertain>") == h
    ensures UncertainAt(s, i) == Wrap(h, "(", "?)")
  {
  }

  /** `<Emphasis>` around whitespace `sp` and words `w` turns into `w`. */
  lemma EmphasisHit(s: string, i: nat, sp: string, w: string)
    requires HasAt(s, i, "<Emphasis>" + (sp + w) + "</Emphasis>")
    requires AllSpace(sp) && |w| > 0 && !IsSpace(w[0]) && '<' !in w
    ensures MatchAt(Emphasis, s, i) == Some(Hit(i + 21 + |sp| + |w|, w))
  {
    assert "<Emphasis>" + (sp + w) + "</Emphasis>" == "<Emphasis>" + ((sp + w) + "</Emphasis>");
    HasAtSplit(s, i, "<Emphasis>", (sp + w) + "</Emphasis>");
    WrappedBodyHit(s, i + 10, "</Emphasis>", sp, w, i + 21 + |sp| + |w|);
  }

  /** `<name Description="d"/>` is matched whole and `d` captured. */
  lemma DescribedTagHit(s: string, i: nat, name: string, d: string)
    requires HasAt(s, i, TagSpelling(name, d))
    requires |d| > 0 && '"' !in d
    ensures DescribedTag(s, i, name) == Some(Hit(i + |name| + |d| + 18, d))
  {
    TagSpellingPieces(s, i, name, d);
    DescribedPiecesHit(s, i, name, d, i + 1 + |name|);
  }

  /** The pieces of `<name Description="d"/>`, with the attribute at `a`. */
  lemma DescribedPiecesHit(s: string, i: nat, name: string, d: string, a: nat)
    requires a == i + 1 + |name| && HasAt(s, i, "<" + name) && HasAt(s, a, " Description=\"")
    requires HasAt(s, a + 14, d) && HasAt(s, a + 14 + |d|, "\"/>")
    requires |d| > 0 && '"' !in d
    ensures DescribedTag(s, i, name) == Some(Hit(a + 17 + |d|, d))
  {
    DescriptionHit(s, a, d, a + 17 + |d|);
    DescribedTagAt(s, i, name, Some(Hit(a + 17 + |d|, d)));
  }

  /** `<VocalSound Description="d"/>` turns into `[d]`. */
  lemma VocalSoundHit(s: string, i: nat, d: string)
    requires HasAt(s, i, TagSpelling("VocalSound", d))
    requires |d| > 0 && '"' !in d
    ensures MatchAt(VocalSound, s, i) == Some(Hit(i + |d| + 28, "[" + d + "]"))
  {
    var end := i + |d| + 28;
    DescribedTagHit(s, i, "VocalSound", d);
    VocalSoundMatcher(s, i, Some(Hit(end, d)));
  }

  lemma VocalSoundMatcher(s: string, i: nat, h: Option<Hit>)
    requires i < |s| && DescribedTag(s, i, "VocalSound") == h
    ensures MatchAt(VocalSound, s, i) == Wrap(h, "[", "]")
  {
  }

  /** The vocal-sound tag as `clean_text` sees it in a transcript. */
  lemma VocalSoundSpelling(d: string)
    ensures TagSpelling("VocalSound", d) == "<VocalSound Description=\"" + d + "\"/>"
  {
  }

  /** `<Comment Description="d"/>` is matched whole and leaves nothing. */
  lemma CommentHit(s: string, i: nat, d: string)
    requires HasAt(s, i, TagSpelling("Comment", d))
    requires |d| > 0 && '"' !in d
    ensures MatchAt(Comment, s, i) == Some(Hit(i + |d| + 25, ""))
  {
    var end := i + |d| + 25;
    DescribedTagHit(s, i, "Comment", d);
    CommentMatcher(s, i, Some(Hit(end, d)));
  }

  lemma CommentMatcher(s: string, i: nat, h: Option<Hit>)
    requires i < |s| && DescribedTag(s, i, "Comment") == h
    ensures MatchAt(Comment, s, i) == Erase(h)
  {
  }

  /** Text without `>` followed by `>` is a whole run of `[^>]`. */
  lemma InsideTagRun(s: string, c: nat, x: string)
    requires HasAt(s, c, x) && '>' !in x
    requires c + |x| < |s| && s[c + |x|] == '>'
    ensures RunEnd(s, c, NotGt) == c + |x|
  {
    var e := c + |x|;
    forall k | c <= k < e
      ensures InClass(s[k], NotGt)
    {
      assert s[k] == s[c..e][k - c] == x[k - c];
    }
    RunEndAt(s, c, NotGt, e);
  }

  /** Whitespace followed by a non-space is a whole run of `\s`. */
  lemma SpacesRun(s: string, c: nat, sp: string)
    requires HasAt(s, c, sp) && AllSpace(sp)
    requires c + |sp| < |s| && !IsSpace(s[c + |sp|])
    ensures RunEnd(s, c, Space) == c + |sp|
  {
    var e := c + |sp|;
    forall k | c <= k < e
      ensures InClass(s[k], Space)
    {
      assert s[k] == s[c..e][k - c] == sp[k - c];
    }
    RunEndAt(s, c, Space, e);
  }

  /** `<name x>` with attributes `x` free of `>`, then whitespace `sp` and
      words `w`, then `</name>`: matched whole, and `w` is captured. */
  lemma OpenTagBodyHit(s: string, i: nat, name: string, x: string, sp: string, w: string, end: nat)
    requires HasAt(s, i, "<" + name) && HasAt(s, i + 1 + |name|, x + ">")
    requires HasAt(s, i + 2 + |name| + |x|, sp + w + ("</" + name + ">"))
    requires '>' !in x && AllSpace(sp) && |w| > 0 && !IsSpace(w[0]) && '<' !in w
    requires end == i + 2 + |name| + |x| + |sp| + |w| + (|name| + 3)
    ensures OpenTagBody(s, i, name) == Some(Hit(end, w))
  {
    var c := i + 1 + |name|;
    OpenTagAttributes(s, c, x);
    CloseTagStart(name);
    WrappedBodyHit(s, c + |x| + 1, "</" + name + ">", sp, w, end);
    OpenTagBodySteps(s, i, name, c + |x|, Some(Hit(end, w)));
  }

  /** Attributes `x` without `>`, then `>`: the `[^>]*` run ends at the `>`. */
  lemma OpenTagAttributes(s: string, c: nat, x: string)
    requires HasAt(s, c, x + ">") && '>' !in x
    ensures c + |x| < |s| && RunEnd(s, c, NotGt) == c + |x| && HasAt(s, c + |x|, ">")
  {
    HasAtSplit(s, c, x, ">");
    HasAtFirst(s, c + |x|, ">");
    InsideTagRun(s, c, x);
  }

  lemma CloseTagStart(name: string)
    ensures |"</" + name + ">"| > 0 && ("</" + name + ">")[0] == '<'
  {
  }

  /** The steps of `OpenTagBody` once the end of the attributes, `b`, is known. */
  lemma OpenTagBodySteps(s: string, i: nat, name: string, b: nat, h: Option<Hit>)
    requires HasAt(s, i, "<" + name) && |name| + i + 1 <= |s|
    requires RunEnd(s, i + 1 + |name|, NotGt) == b && HasAt(s, b, ">")
    requires b + 1 <= |s| && WrappedBody(s, b + 1, "</" + name + ">") == h
    ensures OpenTagBody(s, i, name) == h
  {
  }

  /** `<name x>body</name>`. */
  function OpenTagSpelling(name: string, x: string, body: string): (r: string)
    ensures |r| == 2 * |name| + |x| + |body| + 5
  {
    "<" + name + (x + ">") + (body + ("</" + name + ">"))
  }

  /** `<name x>` around whitespace `sp` and words `w` is matched whole and
      `w` captured. */
  lemma OpenTagHit(s: string, i: nat, name: string, x: string, sp: string, w: string)
    requires HasAt(s, i, OpenTagSpelling(name, x, sp + w))
    requires '>' !in x && AllSpace(sp) && |w| > 0 && !IsSpace(w[0]) && '<' !in w
    ensures OpenTagBody(s, i, name) == Some(Hit(i + 2 * |name| + 5 + |x| + |sp| + |w|, w))
  {
    var end := i + 2 + |name| + |x| + |sp| + |w| + (|name| + 3);
    OpenTagPieces(s, i, name, x, sp + w);
    OpenTagBodyHit(s, i, name, x, sp, w, end);
  }

  lemma OpenTagPieces(s: string, i: nat, name: string, x: string, body: string)
    requires HasAt(s, i, OpenTagSpelling(name, x, body))
    ensures HasAt(s, i, "<" + name) && HasAt(s, i + 1 + |name|, x + ">")
    ensures HasAt(s, i + 2 + |name| + |x|, body + ("</" + name + ">"))
  {
    HasAtSplit(s, i, "<" + name + (x + ">"), body + ("</" + name + ">"));
    HasAtSplit(s, i, "<" + name, x + ">");
  }

  /** `<Foreign x>` around whitespace `sp` and words `w` turns into `w`. */
  lemma ForeignHit(s: string, i: nat, x: string, sp: string, w: string)
    requires HasAt(s, i, OpenTagSpelling("Foreign", x, sp + w))
    requires '>' !in x && AllSpace(sp) && |w| > 0 && !IsSpace(w[0]) && '<' !in w
    ensures MatchAt(Foreign, s, i) == Some(Hit(i + 19 + |x| + |sp| + |w|, w))
  {
    OpenTagHit(s, i, "Foreign", x, sp, w);
    ForeignMatcher(s, i, Some(Hit(i + 19 + |x| + |sp| + |w|, w)));
  }

  lemma ForeignMatcher(s: string, i: nat, h: Option<Hit>)
    requires i < |s| && OpenTagBody(s, i, "Foreign") == h
    ensures MatchAt(Foreign, s, i) == h
  {
  }

  /** `<Pronounce x>` around whitespace `sp` and words `w` turns into `w`. */
  lemma PronounceHit(s: string, i: nat, x: string, sp: string, w: string)
    requires HasAt(s, i, OpenTagSpelling("Pronounce", x, sp + w))
    requires '>' !in x && AllSpace(sp) && |w| > 0 && !IsSpace(w[0]) && '<' !in w
    ensures MatchAt(Pronounce, s, i) == Some(Hit(i + 23 + |x| + |sp| + |w|, w))
  {
    OpenTagHit(s, i, "Pronounce", x, sp, w);
    PronounceMatcher(s, i, Some(Hit(i + 23 + |x| + |sp| + |w|, w)));
  }

  lemma PronounceMatcher(s: string, i: nat, h: Option<Hit>)
    requires i < |s| && OpenTagBody(s, i, "Pronounce") == h
    ensures MatchAt(Pronounce, s, i) == h
  {
  }

  /** The foreign and pronounce tags as `clean_text` sees them. */
  lemma OpenTagSpellings(x: string, body: string)
    ensures OpenTagSpelling("Foreign", x, body) == "<Foreign" + x + ">" + body + "</Foreign>"
    ensures OpenTagSpelling("Pronounce", x, body) == "<Pronounce" + x + ">" + body + "</Pronounce>"
  {
  }

  /** `<Uncertain x>` around `@@` and optional whitespace turns into
      `(unintelligible)`. */
  lemma UnintelligibleHit(s: string, i: nat, x: string, sp1: string, sp2: string)
    requires HasAt(s, i, UnintelligibleSpelling(x, sp1, sp2))
    requires '>' !in x && AllSpace(sp1) && AllSpace(sp2)
    ensures MatchAt(Unintelligible, s, i) == Some(Hit(i + 25 + |x| + |sp1| + |sp2|, "(unintelligible)"))
  {
    var b := i + 10 + |x|;
    var c := b + 1 + |sp1|;
    var d := c + 2 + |sp2|;
    UnintelligiblePieces(s, i, x, sp1, sp2, b, c, d);
    UnintelligibleRuns(s, i, x, sp1, sp2, b, c, d);
  }

  /** `<Uncertain x>sp1@@sp2</Uncertain>`. */
  function UnintelligibleSpelling(x: string, sp1: string, sp2: string): (r: string)
    ensures |r| == |x| + |sp1| + |sp2| + 25
  {
    "<Uncertain" + (x + ">") + (sp1 + "@@" + sp2 + "</Uncertain>")
  }

  /** Where the pieces of `<Uncertain x>sp1@@sp2</Uncertain>` sit in `s`: the
      tag opens at `i`, `>` is at `b`, `@@` at `c` and the closing tag at `d`. */
  predicate UnintelligibleLayout(s: string, i: nat, x: string, sp1: string, sp2: string, b: nat, c: nat, d: nat) {
    && HasAt(s, i, "<Uncertain") && HasAt(s, i + 10, x) && HasAt(s, b, ">") && b < |s| && s[b] == '>'
    && HasAt(s, b + 1, sp1) && HasAt(s, c, "@@") && c < |s| && s[c] == '@'
    && HasAt(s, c + 2, sp2) && HasAt(s, d, "</Uncertain>") && d < |s| && s[d] == '<'
  }

  /** The pieces of `<Uncertain x>sp1@@sp2</Uncertain>`. */
  lemma UnintelligiblePieces(s: string, i: nat, x: string, sp1: string, sp2: string, b: nat, c: nat, d: nat)
    requires HasAt(s, i, UnintelligibleSpelling(x, sp1, sp2))
    requires b == i + 10 + |x| && c == b + 1 + |sp1| && d == c + 2 + |sp2|
    ensures UnintelligibleLayout(s, i, x, sp1, sp2, b, c, d)
  {
    HasAtSplit(s, i, "<Uncertain" + (x + ">"), sp1 + "@@" + sp2 + "</Uncertain>");
    HasAtSplit(s, i, "<Uncertain", x + ">");
    HasAtSplit(s, i + 10, x, ">");
    HasAtSplit(s, b + 1, sp1 + "@@" + sp2, "</Uncertain>");
    HasAtSplit(s, b + 1, sp1 + "@@", sp2);
    HasAtSplit(s, b + 1, sp1, "@@");
    HasAtFirst(s, b, ">");
    HasAtFirst(s, c, "@@");
    HasAtFirst(s, d, "</Uncertain>");
  }

  /** The runs between the pieces of `<Uncertain x>sp1@@sp2</Uncertain>`. */
  lemma UnintelligibleRuns(s: string, i: nat, x: string, sp1: string, sp2: string, b: nat, c: nat, d: nat)
    requires '>' !in x && AllSpace(sp1) && AllSpace(sp2)
    requires b == i + 10 + |x| && c == b + 1 + |sp1| && d == c + 2 + |sp2|
    requires UnintelligibleLayout(s, i, x, sp1, sp2, b, c, d)
    ensures MatchAt(Unintelligible, s, i) == Some(Hit(d + 12, "(unintelligible)"))
  {
    InsideTagRun(s, i + 10, x);
    SpacesRun(s, b + 1, sp1);
    SpacesRun(s, c + 2, sp2);
    UnintelligibleSteps(s, i, b, c, d);
    UnintelligibleMatcher(s, i, Some(Hit(d + 12, "(unintelligible)")));
  }

  lemma UnintelligibleMatcher(s: string, i: nat, h: Option<Hit>)
    requires i < |s| && UnintelligibleAt(s, i) == h
    ensures MatchAt(Unintelligible, s, i) == h
  {
  }

  lemma UnintelligibleSteps(s: string, i: nat, b: nat, c: nat, d: nat)
    requires HasAt(s, i, "<Uncertain") && i + 10 <= |s| && RunEnd(s, i + 10, NotGt) == b && HasAt(s, b, ">")
    requires RunEnd(s, b + 1, Space) == c && HasAt(s, c, "@@")
    requires RunEnd(s, c + 2, Space) == d && HasAt(s, d, "</Uncertain>")
    ensures UnintelligibleAt(s, i) == Some(Hit(d + 12, "(unintelligible)"))
  {
  }

  /** `<x>`, for a non-empty `x` without `>`, is matched whole and leaves
      nothing. */
  lemma AnyTagHit(s: string, i: nat, x: string)
    requires HasAt(s, i, "<" + x + ">") && |x| > 0 && '>' !in x
    ensures MatchAt(AnyTag, s, i) == Some(Hit(i + |x| + 2, ""))
  {
    HasAtSplit(s, i, "<" + x, ">");
    HasAtSplit(s, i, "<", x);
    HasAtFirst(s, i, "<");
    HasAtFirst(s, i + 1 + |x|, ">");
    InsideTagRun(s, i + 1, x);
  }

  /** `s` is `a`, then `m`, then `b`. */
  lemma Pieces(s: string, a: string, m: string, b: string)
    requires s == a + m + b
    ensures s[..|a|] == a && s[|a| + |m|..] == b && HasAt(s, |a|, m)
  {
    assert s[|a|..|a| + |m|] == m;
  }

  /** A stage that begins with a literal and matches `s[n..e]`, where that
      literal's first character occurs neither before `n` nor from `e` on,
      rewrites just the matched text. */
  lemma SingleHitIn(rule: Rule, s: string, n: nat, e: nat, out: string)
    requires n < e <= |s|
    requires Trigger(rule).Some? && Trigger(rule).value !in s[..n] && Trigger(rule).value !in s[e..]
    requires MatchAt(rule, s, n) == Some(Hit(e, out))
    ensures Apply(rule, s) == s[..n] + out + s[e..]
  {
    assert s[0..n] == s[..n] && s[e..|s|] == s[e..];
    NoTriggerBetween(rule, s, 0, n);
    NoTriggerBetween(rule, s, e, |s|);
    SingleHit(rule, s, n, Hit(e, out));
  }
}

=== FILE: text.dfy ===
/** The parts of Python's `str` and `re` vocabulary the ingestion code relies
    on: whitespace and word characters, `strip`, `lower`, `join`, `split`,
    prefix slicing, and the character classes the rewrite patterns use. */
module Text {

  /** Python's `str.isspace`, which is also what `\s` matches in a `str`
      pattern and what `str.strip()` removes. */
  predicate IsSpace(c: char) {
    var n := c as int;
    (0x09 <= n <= 0x0D) || (0x1C <= n <= 0x20) || n == 0x85 || n == 0xA0
    || n == 0x1680 || (0x2000 <= n <= 0x200A) || n == 0x2028 || n == 0x2029
    || n == 0x202F || n == 0x205F || n == 0x3000
  }

  /** `\w`, restricted to ASCII: a letter, a digit or the underscore. */
  predicate IsWord(c: char) {
    ('a' <= c <= 'z') || ('A' <= c <= 'Z') || ('0' <= c <= '9') || c == '_'
  }

  predicate AllSpace(s: string) {
    forall k :: 0 <= k < |s| ==> IsSpace(s[k])
  }

  /** No two neighbouring characters are both whitespace. */
  predicate NoDoubleSpace(s: string) {
    forall k :: 0 <= k < |s| - 1 ==> !(IsSpace(s[k]) && IsSpace(s[k + 1]))
  }

  /** Every whitespace character is the plain space. */
  predicate OnlyPlainSpaces(s: string) {
    forall k :: 0 <= k < |s| ==> IsSpace(s[k]) ==> s[k] == ' '
  }

  /** `s.lstrip()`: the longest suffix of `s` that does not start with whitespace. */
  function StripLeading(s: string): (r: string)
    ensures |r| <= |s| && r == s[|s| - |r|..]
    ensures AllSpace(s[..|s| - |r|])
    ensures |r| > 0 ==> !IsSpace(r[0])
  {
    if |s| > 0 && IsSpace(s[0]) then StripLeading(s[1..]) else s
  }

  /** `s.rstrip()`: the longest prefix of `s` that does not end with whitespace. */
  function StripTrailing(s: string): (r: string)
    ensures |r| <= |s| && r == s[..|r|]
    ensures AllSpace(s[|r|..])
    ensures |r| > 0 ==> !IsSpace(r[|r| - 1])
  {
    if |s| > 0 && IsSpace(s[|s| - 1]) then StripTrailing(s[..|s| - 1]) else s
  }

  /** `s.strip()`. */
  function Strip(s: string): string {
    StripTrailing(StripLeading(s))
  }

  /** Where the result of `strip` starts in `s`. */
  function StripStart(s: string): nat {
    |s| - |StripLeading(s)|
  }

  /** The result of `strip` is the piece of `s` from `StripStart(s)` on that
      lies between two whitespace-only margins, and it neither starts nor ends
      with whitespace. */
  lemma StripSpec(s: string)
    ensures var r, a := Strip(s), StripStart(s);
      && a + |r| <= |s| && r == s[a..a + |r|]
      && AllSpace(s[..a]) && AllSpace(s[a + |r|..])
      && (|r| > 0 ==> !IsSpace(r[0]) && !IsSpace(r[|r| - 1]))
  {
    StripPiece(s);
    StripTrailingMargin(s);
    StripEnds(s);
  }

  /** `r` is `s` with whitespace cut from both ends and nowhere else: a
      slice of `s` between whitespace-only margins that neither starts nor
      ends with whitespace. */
  ghost predicate StrippedFrom(r: string, s: string) {
    exists a :: 0 <= a <= |s| - |r| && r == s[a..a + |r|]
      && AllSpace(s[..a]) && AllSpace(s[a + |r|..])
      && (|r| > 0 ==> !IsSpace(r[0]) && !IsSpace(r[|r| - 1]))
  }

  lemma StripStrips(s: string)
    ensures StrippedFrom(Strip(s), s)
  {
    StripSpec(s);
    var a := StripStart(s);
    assert 0 <= a <= |s| - |Strip(s)|;
  }

  /** `strip` returns a piece of its argument. */
  lemma StripPiece(s: string)
    ensures var r, a := Strip(s), StripStart(s);
      a + |r| <= |s| && r == s[a..a + |r|]
  {
    var l := StripLeading(s);
    SuffixPrefix(s, l, StripTrailing(l));
  }

  /** A prefix of a suffix of `s` is a slice of `s`. */
  lemma SuffixPrefix(s: string, l: string, r: string)
    requires |l| <= |s| && l == s[|s| - |l|..]
    requires |r| <= |l| && r == l[..|r|]
    ensures r == s[|s| - |l|..|s| - |l| + |r|]
  {
  }

  /** Only whitespace follows what `strip` returns. */
  lemma StripTrailingMargin(s: string)
    ensures var r, a := Strip(s), StripStart(s);
      a + |r| <= |s| && AllSpace(s[a + |r|..])
  {
    var l := StripLeading(s);
    var r := StripTrailing(l);
    SpaceAfter(s, l, |r|);
  }

  /** Whitespace after a prefix of a suffix of `s` is whitespace at the end
      of `s`. */
  lemma SpaceAfter(s: string, l: string, n: nat)
    requires |l| <= |s| && l == s[|s| - |l|..] && n <= |l|
    requires AllSpace(l[n..])
    ensures AllSpace(s[|s| - |l| + n..])
  {
    assert s[|s| - |l| + n..] == l[n..];
  }

  /** What `strip` returns neither starts nor ends with whitespace. */
  lemma StripEnds(s: string)
    ensures var r := Strip(s);
      |r| > 0 ==> !IsSpace(r[0]) && !IsSpace(r[|r| - 1])
  {
    var l := StripLeading(s);
    var r := StripTrailing(l);
    if |r| > 0 {
      assert r[0] == l[0];
    }
  }

  /** Stripping a string without whitespace at either end changes nothing. */
  lemma StripUnchanged(s: string)
    requires |s| > 0 ==> !IsSpace(s[0]) && !IsSpace(s[|s| - 1])
    ensures Strip(s) == s
  {
  }

  /** A piece of a string without double whitespace has none either. */
  lemma NoDoubleSpaceSlice(s: string, a: nat, b: nat)
    requires a <= b <= |s|
    requires NoDoubleSpace(s)
    ensures NoDoubleSpace(s[a..b])
  {
    var t := s[a..b];
    forall k | 0 <= k < |t| - 1
      ensures !(IsSpace(t[k]) && IsSpace(t[k + 1]))
    {
      assert t[k] == s[a + k] && t[k + 1] == s[a + k + 1];
    }
  }

  /** A piece of a string whose whitespace is plain spaces has only plain spaces. */
  lemma OnlyPlainSpacesSlice(s: string, a: nat, b: nat)
    requires a <= b <= |s|
    requires OnlyPlainSpaces(s)
    ensures OnlyPlainSpaces(s[a..b])
  {
    var t := s[a..b];
    forall k | 0 <= k < |t|
      ensures IsSpace(t[k]) ==> t[k] == ' '
    {
      assert t[k] == s[a + k];
    }
  }

  /** Stripping text whose whitespace is single plain spaces leaves text with
      no whitespace at either end, still single plain spaces only, and so no
      line break. */
  lemma StripNormalized(x: string)
    requires NoDoubleSpace(x) && OnlyPlainSpaces(x)
    ensures var r := Strip(x);
      && (|r| > 0 ==> !IsSpace(r[0]) && !IsSpace(r[|r| - 1]))
      && NoDoubleSpace(r) && OnlyPlainSpaces(r) && '\n' !in r
  {
    var r, a := Strip(x), StripStart(x);
    StripPiece(x);
    StripEnds(x);
    NoDoubleSpaceSlice(x, a, a + |r|);
    OnlyPlainSpacesSlice(x, a, a + |r|);
    PlainSpacesNoNewline(r);
  }

  /** Text whose only whitespace is plain spaces has no line break. */
  lemma PlainSpacesNoNewline(r: string)
    requires OnlyPlainSpaces(r)
    ensures '\n' !in r
  {
    forall k | 0 <= k < |r|
      ensures r[k] != '\n'
    {
      assert r[k] == '\n' ==> IsSpace(r[k]);
    }
  }

  /** Text without any whitespace. */
  predicate NoSpace(t: string) {
    forall k :: 0 <= k < |t| ==> !IsSpace(t[k])
  }

  /** The characters of `s` other than whitespace, in order: what a
      whitespace-only rewrite must keep. */
  function NonSpace(s: string): (r: string)
    ensures |r| <= |s|
  {
    if |s| == 0 then ""
    else if IsSpace(s[0]) then NonSpace(s[1..])
    else [s[0]] + NonSpace(s[1..])
  }

  lemma {:induction false} NonSpaceConcat(x: string, y: string)
    ensures NonSpace(x + y) == NonSpace(x) + NonSpace(y)
    decreases |x|
  {
    if |x| == 0 {
      assert x + y == y;
    } else {
      var xy := x + y;
      assert xy[0] == x[0] && xy[1..] == x[1..] + y;
      NonSpaceConcat(x[1..], y);
      if IsSpace(x[0]) {
        assert NonSpace(xy) == NonSpace(xy[1..]);
      } else {
        assert NonSpace(xy) == [x[0]] + NonSpace(xy[1..]);
      }
    }
  }

  lemma {:induction false} NonSpaceOfSpaces(s: string)
    requires AllSpace(s)
    ensures NonSpace(s) == ""
    decreases |s|
  {
    if |s| > 0 {
      NonSpaceOfSpaces(s[1..]);
    }
  }

  /** `strip` removes whitespace and nothing else. */
  lemma StripKeepsNonSpace(s: string)
    ensures NonSpace(Strip(s)) == NonSpace(s)
  {
    StripSpec(s);
    var r, a := Strip(s), StripStart(s);
    var left, right := s[..a], s[a + |r|..];
    assert s == left + r + right;
    NonSpaceMargins(left, r, right);
  }

  /** Whitespace margins add nothing but whitespace. */
  lemma NonSpaceMargins(left: string, r: string, right: string)
    requires AllSpace(left) && AllSpace(right)
    ensures NonSpace(left + r + right) == NonSpace(r)
  {
    NonSpaceConcat(left + r, right);
    NonSpaceConcat(left, r);
    NonSpaceOfSpaces(left);
    NonSpaceOfSpaces(right);
  }

  /** `c.lower()` for ASCII letters; every other character is kept. */
  function LowerChar(c: char): char {
    if 'A' <= c <= 'Z' then (c as int + 32) as char else c
  }

  /** `s.lower()`, ASCII only. */
  function Lower(s: string): (r: string)
    ensures |r| == |s|
    ensures forall k :: 0 <= k < |s| ==> r[k] == LowerChar(s[k])
  {
    if |s| == 0 then "" else [LowerChar(s[0])] + Lower(s[1..])
  }

  /** `lit` occurs in `s` starting at index `i`. */
  predicate HasAt(s: string, i: nat, lit: string) {
    i + |lit| <= |s| && s[i..i + |lit|] == lit
  }

  /** `s.endswith(suffix)`. */
  predicate EndsWith(s: string, suffix: string) {
    |suffix| <= |s| && s[|s| - |suffix|..] == suffix
  }

  /** The character classes that the rewrite patterns repeat with `*` or `+`. */
  datatype CharClass = Space | NotQuote | NotLt | NotGt | NotRBracket

  predicate InClass(c: char, cls: CharClass) {
    match cls
    case Space => IsSpace(c)
    case NotQuote => c != '"'
    case NotLt => c != '<'
    case NotGt => c != '>'
    case NotRBracket => c != ']'
  }

  /** Where a greedy `[cls]*` that starts at `i` stops: the end of the longest
      run of class members from `i`. */
  function RunEnd(s: string, i: nat, cls: CharClass): (j: nat)
    requires i <= |s|
    ensures i <= j <= |s|
    ensures forall k :: i <= k < j ==> InClass(s[k], cls)
    ensures j < |s| ==> !InClass(s[j], cls)
    decreases |s| - i
  {
    if i < |s| && InClass(s[i], cls) then RunEnd(s, i + 1, cls) else i
  }

  /** Python's `s[:n]` for a non-negative `n`. */
  function Prefix(s: string, n: nat): (r: string)
    ensures |r| <= n && |r| <= |s|
    ensures |r| == if n < |s| then n else |s|
    ensures r == s[..|r|]
  {
    if n < |s| then s[..n] else s
  }

  /** `sep.join(parts)`. */
  function Join(sep: string, parts: seq<string>): string {
    if |parts| == 0 then ""
    else if |parts| == 1 then parts[0]
    else parts[0] + sep + Join(sep, parts[1..])
  }

  /** `s.split(sep)` for a one-character separator. */
  function Split(s: string, sep: char): (r: seq<string>)
    ensures |r| >= 1
    ensures forall k :: 0 <= k < |r| ==> sep !in r[k]
    decreases |s|
  {
    if |s| == 0 then [""]
    else
      var rest := Split(s[1..], sep);
      if s[0] == sep then [""] + rest else [[s[0]] + rest[0]] + rest[1..]
  }

  lemma SplitNoSep(s: string, sep: char)
    requires sep !in s
    ensures Split(s, sep) == [s]
  {
    if |s| > 0 {
      SplitNoSep(s[1..], sep);
      assert [s[0]] + s[1..] == s;
    }
  }

  lemma SplitAppend(a: string, sep: char, b: string)
    requires sep !in a
    ensures Split(a + [sep] + b, sep) == [a] + Split(b, sep)
    decreases |a|
  {
    if |a| == 0 {
      assert a + [sep] + b == [sep] + b;
      assert ([sep] + b)[1..] == b;
    } else {
      assert (a + [sep] + b)[1..] == a[1..] + [sep] + b;
      SplitAppend(a[1..], sep, b);
      assert [a[0]] + a[1..] == a;
    }
  }

  /** Splitting a join on its separator gives the parts back, provided no part
      contains the separator (the empty list joins to `""`, which splits to
      one empty part). */
  lemma {:induction false} SplitJoin(parts: seq<string>, sep: char)
    requires |parts| >= 1
    requires forall k :: 0 <= k < |parts| ==> sep !in parts[k]
    ensures Split(Join([sep], parts), sep) == parts
    decreases |parts|
  {
    if |parts| == 1 {
      SplitNoSep(parts[0], sep);
    } else {
      SplitJoin(parts[1..], sep);
      SplitAppend(parts[0], sep, Join([sep], parts[1..]));
      assert [parts[0]] + parts[1..] == parts;
    }
  }
}

=== FILE: transcript.dfy ===
/** `parse_mrt_file` and `extract_preamble_info`: one MRT transcript, already
    read into its element tree, becomes one indexed document whose text has
    one `[speaker]: words` line per kept utterance and whose metadata
    summarizes the meeting. */
module Transcript {
  import opened Wrappers
  import opened Text
  import opened Dict
  import opened Paths
  import opened Identifiers
  import opened Markup
  import opened Noise

  /** The default of `NOTES_MAX_LENGTH`: notes are cut to this many characters. */
  const NotesMaxLength := 500

  /** The speaker of a segment without a `Participant` attribute. */
  const UnknownSpeaker := "Unknown"

  /** A `StartTime` or `EndTime` attribute as `float(x) if x else None` sees
      it: missing or empty, a number, or text on which `float` raises. */
  datatype TimeAttr = NoTime | Seconds(value: real) | Unparseable

  /** A `Segment` element: its attributes and its serialized markup (the
      element as `ET.tostring` writes it). */
  datatype Segment = Segment(
    participant: Option<string>,
    digitTask: Option<string>,
    startTime: TimeAttr,
    endTime: TimeAttr,
    markup: string)

  /** A `Participant` element of the preamble. */
  datatype ParticipantEntry = ParticipantEntry(name: Option<string>, channel: Option<string>)

  /** The `Preamble` element: the text of its `Notes` child (absent when the
      child is missing or has no text) and its `Participants` children
      (absent when there is no `Participants` element). */
  datatype Preamble = Preamble(notes: Option<string>, participants: Option<seq<ParticipantEntry>>)

  /** What the root `Meeting` element says about the meeting: its
      `Session` and `DateTimeStamp` attributes and its `Preamble`. */
  datatype MeetingHeader = MeetingHeader(
    session: Option<string>,
    dateTimeStamp: Option<string>,
    preamble: Option<Preamble>)

  /** A parsed MRT file: the meeting header and the segments of its
      `Transcript` (absent when there is no `Transcript`). */
  datatype MrtTree = MrtTree(header: MeetingHeader, transcript: Option<seq<Segment>>)

  /** A kept utterance; `is_digit_task` is always false for these. */
  datatype Utterance = Utterance(speaker: string, text: string, startTime: Option<real>, endTime: Option<real>)

  /** What `extract_preamble_info` returns. */
  datatype PreambleInfo = PreambleInfo(notes: Option<string>, participants: OrderedMap<string, Option<string>>)

  /** The document metadata. The keys the source adds only conditionally
      (`date_time`, `notes`, `participants`, `start_time`, `end_time`,
      `duration_seconds`) are `None` when absent, and `uploadedFilename` is
      the key that an upload adds afterwards. */
  datatype Metadata = Metadata(
    meetingId: string,
    session: string,
    source: string,
    numUtterances: nat,
    speakers: seq<string>,
    numSpeakers: nat,
    meetingType: Option<string>,
    meetingTypeDescription: string,
    dateTime: Option<string>,
    notes: Option<string>,
    participants: Option<OrderedMap<string, Option<string>>>,
    startTime: Option<real>,
    endTime: Option<real>,
    durationSeconds: Option<real>,
    uploadedFilename: Option<string>)

  datatype Document = Document(text: string, metadata: Metadata)

  /** Python truthiness of an optional string: present and non-empty. */
  predicate Truthy(s: Option<string>) {
    s.Some? && |s.value| > 0
  }

  // ---------------------------------------------------------------- preamble

  /** The participants dict: every participant with a non-empty name maps
      that name to its channel; a later entry for a name overwrites an
      earlier one. */
  function CollectParticipants(es: seq<ParticipantEntry>): (d: OrderedMap<string, Option<string>>)
    ensures d.Valid()
    ensures forall n :: n in d.entries ==> |n| > 0
  {
    if |es| == 0 then Empty()
    else
      var d := CollectParticipants(es[..|es| - 1]);
      var e := es[|es| - 1];
      if Truthy(e.name) then d.Put(e.name.value, e.channel) else d
  }

  /** Entry `i` is the last one that names `n`. */
  predicate LastNamed(es: seq<ParticipantEntry>, i: nat, n: string) {
    i < |es| && es[i].name == Some(n) && forall j :: i < j < |es| ==> es[j].name != Some(n)
  }

  /** One step of the loop over the participants, on the dict's entries. */
  lemma CollectParticipantsStep(es: seq<ParticipantEntry>)
    requires |es| > 0
    ensures var e, before := es[|es| - 1], CollectParticipants(es[..|es| - 1]).entries;
      CollectParticipants(es).entries ==
        if Truthy(e.name) then before[e.name.value := e.channel] else before
  {
  }

  /** Some entry carries the name `n`. */
  predicate Named(es: seq<ParticipantEntry>, n: string) {
    exists i :: 0 <= i < |es| && es[i].name == Some(n)
  }

  /** A non-empty name is in the participants dict exactly when some entry
      carries it. */
  lemma {:induction false} CollectParticipantsHas(es: seq<ParticipantEntry>, n: string)
    requires |n| > 0
    ensures n in CollectParticipants(es).entries <==> Named(es, n)
  {
    if |es| > 0 {
      var init := es[..|es| - 1];
      var e := es[|es| - 1];
      CollectParticipantsHas(init, n);
      CollectParticipantsStep(es);
      if e.name == Some(n) {
        assert es[|es| - 1].name == Some(n);
      } else {
        if Named(es, n) {
          var i :| 0 <= i < |es| && es[i].name == Some(n);
          assert init[i] == es[i];
        }
        if Named(init, n) {
          var i :| 0 <= i < |init| && init[i].name == Some(n);
          assert es[i] == init[i];
        }
      }
    }
  }

  /** A name maps to the channel of the last entry that carries it: a later
      participant with the same name overwrites an earlier one. */
  lemma {:induction false} CollectParticipantsLast(es: seq<ParticipantEntry>, i: nat, n: string)
    requires |n| > 0 && LastNamed(es, i, n)
    ensures n in CollectParticipants(es).entries
    ensures CollectParticipants(es).entries[n] == es[i].channel
  {
    var init := es[..|es| - 1];
    var e := es[|es| - 1];
    CollectParticipantsStep(es);
    if i < |es| - 1 {
      assert init[i] == es[i];
      assert LastNamed(init, i, n) by {
        forall j | i < j < |init|
          ensures init[j].name != Some(n)
        {
          assert init[j] == es[j];
        }
      }
      CollectParticipantsLast(init, i, n);
      assert e.name != Some(n);
    }
  }

  /** Every non-empty name is recorded exactly when some entry carries it,
      and then with the channel of the last entry that does. */
  lemma CollectParticipantsMeaning(es: seq<ParticipantEntry>)
    ensures forall n :: |n| > 0 ==> (n in CollectParticipants(es).entries <==> Named(es, n))
    ensures forall i: nat, n :: |n| > 0 && LastNamed(es, i, n) ==>
      n in CollectParticipants(es).entries && CollectParticipants(es).entries[n] == es[i].channel
  {
    forall n | |n| > 0
      ensures n in CollectParticipants(es).entries <==> Named(es, n)
    {
      CollectParticipantsHas(es, n);
    }
    forall i: nat, n | |n| > 0 && LastNamed(es, i, n)
      ensures n in CollectParticipants(es).entries && CollectParticipants(es).entries[n] == es[i].channel
    {
      CollectParticipantsLast(es, i, n);
    }
  }

  /** `extract_preamble_info`: the notes text with the whitespace at its ends
      cut, when the `Notes` element has any text, and the participants dict
      built from the `Participant` entries. */
  function ExtractPreambleInfo(p: Preamble): (info: PreambleInfo)
    ensures info.notes.Some? <==> Truthy(p.notes)
    ensures info.notes.Some? ==> info.notes.value == Strip(p.notes.value)
    ensures info.participants.Valid()
    ensures p.participants.None? ==> info.participants.Size() == 0
    ensures p.participants.Some? ==> info.participants == CollectParticipants(p.participants.value)
  {
    var notes := if Truthy(p.notes) then Some(Strip(p.notes.value)) else None;
    var participants := if p.participants.Some? then CollectParticipants(p.participants.value) else Empty();
    PreambleInfo(notes, participants)
  }

  /** What the preamble info means: the notes are a slice of the `Notes` text
      with only whitespace cut from its ends; a non-empty name is recorded
      exactly when some `Participant` entry carries it, and then with the
      channel of the last entry that does; no empty name is recorded. */
  lemma ExtractPreambleInfoMeaning(p: Preamble)
    ensures var info := ExtractPreambleInfo(p);
      && (info.notes.Some? ==> StrippedFrom(info.notes.value, p.notes.value))
      && (forall n :: n in info.participants.entries ==> |n| > 0)
      && (forall n :: |n| > 0 ==>
            (n in info.participants.entries <==> p.participants.Some? && Named(p.participants.value, n)))
      && (forall i: nat, n :: p.participants.Some? && |n| > 0 && LastNamed(p.participants.value, i, n) ==>
            n in info.participants.entries && info.participants.entries[n] == p.participants.value[i].channel)
  {
    var info := ExtractPreambleInfo(p);
    if p.notes.Some? {
      StripStrips(p.notes.value);
    }
    if p.participants.Some? {
      CollectParticipantsMeaning(p.participants.value);
    }
  }

  // ---------------------------------------------------------------- segments

  /** `segment.get("DigitTask") == "true"`. */
  predicate IsDigitTask(seg: Segment) {
    seg.digitTask == Some("true")
  }

  function SpeakerOf(seg: Segment): string {
    seg.participant.GetOr(UnknownSpeaker)
  }

  /** A segment together with what the loop computes from it: its cleaned
      markup, `clean_text(ET.tostring(segment))`, and whether that is noise. */
  datatype Candidate = Candidate(seg: Segment, text: string, noise: bool)

  /** Cleaned text: whitespace is single plain spaces, with no margin and
      no line break. */
  predicate CleanCandidate(c: Candidate) {
    && NoDoubleSpace(c.text) && OnlyPlainSpaces(c.text) && '\n' !in c.text
    && (|c.text| > 0 ==> !IsSpace(c.text[0]) && !IsSpace(c.text[|c.text| - 1]))
  }

  /** The loop body's view of one segment: its markup cleaned, which is
      clean text, and the noise test of that. */
  function Examine(seg: Segment): (c: Candidate)
    ensures c.seg == seg && c.text == CleanText(seg.markup) && c.noise == IsEmptyOrNoise(c.text)
    ensures CleanCandidate(c)
  {
    var text := CleanText(seg.markup);
    Candidate(seg, text, IsEmptyOrNoise(text))
  }

  /** `f` applied to each element of `s`, in order. */
  function MapSeq<A, B>(f: A -> B, s: seq<A>): (r: seq<B>)
    ensures |r| == |s| && forall k :: 0 <= k < |s| ==> r[k] == f(s[k])
  {
    seq(|s|, k requires 0 <= k < |s| => f(s[k]))
  }

  lemma MapSeqAppend<A, B>(f: A -> B, a: seq<A>, b: seq<A>)
    ensures MapSeq(f, a + b) == MapSeq(f, a) + MapSeq(f, b)
  {
    var l, r := MapSeq(f, a + b), MapSeq(f, a) + MapSeq(f, b);
    forall k | 0 <= k < |l|
      ensures l[k] == r[k]
    {
      if k < |a| {
        assert (a + b)[k] == a[k];
      } else {
        assert (a + b)[k] == b[k - |a|];
      }
    }
  }

  /** Each segment examined, in document order. */
  function Prepare(segs: seq<Segment>): (cs: seq<Candidate>)
    ensures |cs| == |segs|
    ensures forall k :: 0 <= k < |segs| ==> cs[k] == Examine(segs[k])
  {
    MapSeq(Examine, segs)
  }

  /** A segment becomes an utterance: it is not a digit task and its cleaned
      markup is non-empty and not noise. */
  predicate Kept(c: Candidate) {
    !IsDigitTask(c.seg) && |c.text| > 0 && !c.noise
  }

  /** Neither time attribute of the segment makes `float` raise. */
  predicate TimesParse(c: Candidate) {
    c.seg.startTime != Unparseable && c.seg.endTime != Unparseable
  }

  function TimeValue(t: TimeAttr): Option<real>
    requires t != Unparseable
  {
    if t.Seconds? then Some(t.value) else None
  }

  function ToUtterance(c: Candidate): (u: Utterance)
    requires TimesParse(c)
    ensures u.speaker == SpeakerOf(c.seg) && u.text == c.text
  {
    Utterance(SpeakerOf(c.seg), c.text, TimeValue(c.seg.startTime), TimeValue(c.seg.endTime))
  }

  /** The kept segments, in document order. */
  function Survivors(segs: seq<Candidate>): (r: seq<Candidate>)
    ensures |r| <= |segs|
    ensures forall k :: 0 <= k < |r| ==> Kept(r[k])
  {
    if |segs| == 0 then []
    else if Kept(segs[0]) then [segs[0]] + Survivors(segs[1..])
    else Survivors(segs[1..])
  }

  /** The loop over the segments: it stops with an error (and the whole
      file yields `None`) at the first kept segment with a time that
      `float` rejects; otherwise it collects one utterance per kept segment. */
  function CollectUtterances(segs: seq<Candidate>): Option<seq<Utterance>> {
    if |segs| == 0 then Some([])
    else
      var seg := segs[0];
      if Kept(seg) then
        if !TimesParse(seg) then None
        else
          match CollectUtterances(segs[1..])
          case None => None
          case Some(rest) => Some([ToUtterance(seg)] + rest)
      else CollectUtterances(segs[1..])
  }

  /** Every kept segment has times that parse. */
  predicate AllTimesParse(segs: seq<Candidate>) {
    forall k :: 0 <= k < |segs| ==> TimesParse(segs[k])
  }

  /** The utterances of segments whose times all parse. */
  function Utterances(segs: seq<Candidate>): (us: seq<Utterance>)
    requires AllTimesParse(segs)
    ensures |us| == |segs|
    ensures forall k :: 0 <= k < |segs| ==> us[k] == ToUtterance(segs[k])
  {
    seq(|segs|, k requires 0 <= k < |segs| => ToUtterance(segs[k]))
  }

  /** The loop fails exactly when a kept segment has an unparseable time,
      and otherwise yields the kept segments' utterances in order. */
  lemma {:induction false} CollectUtterancesSpec(segs: seq<Candidate>)
    ensures CollectUtterances(segs).Some? <==> AllTimesParse(Survivors(segs))
    ensures CollectUtterances(segs).Some? ==> CollectUtterances(segs).value == Utterances(Survivors(segs))
  {
    if |segs| > 0 {
      CollectUtterancesSpec(segs[1..]);
      var rest := Survivors(segs[1..]);
      if Kept(segs[0]) {
        var all := [segs[0]] + rest;
        assert Survivors(segs) == all;
        assert AllTimesParse(all) <==> TimesParse(segs[0]) && AllTimesParse(rest) by {
          assert forall k :: 0 < k < |all| ==> all[k] == rest[k - 1];
          if TimesParse(segs[0]) && AllTimesParse(rest) {
            forall k | 0 <= k < |all|
              ensures TimesParse(all[k])
            {
              if k > 0 { assert all[k] == rest[k - 1]; }
            }
          }
          if AllTimesParse(all) {
            forall k | 0 <= k < |rest|
              ensures TimesParse(rest[k])
            {
              assert rest[k] == all[k + 1];
            }
            assert TimesParse(all[0]);
          }
        }
      }
    }
  }

  /** Filtering distributes over concatenation. */
  lemma {:induction false} SurvivorsAppend(a: seq<Candidate>, b: seq<Candidate>)
    ensures Survivors(a + b) == Survivors(a) + Survivors(b)
  {
    if |a| > 0 {
      assert (a + b)[1..] == a[1..] + b;
      SurvivorsAppend(a[1..], b);
    } else {
      assert a + b == b;
    }
  }

  /** A digit-task segment contributes nothing, wherever it stands. */
  lemma DigitTaskDropped(a: seq<Candidate>, d: Candidate, b: seq<Candidate>)
    requires IsDigitTask(d.seg)
    ensures Survivors(a + [d] + b) == Survivors(a + b)
  {
    SurvivorsAppend(a + [d], b);
    SurvivorsAppend(a, [d]);
    SurvivorsAppend(a, b);
    assert Survivors([d]) == [] by {
      assert [d][1..] == [];
    }
    assert Survivors(a) + [] == Survivors(a);
  }

  /** Kept segments are among the segments, and every kept segment is kept. */
  lemma {:induction false} SurvivorsMembers(segs: seq<Candidate>)
    ensures forall c :: c in Survivors(segs) <==> c in segs && Kept(c)
  {
    if |segs| > 0 {
      SurvivorsMembers(segs[1..]);
      assert forall c :: c in segs <==> c == segs[0] || c in segs[1..];
    }
  }

  // ---------------------------------------------------------------- document text

  /** `f"[{speaker}]: {text}"`. */
  function FormatLine(u: Utterance): (line: string)
    ensures line == "[" + u.speaker + "]: " + u.text
  {
    "[" + u.speaker + "]: " + u.text
  }

  function Lines(us: seq<Utterance>): (ls: seq<string>)
    ensures |ls| == |us|
    ensures forall k :: 0 <= k < |us| ==> ls[k] == FormatLine(us[k])
  {
    seq(|us|, k requires 0 <= k < |us| => FormatLine(us[k]))
  }

  /** A formatted line has no line break when its speaker has none, since
      cleaned text never does. */
  lemma FormatLineOneLine(u: Utterance)
    requires '\n' !in u.speaker && '\n' !in u.text
    ensures '\n' !in FormatLine(u)
  {
    var line := FormatLine(u);
    forall k | 0 <= k < |line|
      ensures line[k] != '\n'
    {
      if k == 0 {
      } else if k < 1 + |u.speaker| {
        assert line[k] == u.speaker[k - 1];
      } else if k < 4 + |u.speaker| {
      } else {
        assert line[k] == u.text[k - 4 - |u.speaker|];
      }
    }
  }

  // ---------------------------------------------------------------- times and speakers

  function StartTimes(us: seq<Utterance>): (ts: seq<real>)
    ensures |ts| <= |us|
    ensures forall t :: t in ts <==> exists k :: 0 <= k < |us| && us[k].startTime == Some(t)
  {
    if |us| == 0 then []
    else
      var rest := StartTimes(us[1..]);
      assert forall k :: 0 < k < |us| ==> us[k] == us[1..][k - 1];
      if us[0].startTime.Some? then [us[0].startTime.value] + rest else rest
  }

  function EndTimes(us: seq<Utterance>): (ts: seq<real>)
    ensures |ts| <= |us|
    ensures forall t :: t in ts <==> exists k :: 0 <= k < |us| && us[k].endTime == Some(t)
  {
    if |us| == 0 then []
    else
      var rest := EndTimes(us[1..]);
      assert forall k :: 0 < k < |us| ==> us[k] == us[1..][k - 1];
      if us[0].endTime.Some? then [us[0].endTime.value] + rest else rest
  }

  /** `min(xs)`. */
  function MinOf(xs: seq<real>): (m: real)
    requires |xs| > 0
    ensures m in xs && forall x :: x in xs ==> m <= x
  {
    if |xs| == 1 then xs[0]
    else
      var rest := MinOf(xs[1..]);
      assert forall x :: x in xs ==> x == xs[0] || x in xs[1..];
      if xs[0] <= rest then xs[0] else rest
  }

  /** `max(xs)`. */
  function MaxOf(xs: seq<real>): (m: real)
    requires |xs| > 0
    ensures m in xs && forall x :: x in xs ==> x <= m
  {
    if |xs| == 1 then xs[0]
    else
      var rest := MaxOf(xs[1..]);
      assert forall x :: x in xs ==> x == xs[0] || x in xs[1..];
      if xs[0] >= rest then xs[0] else rest
  }

  /** `list(speakers)`: each speaker once. Python leaves the order of a set
      unspecified; this lists speakers in order of first appearance. */
  function DistinctSpeakers(us: seq<Utterance>): (ss: seq<string>)
    ensures forall i, j :: 0 <= i < j < |ss| ==> ss[i] != ss[j]
    ensures forall s :: s in ss <==> exists k :: 0 <= k < |us| && us[k].speaker == s
    ensures |ss| <= |us|
    ensures |us| > 0 ==> |ss| > 0
  {
    if |us| == 0 then []
    else
      var init := us[..|us| - 1];
      var ss := DistinctSpeakers(init);
      var s := us[|us| - 1].speaker;
      assert forall k :: 0 <= k < |init| ==> us[k] == init[k];
      if s in ss then ss else ss + [s]
  }

  // ---------------------------------------------------------------- the document

  /** The metadata of a file with at least one utterance. */
  function BuildMetadata(path: string, header: MeetingHeader, us: seq<Utterance>): Metadata
    requires |us| > 0
  {
    var meetingId := Stem(path);
    var typeCode := ParseMeetingId(meetingId).typeCode;
    var info := if header.preamble.Some? then ExtractPreambleInfo(header.preamble.value)
      else PreambleInfo(None, Empty());
    var speakers := DistinctSpeakers(us);
    var starts := StartTimes(us);
    var ends := EndTimes(us);
    var duration := if |starts| > 0 && |ends| > 0 then Some(MaxOf(ends) - MinOf(starts)) else None;
    Metadata(
      meetingId := meetingId,
      session := header.session.GetOr(meetingId),
      source := path,
      numUtterances := |us|,
      speakers := speakers,
      numSpeakers := |speakers|,
      meetingType := typeCode,
      meetingTypeDescription := MeetingTypeDescription(typeCode),
      dateTime := if Truthy(header.dateTimeStamp) then header.dateTimeStamp else None,
      notes := if Truthy(info.notes) then Some(Prefix(info.notes.value, NotesMaxLength)) else None,
      participants := if info.participants.Size() > 0 then Some(info.participants) else None,
      startTime := if |starts| > 0 then Some(MinOf(starts)) else None,
      endTime := if |ends| > 0 then Some(MaxOf(ends)) else None,
      durationSeconds := if duration.Some? && duration.value != 0.0 then duration else None,
      uploadedFilename := None)
  }

  /** The document built from the utterances of a file: their lines, joined
      with line breaks, and the metadata. */
  function DocumentOf(path: string, header: MeetingHeader, us: seq<Utterance>): Document
    requires |us| > 0
  {
    Document(Join("\n", Lines(us)), BuildMetadata(path, header, us))
  }

  /** `parse_mrt_file`: `tree` is the parsed file, absent when the XML does
      not parse. */
  function ParseMrtFile(path: string, tree: Option<MrtTree>): (r: Option<Document>)
    ensures r.Some? ==> tree.Some? && tree.value.transcript.Some?
    ensures r.Some? ==> DocumentOfFile(path, r.value)
  {
    if tree.None? || tree.value.transcript.None? then None
    else ParseSegments(path, tree.value.header, Prepare(tree.value.transcript.value))
  }

  /** What every document of the file at `path` has: it names the file as
      its source, it holds at least one utterance, and it has not been
      uploaded. */
  predicate DocumentOfFile(path: string, doc: Document) {
    doc.metadata.source == path && doc.metadata.numUtterances >= 1 && doc.metadata.uploadedFilename.None?
  }

  /** The rest of `parse_mrt_file` once every segment has been examined:
      no document when the loop raised or kept nothing. */
  function ParseSegments(path: string, header: MeetingHeader, cs: seq<Candidate>): (r: Option<Document>)
    ensures r.Some? ==> DocumentOfFile(path, r.value)
  {
    match CollectUtterances(cs)
    case None => None
    case Some(us) => if |us| == 0 then None else Some(DocumentOf(path, header, us))
  }

  /** A transcript's document comes from its examined segments. */
  lemma ParseMrtFileOfSegments(path: string, header: MeetingHeader, segs: seq<Segment>)
    ensures ParseMrtFile(path, Some(MrtTree(header, Some(segs)))) == ParseSegments(path, header, Prepare(segs))
  {
  }

  /** The kept segments of a parsed file, with their cleaned text. */
  function KeptSegments(tree: MrtTree): seq<Candidate> {
    if tree.transcript.Some? then Survivors(Prepare(tree.transcript.value)) else []
  }

  /** Every examined segment's text is clean. */
  lemma PrepareClean(segs: seq<Segment>)
    ensures forall k :: 0 <= k < |segs| ==> CleanCandidate(Prepare(segs)[k])
  {
    forall k | 0 <= k < |segs|
      ensures CleanCandidate(Prepare(segs)[k])
    {
      assert Prepare(segs)[k] == Examine(segs[k]);
    }
  }

  /** Filtering keeps cleanliness. */
  lemma SurvivorsClean(cs: seq<Candidate>)
    requires forall k :: 0 <= k < |cs| ==> CleanCandidate(cs[k])
    ensures forall k :: 0 <= k < |Survivors(cs)| ==> CleanCandidate(Survivors(cs)[k])
  {
    SurvivorsMembers(cs);
    forall k | 0 <= k < |Survivors(cs)|
      ensures CleanCandidate(Survivors(cs)[k])
    {
      assert Survivors(cs)[k] in cs;
    }
  }

  /** Every kept segment's text is the cleaned text of one of the file's
      segments, and so is clean. */
  lemma KeptSegmentsClean(tree: MrtTree)
    ensures forall k :: 0 <= k < |KeptSegments(tree)| ==> CleanCandidate(KeptSegments(tree)[k])
  {
    if tree.transcript.Some? {
      PrepareClean(tree.transcript.value);
      SurvivorsClean(Prepare(tree.transcript.value));
    }
  }

  /** A kept segment's noise flag is the noise test of its text. */
  lemma KeptSegmentsExamined(tree: MrtTree, k: nat)
    requires k < |KeptSegments(tree)|
    ensures KeptSegments(tree)[k].noise == IsEmptyOrNoise(KeptSegments(tree)[k].text)
  {
    var c := KeptSegments(tree)[k];
    var cs := Prepare(tree.transcript.value);
    SurvivorsMembers(cs);
    assert c in cs;
    var j :| 0 <= j < |cs| && cs[j] == c;
    assert c == Examine(tree.transcript.value[j]);
  }

  /** The examined segments yield no document exactly when none is kept or
      a kept one has a time `float` rejects; otherwise the document is built
      from the kept segments' utterances, in order. */
  lemma ParseSegmentsSpec(path: string, header: MeetingHeader, cs: seq<Candidate>)
    ensures ParseSegments(path, header, cs).None? <==>
      |Survivors(cs)| == 0 || !AllTimesParse(Survivors(cs))
    ensures ParseSegments(path, header, cs).Some? ==>
      ParseSegments(path, header, cs).value == DocumentOf(path, header, Utterances(Survivors(cs)))
  {
    CollectUtterancesSpec(cs);
  }

  /** A file yields no document exactly when it does not parse, has no
      `Transcript`, keeps no segment, or has a kept segment with a time
      `float` rejects. */
  lemma ParseMrtFileFails(path: string, tree: Option<MrtTree>)
    ensures ParseMrtFile(path, tree).None? <==>
      || tree.None? || tree.value.transcript.None?
      || |KeptSegments(tree.value)| == 0
      || !AllTimesParse(KeptSegments(tree.value))
  {
    if tree.Some? && tree.value.transcript.Some? {
      ParseSegmentsSpec(path, tree.value.header, Prepare(tree.value.transcript.value));
    }
  }

  /** The document's lines, one per utterance, `[speaker]: text`, when no
      speaker name and no text contains a line break. */
  lemma DocumentLines(path: string, header: MeetingHeader, us: seq<Utterance>)
    requires |us| > 0
    requires forall k :: 0 <= k < |us| ==> '\n' !in us[k].speaker && '\n' !in us[k].text
    ensures var text := DocumentOf(path, header, us).text;
      && |Split(text, '\n')| == |us|
      && forall k :: 0 <= k < |us| ==> Split(text, '\n')[k] == "[" + us[k].speaker + "]: " + us[k].text
  {
    var ls := Lines(us);
    forall k | 0 <= k < |ls|
      ensures '\n' !in ls[k]
    {
      FormatLineOneLine(us[k]);
    }
    SplitJoin(ls, '\n');
  }

  /** The examined segments' document has one line per kept segment,
      `[speaker]: text`, when no kept speaker name or text contains a line
      break. */
  lemma ParseSegmentsLines(path: string, header: MeetingHeader, cs: seq<Candidate>)
    requires ParseSegments(path, header, cs).Some?
    requires forall k :: 0 <= k < |Survivors(cs)| ==>
      '\n' !in SpeakerOf(Survivors(cs)[k].seg) && '\n' !in Survivors(cs)[k].text
    ensures var doc, segs := ParseSegments(path, header, cs).value, Survivors(cs);
      && |Split(doc.text, '\n')| == |segs| == doc.metadata.numUtterances
      && forall k :: 0 <= k < |segs| ==>
           Split(doc.text, '\n')[k] == "[" + SpeakerOf(segs[k].seg) + "]: " + segs[k].text
  {
    ParseSegmentsSpec(path, header, cs);
    DocumentLines(path, header, Utterances(Survivors(cs)));
  }

  /** The document text of a parsed file has one line per kept segment,
      `[speaker]: text`, when no speaker name contains a line break; so the
      utterance count is the number of lines. */
  lemma ParseMrtFileLines(path: string, tree: Option<MrtTree>)
    requires ParseMrtFile(path, tree).Some?
    requires forall k :: 0 <= k < |KeptSegments(tree.value)| ==> '\n' !in SpeakerOf(KeptSegments(tree.value)[k].seg)
    ensures var doc, segs := ParseMrtFile(path, tree).value, KeptSegments(tree.value);
      && |Split(doc.text, '\n')| == |segs| == doc.metadata.numUtterances
      && forall k :: 0 <= k < |segs| ==>
           Split(doc.text, '\n')[k] == "[" + SpeakerOf(segs[k].seg) + "]: " + segs[k].text
  {
    var t := tree.value;
    var cs := Prepare(t.transcript.value);
    ParseMrtFileOfSegments(path, t.header, t.transcript.value);
    assert KeptSegments(t) == Survivors(cs);
    KeptSegmentsClean(t);
    forall k | 0 <= k < |Survivors(cs)|
      ensures '\n' !in SpeakerOf(Survivors(cs)[k].seg) && '\n' !in Survivors(cs)[k].text
    {
      assert CleanCandidate(KeptSegments(t)[k]);
    }
    ParseSegmentsLines(path, t.header, cs);
  }

  /** Every utterance carries cleaned text that is normalized and not noise. */
  lemma ParseMrtFileTextIsClean(path: string, tree: Option<MrtTree>, k: nat)
    requires tree.Some? && k < |KeptSegments(tree.value)|
    ensures var c := KeptSegments(tree.value)[k].text;
      && |c| >= MinUtteranceLength && !IsEmptyOrNoise(c)
      && NoDoubleSpace(c) && OnlyPlainSpaces(c) && '\n' !in c
  {
    KeptSegmentsClean(tree.value);
    var c := KeptSegments(tree.value)[k].text;
    assert Kept(KeptSegments(tree.value)[k]);
    KeptSegmentsExamined(tree.value, k);
    StripUnchanged(c);
  }

  /** The identity fields: the meeting id is the file's stem, the session
      defaults to it, the source is the path, and the meeting type comes
      from the id's second and third letters and the type table. */
  lemma MetadataIdentity(path: string, header: MeetingHeader, us: seq<Utterance>)
    requires |us| > 0
    ensures var m := BuildMetadata(path, header, us);
      && m.meetingId == Stem(path) && m.meetingId + Suffix(path) == Name(path)
      && m.session == (if header.session.Some? then header.session.value else Stem(path))
      && m.source == path
      && m.meetingType == ParseMeetingId(Stem(path)).typeCode
      && (m.meetingType.Some? <==> |Stem(path)| >= MinMeetingIdLength)
      && m.meetingTypeDescription == MeetingTypeDescription(m.meetingType)
      && (m.dateTime.Some? <==> Truthy(header.dateTimeStamp))
      && (m.dateTime.Some? ==> m.dateTime == header.dateTimeStamp)
      && m.uploadedFilename.None?
  {
    StemSuffix(path);
  }

  /** The speaker list names every speaker once, so there is at least one
      and at most one per utterance. */
  lemma MetadataSpeakers(path: string, header: MeetingHeader, us: seq<Utterance>)
    requires |us| > 0
    ensures var m := BuildMetadata(path, header, us);
      && m.numSpeakers == |m.speakers| && m.numUtterances == |us|
      && 1 <= m.numSpeakers <= |us|
      && (forall i, j :: 0 <= i < j < |m.speakers| ==> m.speakers[i] != m.speakers[j])
      && forall s :: s in m.speakers <==> exists k :: 0 <= k < |us| && us[k].speaker == s
  {
  }

  /** Notes are the stripped `Notes` text cut to `NOTES_MAX_LENGTH`
      characters, and are left out when that text is empty. */
  lemma MetadataNotes(path: string, header: MeetingHeader, us: seq<Utterance>)
    requires |us| > 0
    ensures var m := BuildMetadata(path, header, us);
      && (m.notes.Some? <==>
            header.preamble.Some? && header.preamble.value.notes.Some?
            && |Strip(header.preamble.value.notes.value)| > 0)
      && (m.notes.Some? ==>
            && 0 < |m.notes.value| <= NotesMaxLength
            && m.notes.value == Prefix(Strip(header.preamble.value.notes.value), NotesMaxLength))
  {
    if header.preamble.Some? && header.preamble.value.notes.Some? {
      StripSpec(header.preamble.value.notes.value);
    }
  }

  /** The participants entry appears exactly when the preamble names at
      least one participant, and is then the participants dict. */
  lemma MetadataParticipants(path: string, header: MeetingHeader, us: seq<Utterance>)
    requires |us| > 0
    ensures var m := BuildMetadata(path, header, us);
      && (m.participants.Some? <==>
            header.preamble.Some? && header.preamble.value.participants.Some?
            && CollectParticipants(header.preamble.value.participants.value).Size() > 0)
      && (m.participants.Some? ==> m.participants.value == CollectParticipants(header.preamble.value.participants.value))
  {
  }

  /** The meeting starts at the earliest start time and ends at the latest
      end time of its utterances; each is present when some utterance has
      that time. */
  lemma MetadataTimes(path: string, header: MeetingHeader, us: seq<Utterance>)
    requires |us| > 0
    ensures var m := BuildMetadata(path, header, us);
      && (m.startTime.Some? <==> exists k :: 0 <= k < |us| && us[k].startTime.Some?)
      && (m.startTime.Some? ==>
            (exists k :: 0 <= k < |us| && us[k].startTime == m.startTime)
            && forall k :: 0 <= k < |us| && us[k].startTime.Some? ==> m.startTime.value <= us[k].startTime.value)
      && (m.endTime.Some? <==> exists k :: 0 <= k < |us| && us[k].endTime.Some?)
      && (m.endTime.Some? ==>
            (exists k :: 0 <= k < |us| && us[k].endTime == m.endTime)
            && forall k :: 0 <= k < |us| && us[k].endTime.Some? ==> us[k].endTime.value <= m.endTime.value)
  {
    var starts, ends := StartTimes(us), EndTimes(us);
    if exists k :: 0 <= k < |us| && us[k].startTime.Some? {
      var k :| 0 <= k < |us| && us[k].startTime.Some?;
      assert us[k].startTime.value in starts;
    }
    if exists k :: 0 <= k < |us| && us[k].endTime.Some? {
      var k :| 0 <= k < |us| && us[k].endTime.Some?;
      assert us[k].endTime.value in ends;
    }
    forall k | 0 <= k < |us| && us[k].startTime.Some?
      ensures us[k].startTime.value in starts
    {
    }
    forall k | 0 <= k < |us| && us[k].endTime.Some?
      ensures us[k].endTime.value in ends
    {
    }
  }

  /** The duration is the end time minus the start time, present when both
      are and the difference is not zero (a zero duration is falsy and left
      out). */
  lemma MetadataDuration(path: string, header: MeetingHeader, us: seq<Utterance>)
    requires |us| > 0
    ensures var m := BuildMetadata(path, header, us);
      && (m.durationSeconds.Some? <==>
            m.startTime.Some? && m.endTime.Some? && m.endTime.value - m.startTime.value != 0.0)
      && (m.durationSeconds.Some? ==> m.durationSeconds.value == m.endTime.value - m.startTime.value)
  {
  }

  /** An utterance's times are its segment's parsed time attributes. */
  lemma UtteranceTimes(c: Candidate)
    requires TimesParse(c)
    ensures ToUtterance(c).startTime.Some? <==> c.seg.startTime.Seconds?
    ensures ToUtterance(c).startTime.Some? ==> ToUtterance(c).startTime.value == c.seg.startTime.value
    ensures ToUtterance(c).endTime.Some? <==> c.seg.endTime.Seconds?
    ensures ToUtterance(c).endTime.Some? ==> ToUtterance(c).endTime.value == c.seg.endTime.value
  {
  }

  /** The loop's outcome depends only on the kept segments. */
  lemma CollectUtterancesBySurvivors(a: seq<Candidate>, b: seq<Candidate>)
    requires Survivors(a) == Survivors(b)
    ensures CollectUtterances(a) == CollectUtterances(b)
  {
    CollectUtterancesSpec(a);
    CollectUtterancesSpec(b);
  }

  /** Examining distributes over the segment list. */
  lemma PrepareAppend(a: seq<Segment>, b: seq<Segment>)
    ensures Prepare(a + b) == Prepare(a) + Prepare(b)
  {
    MapSeqAppend(Examine, a, b);
  }

  /** Examining one segment keeps it. */
  lemma PrepareSingle(d: Segment)
    ensures |Prepare([d])| == 1 && Prepare([d])[0].seg == d
  {
  }

  /** A digit-task segment has no effect on the examined segments'
      outcome. */
  lemma ParseSegmentsSkipsDigitTask(path: string, header: MeetingHeader, a: seq<Candidate>, d: Candidate, b: seq<Candidate>)
    requires IsDigitTask(d.seg)
    ensures ParseSegments(path, header, a + [d] + b) == ParseSegments(path, header, a + b)
  {
    DigitTaskDropped(a, d, b);
    CollectUtterancesBySurvivors(a + [d] + b, a + b);
  }

  /** Examining the segments around one segment. */
  lemma PrepareAround(a: seq<Segment>, d: Segment, b: seq<Segment>)
    ensures Prepare(a + [d] + b) == Prepare(a) + [Prepare([d])[0]] + Prepare(b)
    ensures Prepare(a + b) == Prepare(a) + Prepare(b)
    ensures Prepare([d])[0].seg == d
  {
    PrepareMiddle(a, d, b);
    PrepareAppend(a, b);
    PrepareSingle(d);
  }

  lemma PrepareMiddle(a: seq<Segment>, d: Segment, b: seq<Segment>)
    ensures Prepare(a + [d] + b) == Prepare(a) + [Prepare([d])[0]] + Prepare(b)
  {
    var c := Prepare([d]);
    PrepareSingle(d);
    assert c == [c[0]];
    PrepareAppend(a + [d], b);
    PrepareAppend(a, [d]);
  }

  /** A digit-task segment has no effect on the document, wherever it
      stands in the transcript. */
  lemma ParseMrtFileSkipsDigitTasks(path: string, header: MeetingHeader, a: seq<Segment>, d: Segment, b: seq<Segment>)
    requires IsDigitTask(d)
    ensures ParseMrtFile(path, Some(MrtTree(header, Some(a + [d] + b))))
         == ParseMrtFile(path, Some(MrtTree(header, Some(a + b))))
  {
    ParseMrtFileOfSegments(path, header, a + [d] + b);
    ParseMrtFileOfSegments(path, header, a + b);
    PrepareAround(a, d, b);
    ParseSegmentsSkipsDigitTask(path, header, Prepare(a), Prepare([d])[0], Prepare(b));
  }
}

=== FILE: wrappers.dfy ===
/** Failure-compatible wrappers: the model's stand-ins for Python's `None`
    and for raised exceptions. */
module Wrappers {

  /** A value that may be absent (Python `Optional[T]`). */
  datatype Option<+T> = None | Some(value: T) {

    /** The value, or `default` when absent (Python `x if x is not None else default`). */
    function GetOr(default: T): T {
      match this
      case Some(v) => v
      case None => default
    }
  }

  /** Either a value or the error a Python function would raise. */
  datatype Result<+T, +E> = Success(value: T) | Failure(error: E) {

    predicate IsFailure() {
      Failure?
    }

    function PropagateFailure<U>(): Result<U, E>
      requires Failure?
    {
      Failure(error)
    }

    function Extract(): T
      requires Success?
    {
      value
    }
  }

  /** A check that either passes or raises (a Python function returning `None`
      or raising `ValueError`). */
  datatype Outcome<+E> = Pass | Fail(error: E)
}
